=== FILE: README.md ===
# Tournament backend core in Dafny

This project models the domain logic of an esports tournament backend. The original
is a Node.js/Mongoose service. It covers:

- tournaments and their registration lifecycle;
- registrations with entry fees paid from a wallet;
- matches, result reports and disputes;
- Elo ratings, teams, users and authentication tokens;
- wallet charges through a payment gateway and the admin dashboard;
- two scheduled jobs, the request validators, and the small guards and helpers around them.

Each service function in the source is a chain of guard checks followed by a small
change to the database. Here it is a pure function from a `Store` (`storage.dfy`, one
map per collection plus the registrations as a sequence) and its inputs to a
`Reply(store, result)`. Errors follow the source's `ApiError` as
`Fail(status, reason)`. A Mongoose validation failure or a runtime `TypeError`
surfaces as a 500 through the global error handler and is modelled as
`Crash(reason)`. Every multi-document workflow runs inside a database transaction,
so every operation carries the contract `result.Err? ==> store == s`. The one
exception is a cancelled payment callback, whose update happens outside the
transaction.

Things that the source takes from the outside world are inputs:

- the clock (`now`) and new document ids;
- the document a `findOne` on a non-key field returned, constrained to be a correct
  answer of that query;
- the decoded JWT, the bcrypt comparison, the freshly signed token pair and the
  payment gateway's answer;
- failures of Redis commands and of storage inside a transaction;
- the logistic expected score of the Elo formula.

The Elo expected score is a function parameter. Its laws are stated as a
precondition (`EloService.ExpectedLaws`): `0 < E < 1`, `E(a,b) + E(b,a) = 1` and
`E(a,a) = 1/2`.

Database sorting is a functional insertion sort on an integer key (`Ordering.SortBy`).
Query filters are `Ordering.Filter`. Pagination (`Pagination`) is
`skip = (page-1)*limit`, a window of at most `limit` items, and
`totalPages = ceil(total/limit)`.

The schemas' string setters (`trim`, `lowercase`, `uppercase`) are applied wherever
Mongoose applies them: on construction, on assignment (`Object.assign`, update
bodies) and to the same paths in query filters. They are the functions of `Text`,
composed per field (`UserModel.CastEmail`, `TeamModel.CastTag`).

## Model

| member | source | states |
|---|---|---|
| Ordering.SortBy | src/services/tournament.service.js:24 | the sorted result is ordered by the key and is a permutation of the input |
| Ordering.Filter | src/services/tournament.service.js:23 | the filtered result keeps only matching elements, in scan order, and is a sub-multiset of the input |
| Ordering.Without | src/services/team.service.js:124 | `$pull` removes every occurrence of the value and keeps every other element |
| Pagination.WithDefaults | src/services/match.service.js:14 | a missing page defaults to 1 and a missing limit to 10 |
| Pagination.CeilDiv | src/services/match.service.js:42 | totalPages is the least number of pages of size `limit` that hold every result |
| Pagination.Window | src/services/match.service.js:15-29 | a page holds at most `limit` items, and they are the items from position `(page-1)*limit` on, in order |
| Pagination.Paginate | src/services/team.service.js:40-46 | the page carries the window, the request's page and limit, the total and ceil(total/limit) |
| Pagination.PageNonEmptyIff | src/services/match.service.js:38-44 | a page has results exactly when its number is at most totalPages |
| Pagination.PagesCoverAll | src/services/match.service.js:15-42 | reading pages 1..totalPages returns every item exactly once, in order |
| Pagination.WindowKeepsOrder | src/services/user.service.js:20-24 | a page of a sorted listing is itself sorted |
| MatchModel.CastStatus | src/models/tournament/Match.model.js:76-87 | an absent status defaults to `pending`; a cast value is one of the six enum names |
| MatchModel.CastStatusName | src/models/tournament/Match.model.js:78-85 | every status survives a round trip through its stored name |
| MatchModel.CancelledIsNotAStatus | src/models/tournament/Match.model.js:78-85 | "cancelled" is not one of the six statuses, so assigning it fails validation |
| MatchModel.Save | src/models/tournament/Match.model.js:128-141 | a successful save stores the document unchanged; a refused save is a 500 |
| MatchModel.SaveCompletedNeedsOutcome | src/models/tournament/Match.model.js:128-139 | saving a match newly set to `completed` succeeds iff it has a winner, a score line or a result line |
| MatchModel.SaveSkipsHook | src/models/tournament/Match.model.js:129-140 | the completion check is skipped when the status is unchanged or not `completed` |
| MatchModel.SaveKeepsCompletionInvariant | src/models/tournament/Match.model.js:128-141 | a save keeps "completed implies an outcome" unless the update drops an existing outcome |
| MatchModel.HasOutcome | src/models/tournament/Match.model.js:131-135 | a match has an outcome: a winner participant, a score line or a result line |
| MatchModel.CompletionHookPasses | src/models/tournament/Match.model.js:128-141 | the pre-save hook passes unless status was changed to `completed` without an outcome |
| MatchService.SameParticipantsIff | src/services/match.service.js:87-91 | sorting both id lists and comparing them is exactly multiset equality |
| MatchService.CastScores | src/models/tournament/Match.model.js:40-56 | score lines are stored one for one iff every line names its participant model |
| MatchService.CastResults | src/models/tournament/Match.model.js:94-107 | result lines are stored one for one iff model and rank are present; kills default to 0 |
| MatchService.Reported | src/services/match.service.js:93-102 | an applied report sets status `disputed` and reportedBy, stores exactly one of scores/results, and keeps the participants and winner |
| MatchService.AcceptedReport | src/services/match.service.js:81-91 | passing the checks means: reporter participates, match active and unreported, reported ids equal the match's as a multiset |
| MatchService.ReportFailure | src/services/match.service.js:81-95 | the first failing check of a report, in the service's order: 403, 400, 400, the TypeError of a missing payload, 400 mismatch, the TypeError of fewer than two scores, 400 tie |
| MatchService.ReportResult | src/services/match.service.js:74-113 | on success only this match changes, to `disputed` with the reporter and the payload's lines; any error leaves the store unchanged |
| MatchService.NonParticipantRejected | src/services/match.service.js:81-82 | a reporter who is not a participant gets 403 and nothing changes |
| MatchService.OnlyFirstReportOnActiveMatch | src/services/match.service.js:84-85 | a non-active match gives 400; an already reported one gives 400 and keeps the first report |
| MatchService.MismatchRejected | src/services/match.service.js:87-91 | a payload whose participant multiset differs from the match's gives 400 |
| MatchService.TieRejected | src/services/match.service.js:93-95 | two equal leading scores are refused as a tie |
| MatchService.ReportKeepsCompletionInvariant | src/services/match.service.js:101-104 | reporting never leaves a completed match without an outcome |
| MatchService.QueryMatches | src/services/match.service.js:13-45 | every listed match satisfies the filter; the total counts all matching documents; totalPages = ceil(total/limit) |
| MatchService.BySchedulePlaced | src/services/match.service.js:27 | ascending schedule order: unscheduled matches first, then non-decreasing times |
| MatchService.ByScheduleSelected | src/services/match.service.js:22-29 | ordering the hits keeps exactly the selected matches |
| DisputeService.NewDispute | src/services/dispute.service.js:44 | the document is built from the whole request body: it exists iff tournament and a non-empty reason are given, and its status is the body's own or `open` by default, its assignee, comments and resolution the body's |
| DisputeService.NewDisputeCorrected | src/models/tournament/Dispute.model.js:38-59 | corrected, a new dispute exists exactly when the as-written one does, and it always starts `open`, unassigned, with no comments and no resolution |
| DisputeService.CreateDispute | src/services/dispute.service.js:13-53 | success needs the match, a participant reporter and no earlier dispute; it adds one dispute carrying the body's status (`open` by default), assignee and comments, and sets the match `disputed`; errors change nothing |
| DisputeService.CreateDisputeCorrected | src/services/dispute.service.js:13-53 | corrected, the same checks and writes, and the new dispute is `open`, unassigned and without comments |
| DisputeService.SaveNewDispute | src/services/dispute.service.js:19-45 | the shared creation steps: 404 / 403 / 400 checks, the match set `disputed`, then the built document saved if the schema accepts it; every error changes nothing |
| DisputeService.HasDispute | src/services/dispute.service.js:30-34 | `Dispute.findOne({ match })` finds a dispute for the match |
| DisputeService.ClientStatusLocksMatch | src/api/v1/controllers/dispute.controller.js:22-25 | a body with status `resolved` or `canceled` creates a dispute the admin can never resolve (400) while the match stays `disputed` and blocks any further dispute |
| DisputeService.CreatedDisputeResolvableCorrected | src/models/tournament/Dispute.model.js:38-42 | corrected, the new dispute is `open`, its match `disputed`, and a resolution finds it |
| DisputeService.CreateVersionsAgree | src/services/dispute.service.js:44 | when the body carries no workflow fields the two versions give the same reply |
| DisputeService.CreateFailures | src/services/dispute.service.js:19-34 | failure order: missing match 404, non-participant 403, existing dispute 400 |
| DisputeService.CreateKeepsOnePerMatch | src/services/dispute.service.js:30-42 | creation keeps at most one dispute per match, and the match then has exactly the new one |
| DisputeService.AddComment | src/services/dispute.service.js:83-93 | on success the dispute gains exactly the comment (author, content, time) at the end and nothing else changes |
| DisputeService.AddCommentAppendsOne | src/services/dispute.service.js:90-91 | a non-empty comment on a valid dispute always succeeds: one more comment, the earlier ones in place |
| DisputeService.CommentKeepsSchema | src/models/tournament/Dispute.model.js:3-7 | appending a non-empty comment keeps a valid dispute valid |
| DisputeService.ResolveDispute | src/services/dispute.service.js:102-149 | success needs an `open`/`under_review` dispute and its match; the dispute becomes `resolved`, assigned to the admin, with the stored resolution; only that dispute and its match change |
| DisputeService.ResolutionTarget | src/services/dispute.service.js:106-116 | the lookups before the outcome: missing dispute 404, a status other than `open`/`under_review` 400, missing match 404 |
| DisputeService.ApplyOutcome | src/services/dispute.service.js:118-133 | the outcome branch as written: a winner object completes the match, a bare id or `cancelled` aborts the save, `reverted` restores the previous status or `completed`, anything else keeps the match |
| DisputeService.StoredResolution | src/services/dispute.service.js:136 | the resolution the schema keeps from the body: its decision, if one of the enum values, and its final comment |
| DisputeService.SaveResolution | src/services/dispute.service.js:132-138 | the save tail: the match and the dispute written together, or nothing when either save is refused |
| DisputeModel.ParseDecision | src/models/tournament/Dispute.model.js:58-68 | a decision string is one of the seven enum values or fails the cast |
| DisputeModel.SchemaValid | src/models/tournament/Dispute.model.js:3-75 | a dispute document passes schema validation: a non-empty reason of at most 500 UTF-16 code units, evidence with a URL and a description of at most 200, non-empty comments, a final comment of at most 1000 |
| DisputeService.ResolveOnlyFromOpenOrReview | src/services/dispute.service.js:109-111 | a resolved or canceled dispute gives 400 and nothing changes |
| DisputeService.ResolveTwiceFails | src/services/dispute.service.js:109-137 | after one successful resolution a second attempt always fails |
| DisputeService.WinnerOutcome | src/services/dispute.service.js:119-121 | outcome `winner` with a winner sub-document sets that winner and completes the match |
| DisputeService.BareWinnerIdAborts | src/services/dispute.service.js:119-121 | a bare winner id aborts every winner resolution with 500 and writes nothing |
| DisputeService.ApplyOutcomeCorrected | src/services/dispute.service.js:119-130 | with a bare id the match changes iff the id names a participant; every other body gives the outcome as written |
| DisputeService.ResolveDisputeCorrected | src/services/dispute.service.js:102-149 | the corrected resolution keeps the guards, resolves the dispute with the stored decision and keeps its comments, and writes only it and its match: the match keys and every other match are unchanged |
| DisputeService.BareWinnerIdResolvesCorrected | src/services/dispute.service.js:119-121 | corrected, a bare id naming a participant makes that participant the winner and completes the match |
| DisputeService.ResolveVersionsAgree | src/services/dispute.service.js:118-130 | apart from a bare winner id both versions behave identically |
| DisputeService.CancelledOutcomeAborts | src/services/dispute.service.js:125-127 | outcome `cancelled` always fails and changes nothing, because the status is outside the enum |
| DisputeService.RevertedDefaultsToCompleted | src/services/dispute.service.js:128-129 | `reverted` without a previous status completes the match, and fails when the match has no outcome |
| DisputeService.OtherOutcomeKeepsMatch | src/services/dispute.service.js:131-137 | any other outcome leaves every match unchanged while the dispute is resolved |
| DisputeService.ResolveKeepsCompletionInvariant | src/services/dispute.service.js:118-133 | resolution never leaves a completed match without an outcome |
| EloService.NewRatings | src/services/elo.service.js:21-32 | the winner's rating never drops, the loser's never rises, and each moves by at most K = 32 |
| EloService.Round | src/services/elo.service.js:29-30 | `Math.round`: add one half and take the floor, so halves round up |
| EloService.EqualRatingsMoveSixteen | src/services/elo.service.js:21-31 | equal ratings move by exactly +16 and -16 |
| EloService.EqualRatingsExample | tests/unit/services/elo.service.test.js:71-74 | 1500 against 1500 ends at 1516 and 1484 |
| EloService.GainMatchesLoss | src/services/elo.service.js:13-31 | the winner's gain equals the loser's loss, except by one point when the exchange sits exactly on a half |
| EloService.FindLoser | src/services/elo.service.js:45-47 | the loser is a participant whose id differs from the winner's; none exists iff all ids equal the winner's |
| EloService.UpdateElo | src/services/elo.service.js:39-113 | without exactly two participants and a winner nothing changes; only users and teams are written; errors change nothing |
| EloService.LoserDetermination | src/services/elo.service.js:44-51 | with no other participant the update fails with 500; otherwise the loser is the other one |
| EloService.MissingParticipant | src/services/elo.service.js:56-63 | a missing participant document gives 404 before anything is written |
| EloService.UserRatingsMove | src/services/elo.service.js:84-107 | between two users, the winner's entry for the game holds the new winner rating and the loser's the new loser rating computed from their current ratings; so the winner rises and the loser falls, by at most K |
| EloService.OtherGamesUntouched | src/services/elo.service.js:84-107 | a user's ratings for other games are unchanged |
| EloService.TeamCounters | src/services/elo.service.js:94-111 | between two teams rankPoints are replaced, the winner gains one win and the loser one loss |
| UserModel.MatchPhone | src/models/user/User.model.js:26-31 | the scan accepts a phone number iff it is "+98" followed by exactly ten digits |
| UserModel.PhoneValidSplits | src/models/user/User.model.js:28 | a valid phone number is "+98" followed by a ten-digit string, and conversely |
| UserModel.PhoneValid | src/models/user/User.model.js:26-31 | the phone validator `/^\+98\d{10}$/`: "+98" and exactly ten ASCII digits |
| UserModel.SchemaValid | src/models/user/User.model.js:12-40 | a user document passes schema validation: username 3-20 UTF-16 code units, a valid phone number, an email of at most 100 code units |
| UserModel.CastUsername | src/models/user/User.model.js:16 | the username setter `trim` |
| UserModel.CastPhone | src/models/user/User.model.js:25 | the phone setter `trim` |
| UserModel.CastEmail | src/models/user/User.model.js:37-38 | the email setter: `trim` then `lowercase` |
| UserModel.NewUser | src/models/user/User.model.js:12-32 | a new user stores the username and phone number trimmed and keeps the creation time |
| UserModel.NewUserDefaults | src/models/user/User.model.js:12-118 | a new user is `pending_verification`, role `user`, wallet 0, unrated, without tokens; it validates iff the trimmed username is 3 to 20 UTF-16 code units (as `minlength`/`maxlength` count) and the trimmed phone number matches the pattern; padding changes nothing |
| UserModel.OwnEmailNotTaken | src/models/user/User.model.js:161-168 | a user's own email never counts as taken when that user is excluded, and counts as taken otherwise, in any case or padding |
| UserModel.EmailTakenAnySpelling | src/models/user/User.model.js:33-40 | another user's address is taken in every spelling that casts to it, leading padding included |
| UserModel.IsEmailTaken | src/models/user/User.model.js:161-168 | `isEmailTaken`: some user other than the excluded one holds the address after the email setter casts the filter value |
| UserModel.IsUsernameTaken | src/models/user/User.model.js:175-182 | `isUsernameTaken`: some user other than the excluded one holds the trimmed username |
| UserModel.MixedCaseEmailCast | src/models/user/User.model.js:37-38 | the email setter stores "A@B.com" as "a@b.com" |
| UserModel.FindRating | src/services/elo.service.js:85 | the index of the first entry for the game, or -1 when there is none |
| UserModel.SetRatingRead | src/services/elo.service.js:84-92 | reading back a non-zero rating just written gives that rating |
| UserModel.SetRatingOther | src/services/elo.service.js:84-92 | writing one game's rating leaves every other game's rating as it was |
| UserModel.SetRatingLength | src/services/elo.service.js:85-92 | the list grows by one entry only when the game had none |
| UserModel.CurrentRating | src/services/elo.service.js:68 | the current rating of a game: the first entry's rating, with a missing entry or 0 read as 1000 |
| UserModel.SetRating | src/services/elo.service.js:84-92 | overwrite the game's first entry, or push a new one when there is none |
| Text.Upper | src/models/shared/Team.model.js:23 | upper-casing keeps the length and maps each character |
| Text.UpperIdempotent | src/models/shared/Team.model.js:22-23 | upper-casing a tag twice is the same as once |
| TeamModel.NewTeam | src/models/shared/Team.model.js:9-25 | a new team stores its name trimmed and its tag trimmed and upper-cased, and keeps game, captain and members as given |
| TeamModel.NewTeamValid | src/models/shared/Team.model.js:9-66 | a new team has zeroed stats and validates iff the trimmed name is 3 to 30 and the trimmed tag 2 to 5 UTF-16 code units long, and the captain is a member |
| TeamModel.CastTag | src/models/shared/Team.model.js:18-25 | a stored tag is upper-case and as long as the trimmed input |
| TeamModel.CastStable | src/models/shared/Team.model.js:9-25 | re-saving a stored name or tag leaves it unchanged |
| TeamModel.PaddedShortNameRejected | src/models/shared/Team.model.js:9-16 | padding does not count towards the name length: "  ab  " is stored as "ab" and refused |
| TeamModel.EmojiNameTooLong | src/models/shared/Team.model.js:15 | sixteen emoji are sixteen characters but 32 code units, so the name is refused |
| TeamModel.SchemaValid | src/models/shared/Team.model.js:9-54 | a team document passes schema validation: name 3-30 and tag 2-5 UTF-16 code units, tag upper-case, captain among the members |
| TournamentModel.SchemaValid | src/models/tournament/Tournament.model.js:8-85 | a tournament document passes schema validation: a non-empty name of at most 100 UTF-16 code units, a structure from the schema enum, team size >= 1, non-empty rules, and every prize carries a description |
| TournamentModel.SchemaStructure | src/models/tournament/Tournament.model.js:32-36 | the structure enum admits single_elimination, double_elimination, round_robin and swiss; battle_royale is not among them |
| TeamModel.CaptainIsMember | src/models/shared/Team.model.js:40-54 | the members validator: the captain's id is among the member ids |
| TeamModel.IndexesHold | src/models/shared/Team.model.js:74 | the unique indexes: no two teams share a tag, and no two teams of one game share a name |
| TeamModel.CastName | src/models/shared/Team.model.js:13 | the name setter `trim`: never longer than the input, and empty exactly when the input is blank |
| TeamService.QueryTeams | src/services/team.service.js:19-47 | results are of the requested game, newest first, at most `limit`; the total counts all matches; totalPages = ceil(total/limit) |
| TeamService.GetTeam | src/services/team.service.js:52-86 | a live cache entry is returned as is; otherwise the store answers (404 if absent) and a found team is cached |
| TeamService.CacheHitIgnoresStore | src/services/team.service.js:56-61 | a cache hit gives the same answer whatever the store holds |
| TeamService.GetTeamFresh | src/services/team.service.js:52-86 | with a coherent cache a read returns the stored team or 404 and keeps the cache coherent |
| TeamService.ApplyUpdate | src/services/team.service.js:92 | a new name is stored trimmed and a new tag trimmed and upper-cased; the stats and creation time never change |
| TeamService.UpdateTeam | src/services/team.service.js:91-107 | a missing team gives 404; success writes the update and drops the cache entry unless DEL fails |
| TeamService.UpdateKeepsCoherence | src/services/team.service.js:97-104 | with a working DEL an update keeps the cache coherent |
| TeamService.UpdateIgnoresCacheFaults | src/services/team.service.js:99-104 | cache failures never change what an update stores or answers |
| TeamService.StaleReadAfterFailedInvalidation | src/services/team.service.js:99-104 | a failed DEL leaves the old team cached, and the next read returns it |
| TeamService.UpdateCanMoveCaptainOut | src/services/team.service.js:92 | an update can set a captain outside the members, because the member validator does not run on it |
| TeamService.PullTeam | src/services/team.service.js:124 | exactly the members' team lists lose the team |
| TeamService.DeleteTeam | src/services/team.service.js:112-143 | 404 if missing, 400 if a `playing` registration exists, 500 on a storage fault; success removes the team and its cache entry |
| TeamService.DeleteTeamEffects | src/services/team.service.js:124-134 | after a delete no member lists the team and a read answers 404 |
| UserService.QueryUsers | src/services/user.service.js:14-39 | a supplied limit always gives 500; without one the page is the default listing with limit 10 |
| UserService.ListUsers | src/services/user.service.js:14-39 | results are newest first and at most `limit`; the total counts all filtered users; totalPages = ceil(total/limit) |
| UserService.SuppliedLimitFails | src/api/v1/controllers/user.controller.js:40 | even `limit=10` from the query string fails, while the same listing without it succeeds with the full count |
| UserService.Assign | src/services/user.service.js:75 | a new username is stored trimmed, an email trimmed and lower-cased, a supplied wallet balance is written; teams, ratings, tokens and creation time never change; an empty update changes nothing |
| UserService.UpdateUser | src/services/user.service.js:60-79 | 404 if missing, 400 for a phone number, 400 for an email or username another user holds in its cast form; success writes the merged user and keeps the unique indexes |
| UserService.OwnValuesAccepted | src/services/user.service.js:68-73 | re-submitting one's own stored email and username is accepted and changes nothing |
| UserService.ForeignEmailRefused | src/services/user.service.js:68-70 | an email that casts to another user's address gives 400 and nothing changes |
| UserService.MixedCaseEmailRefused | src/models/user/User.model.js:161-168 | "A@B.com" is refused while another account holds "a@b.com" |
| UserService.AssignKeepsNormalised | src/models/user/User.model.js:12-40 | assigning through the setters keeps a user's cast fields in their setters' form |
| UserService.UpdateKeepsNormalised | src/services/user.service.js:75-76 | after an update every stored user is still in its setters' form |
| UserService.AdminSetsAnyWallet | src/services/user.service.js:75-76 | the service writes any integer into the wallet, negative amounts included, and changes nothing else of the user; the bound is the route's alone |
| UserService.AdminRouteKeepsWalletNonNegative | src/validators/user.validator.js:92-94 | the admin route admits only non-negative amounts, so through it a non-negative wallet stays non-negative |
| UserService.AdminWalletAdmitted | src/validators/user.validator.js:92-94 | the admin route's rule: a supplied wallet balance is a non-negative integer |
| UserService.RemainingTeams | src/services/user.service.js:105-116 | teams the user captained alone are gone; every other team loses the user from its members |
| UserService.DeleteUser | src/services/user.service.js:86-129 | 400 if the user captains a team with other members; success removes the user, exactly their registrations (others kept in order) and their reported disputes (others kept as they were), and touches no other collection |
| UserService.DeleteUserKeepsOthersRegistrations | src/services/user.service.js:101 | every registration of another user survives the cascade, and nothing is added |
| UserService.DeleteUserLeavesNoMembership | src/services/user.service.js:105-119 | after deletion the user is in no team, and only teams they captained alone are removed |
| UserService.DeleteUserKeepsCaptains | src/services/user.service.js:94-116 | if every captain was a member before a deletion, every remaining captain still is |
| Text.Lower | src/models/shared/Game.model.js:22 | lower-casing keeps the length and maps each character |
| GameModel.SlugNoSpace | src/models/shared/Game.model.js:63 | a derived short name contains no whitespace |
| GameModel.SlugOfWord | src/models/shared/Game.model.js:63 | on whitespace-free text the slug is plain lower-casing |
| GameModel.SlugIsLower | src/models/shared/Game.model.js:63 | a slug is already lower-case |
| GameModel.SlugIdempotent | src/models/shared/Game.model.js:63 | deriving a slug from a slug changes nothing |
| GameModel.SlugRun | src/models/shared/Game.model.js:63 | a whitespace run between words becomes exactly one dash |
| GameModel.PreValidate | src/models/shared/Game.model.js:61-66 | the hook changes nothing but the short name |
| GameModel.PreValidateShortName | src/models/shared/Game.model.js:61-66 | a supplied short name is kept; a missing one is derived from the name; running the hook twice is running it once |
| GameModel.NewGame | src/models/shared/Game.model.js:10-50 | a new game is active by default, stores its name trimmed and a supplied short name trimmed and lower-cased, and keeps platforms and modes |
| GameModel.SlugCastStable | src/models/shared/Game.model.js:17-23 | a derived slug passes through the short-name setters unchanged |
| GameModel.NewGameNames | src/models/shared/Game.model.js:10-66 | a stored game's names are in their setters' form, and without a short name it gets the slug of the trimmed name |
| TournamentService.Summarize | src/services/tournament.service.js:33-43 | a listing row carries the tournament's name, status and start and the game's name |
| TournamentService.Unwind | src/services/tournament.service.js:31-32 | the lookup drops rows whose game is missing and keeps all rows when every game exists |
| TournamentService.Listing | src/services/tournament.service.js:18-24 | the listing holds only listed statuses, latest start first, drawn from the collection |
| TournamentService.QueryTournaments | src/services/tournament.service.js:14-59 | only listed statuses, latest start first, at most `limit`; totalPages = ceil(total/limit), 0 with no results |
| TournamentService.ListingCount | src/services/tournament.service.js:23-27 | the count is the number of listed tournaments |
| TournamentService.ListedIffCounted | src/services/tournament.service.js:18-23 | a tournament appears in the listing iff its status is listed |
| TournamentService.CreateTournament | src/services/tournament.service.js:79-87 | 400 when registration end is not after its start, then when the start is not after registration end; otherwise the document with its name trimmed is stored iff the schema accepts it, the name's `maxlength` of 100 counted in UTF-16 code units |
| TournamentService.BattleRoyaleNeverStored | src/models/tournament/Tournament.model.js:34 | a `battle_royale` tournament is never stored, and with ordered dates it fails with 500 |
| TournamentService.Assign | src/services/tournament.service.js:112 | supplied fields replace the stored ones, a new name trimmed; absent fields are kept |
| TournamentService.UpdateTournament | src/services/tournament.service.js:95-115 | 404 if missing; in a locked status a supplied game is refused and the other restricted fields are kept or zeroed; otherwise stored iff valid |
| TournamentService.LockedFeeCanBeZeroed | src/services/tournament.service.js:104-109 | an active tournament's entry fee can be set to 0 |
| TournamentService.UpdateTournamentStrict | src/services/tournament.service.js:101-110 | in a locked status a successful update keeps every restricted field |
| TournamentService.StrictAgreesOffTheLoophole | src/services/tournament.service.js:104-113 | both versions agree on bodies without game, prizes or zero values |
| TournamentService.DeleteTournament | src/services/tournament.service.js:122-147 | 404, then 400 if active, then 500 on a fault; success removes the tournament and all its registrations, matches, brackets and disputes |
| TournamentService.DeleteKeepsOtherTournaments | src/services/tournament.service.js:134-138 | the cascade keeps everything that belongs to other tournaments |
| TournamentScheduler.OpenRegistrations | src/jobs/tournament.scheduler.js:14-27 | every draft whose registration start has passed opens; all others are untouched |
| TournamentScheduler.CloseRegistrations | src/jobs/tournament.scheduler.js:32-45 | every open tournament whose registration end has passed closes; all others are untouched |
| TournamentScheduler.Cycle | src/jobs/tournament.scheduler.js:55-58 | a cycle (both steps reading the same instant) keeps the set of tournaments |
| TournamentScheduler.ClockedCycle | src/jobs/tournament.scheduler.js:15-58 | the scheduler's run: open with the first clock reading, then close with the second; the set of tournaments is kept |
| TournamentScheduler.CycleOutcome | src/jobs/tournament.scheduler.js:55-58 | open runs before close, so a draft with both dates passed ends closed; only the status changes |
| TournamentScheduler.CycleIdempotent | src/jobs/tournament.scheduler.js:16-40 | for a fixed clock a second cycle changes nothing |
| TournamentScheduler.CycleMovesForward | src/jobs/tournament.scheduler.js:14-45 | registration status only moves forward, and later statuses are untouched |
| TournamentScheduler.ClockedCycleBetween | src/jobs/tournament.scheduler.js:15-33 | each step reads its own clock; the run lands between single-clock runs at the first and the second reading, and only the status changes |
| TournamentScheduler.CycleMonotoneInTime | src/jobs/tournament.scheduler.js:16-37 | a later clock never leaves a tournament behind an earlier clock's result |
| NotificationJob.SendFor | src/jobs/notification.job.js:53-65 | for one match, each participant without a reminder gets one with the tournament's name; the run aborts iff one is owed and the name is missing |
| NotificationJob.SendAll | src/jobs/notification.job.js:52-67 | every reminder sent is owed by a selected match; without an abort every owed reminder is sent |
| NotificationJob.HandleMatchReminders | src/jobs/notification.job.js:17-68 | nothing is sent for a pair already reminded, and everything sent is for a match of the window |
| NotificationJob.SentFromUpcoming | src/jobs/notification.job.js:18-26 | every reminder is for a pending match starting 15 to 16 minutes from now |
| NotificationJob.Upcoming | src/jobs/notification.job.js:18-26 | a match is in the reminder window: `pending`, with a scheduled time in [now + 15 min, now + 16 min) |
| NotificationJob.NothingUpcomingNothingSent | src/jobs/notification.job.js:28-31 | with no match in the window nothing is sent |
| NotificationJob.OwedRemindersSent | src/jobs/notification.job.js:52-65 | every participant of a window match without a reminder gets one, unless the run stopped early |
| NotificationJob.RemindedPairSkipped | src/jobs/notification.job.js:40-56 | a (participant, match) pair already reminded gets nothing |
| RegistrationService.CreateRegistration | src/services/registration.service.js:13-82 | success needs an open tournament below capacity and no earlier entry, and appends one `registered` entry; errors change nothing |
| RegistrationService.FailureOrder | src/services/registration.service.js:29-33 | failure order: tournament 404, user 404, not open 400, full 400, already registered 400 |
| RegistrationService.FirstFailure | src/services/registration.service.js:29-56 | the first failing registration check in the service's order: tournament 404, user 404, not open 400, full 400, already registered 400, then the team or individual checks |
| RegistrationService.TeamCheck | src/services/registration.service.js:38-51 | the team checks: teamId 400, team 404, membership 403, exact size 400, team already registered 400 |
| RegistrationService.TeamRegistrationRequirements | src/services/registration.service.js:38-51 | in a team tournament success needs a team id, the team, membership, the exact size and no earlier team entry |
| RegistrationService.RegistersWhenChecksPass | src/services/registration.service.js:29-82 | when every check passes and the wallet covers any fee, the registration is created and appended |
| RegistrationService.IndividualRegistration | src/services/registration.service.js:52-54 | an individual tournament refuses a team id, and its entries carry no team |
| RegistrationService.EntryFee | src/services/registration.service.js:57-68 | with an uncovered fee it fails, with exactly 402 and no change once every earlier check passes, and a 402 means just that; otherwise exactly the fee is debited and the entry is `paid`; with no fee nothing is debited |
| RegistrationService.WalletStaysNonNegative | src/services/registration.service.js:58-59 | registration never drives a wallet below zero |
| RegistrationService.CreateKeepsCapacity | src/services/registration.service.js:31-32 | no tournament ever holds more entries than its maxParticipants |
| RegistrationService.CreateKeepsPairsUnique | src/services/registration.service.js:33 | no (user, tournament) pair is ever registered twice |
| AuthService.SaveUser | src/services/auth.service.js:68 | a save succeeds iff the changed user passes the schema, and then stores it |
| AuthService.VerifyOtp | src/services/auth.service.js:49-71 | no matching unexpired code gives 400; a matching code gives 500, because the unselected token list is pushed to; nothing is ever written |
| AuthService.OtpNeverConsumed | src/services/auth.service.js:50-67 | a correct code gives 500 and still matches afterwards |
| AuthService.VerifyOtpSelected | src/services/auth.service.js:49-71 | with the tokens loaded, success clears the code, activates a pending account, appends one refresh token and changes nothing else |
| AuthService.Verified | src/services/auth.service.js:60-67 | a verified user has no code or expiry, is active if it was pending, has the new refresh token last, and is otherwise unchanged |
| AuthService.VerifyOtpVersionsAgreeOnRejection | src/services/auth.service.js:56-67 | both versions answer alike for a wrong code; where the intended one succeeds the one as written gives 500 |
| AuthService.OtpSingleUse | src/services/auth.service.js:60-64 | after a successful verification (tokens loaded) the same phone and code match no user |
| AuthService.Login | src/services/auth.service.js:79-98 | unknown identifier 404, wrong password 401, a correct password 500 because the unselected token list is pushed to; nothing is ever written |
| AuthService.LoginSelected | src/services/auth.service.js:79-98 | with the tokens loaded, a correct password appends exactly one refresh token to the identified user |
| AuthService.LoginVersionsAgreeOnRejection | src/services/auth.service.js:84-91 | both versions answer 404 and 401 alike; where the intended one succeeds the one as written gives 500 |
| AuthService.LoginIgnoresEmailCase | src/services/auth.service.js:80-82 | the email filter is cast by the setter, so any address typed in capitals finds the account that holds its cast form |
| AuthService.LoginIgnoresEmailCaseExample | src/services/auth.service.js:80-82 | for instance "A@B.com" finds the account stored as "a@b.com" |
| AuthService.IdentifiedBy | src/services/auth.service.js:80-82 | the login filter: the cast email or the trimmed phone number equals the identifier |
| AuthService.OtpMatches | src/services/auth.service.js:50-54 | the OTP filter: the trimmed phone number, the exact code and an unexpired deadline |
| AuthService.Rotate | src/services/auth.service.js:117-118 | rotation drops the old token, ends with the new one, and keeps every other token |
| AuthService.Refresh | src/services/auth.service.js:105-124 | a token that does not verify is a 500; an unknown user or unlisted token gives 403; success rotates that user's list |
| AuthService.RefreshReplayDenied | src/services/auth.service.js:108-118 | a rotated-out token cannot be used again |
| AuthService.RotateKeepsOrder | src/services/auth.service.js:117-118 | rotation keeps the other tokens in their order |
| AuthService.Logout | src/services/auth.service.js:131-136 | a falsy token is a no-op; otherwise exactly that token is pulled from the user's list |
| AuthService.LogoutAll | src/services/auth.service.js:142-146 | the user's token list becomes empty and nothing else changes |
| AuthService.LogoutRevokes | src/services/auth.service.js:131-136 | a logged-out token no longer refreshes |
| AuthService.LogoutAllRevokesEverything | src/services/auth.service.js:142-146 | after logging out everywhere no token of that user refreshes |
| PaymentService.Credit | src/services/payment.service.js:118-130 | only the owner's wallet changes, by exactly the amount |
| PaymentService.VerifyCharge | src/services/payment.service.js:83-146 | a non-OK callback cancels and gives 400; then 404, 400 if not pending, 502, 400; code 101 changes nothing; code 100 completes and credits |
| PaymentService.Settle | src/services/payment.service.js:94-145 | every failure after an OK callback leaves the store unchanged |
| PaymentService.CreditedOnce | src/services/payment.service.js:96 | a verified charge cannot be credited again |
| PaymentService.VerifiedChargeConserves | src/services/payment.service.js:118-130 | a verified charge adds exactly its amount to its owner's wallet and leaves every other user unchanged |
| PaymentService.VerifiedBeforeLeavesPending | src/services/payment.service.js:111-115 | code 101 returns the stored refId and leaves the transaction pending |
| PaymentService.CancelAfterCompletion | src/services/payment.service.js:84-92 | a completed, credited charge becomes canceled on a non-OK callback and keeps its credit |
| PaymentService.VerifyChargeStrict | src/services/payment.service.js:84-92 | a non-OK callback never changes a settled transaction or any wallet |
| PaymentService.StrictAgreesOnPending | src/services/payment.service.js:84-92 | both versions agree unless a settled transaction is cancelled |
| AdminService.GetDashboardStats | src/services/admin.service.js:10-54 | counts all users, those joined in the last 7 days and active tournaments; revenue sums completed wallet charges |
| AdminService.Revenue | src/services/admin.service.js:24-40 | the sum of the amounts of completed wallet charges, 0 when there is none |
| AdminService.RevenueAppend | src/services/admin.service.js:24-38 | revenue adds up over any split of the collection |
| AdminService.RevenueOrderFree | src/services/admin.service.js:32-35 | revenue does not depend on the order documents are scanned in |
| AdminService.RevenueZeroWhenNone | src/services/admin.service.js:40 | without a completed wallet charge the revenue is 0 |
| AdminService.RevenueGrowsByCharge | src/services/admin.service.js:26-34 | one more completed wallet charge adds exactly its amount |
| AdminService.NewUsersShrinkWithTime | src/services/admin.service.js:11-22 | a later clock never counts more new users |
| Text.Trim | src/validators/tournament.validator.js:31 | trimming yields "" iff the text is all whitespace, and otherwise has no whitespace at either end |
| Text.TrimIdempotent | src/models/user/User.model.js:16 | a `trim` setter is stable: trimming a trimmed value changes nothing |
| Text.TrimLowerStable | src/models/user/User.model.js:37-38 | the trim-and-lower-case setter is stable: a stored value casts to itself and is trimmed and lower-case |
| Text.Utf16Length | src/models/tournament/Tournament.model.js:12 | JavaScript's `length`, which `maxlength` tests: between the character count and twice it |
| Text.IsLengthCount | src/validators/tournament.validator.js:31 | the count validator.js's `isLength` compares: characters, less the variation selectors U+FE0E and U+FE0F |
| Text.Utf16LengthAppend | src/models/tournament/Tournament.model.js:12 | code units add up over a concatenation |
| Text.Utf16LengthIsSize | src/models/tournament/Tournament.model.js:12 | code units equal characters exactly when no character is outside the Basic Multilingual Plane |
| Text.UpperKeepsUnits | src/models/shared/Team.model.js:23 | the upper-case setter keeps the code-unit length |
| Text.TrimUpperCommute | src/services/auth.service.js:80-82 | trimming and ASCII upper-casing commute |
| Text.LowerOfUpper | src/services/auth.service.js:80-82 | lower-casing forgets an earlier upper-casing |
| TournamentValidator.ListQueryGivesValidOptions | src/validators/tournament.validator.js:11-18 | an admitted query gives page ≥ 1 and 1 ≤ limit ≤ 100 after the defaults |
| TournamentValidator.ValidateCreate | src/validators/tournament.validator.js:30-69 | any failed rule gives 400; each date that is not after the previous one fails |
| TournamentValidator.CreateAdmitted | src/validators/tournament.validator.js:30-69 | every create rule: a non-blank trimmed name of at most 100 characters as `isLength` counts them, game, structure, team size >= 1, capacity >= 2, non-blank rules, the date chain and the prize rules |
| TournamentValidator.CreateAdmittedUnits | src/validators/tournament.validator.js:31 | the create rules with the name bound counted in UTF-16 code units, as the schema counts them, so that an admitted name always fits the schema |
| TournamentValidator.PrizesAdmitted | src/validators/tournament.validator.js:62-68 | the prize rules as written: rank, array and description per prize; the amount rule only when every prize is a wallet credit, the item-name rule only when every prize is an item |
| TournamentValidator.PrizesAdmittedPerPrize | src/validators/tournament.validator.js:62-68 | the prize rules as meant: each prize checked by its own type |
| TournamentValidator.ToPrize | src/validators/tournament.validator.js:66-68 | a stored prize: type and amount kept, description trimmed, item name trimmed exactly when the item-name chain ran |
| TournamentValidator.AdmittedDatesIncrease | src/validators/tournament.validator.js:39-60 | the four dates of an admitted body are strictly increasing |
| TournamentValidator.ToTournament | src/validators/tournament.validator.js:31-68 | the built document: dates strictly increasing, name, rules and descriptions trimmed, one tier per body tier, and item names trimmed exactly when every prize is an item (otherwise stored as sent) |
| TournamentValidator.AdmittedBodyStored | src/validators/tournament.validator.js:31-66 | an admitted body is stored unless its structure is `battle_royale` or its trimmed name is over 100 UTF-16 code units (the validator counts characters, the schema code units); either refusal is a 500 |
| TournamentValidator.EmojiNameAdmittedThenRefused | src/models/tournament/Tournament.model.js:12 | a name of 60 emoji passes the name rule but is 120 code units to the schema, so the save answers 500 |
| TournamentValidator.AdmittedBodyStoredUnits | src/validators/tournament.validator.js:31 | with the name counted in code units, an admitted body is stored iff its structure is not `battle_royale` |
| TournamentValidator.MixedPrizesSkipAmountRule | src/validators/tournament.validator.js:67 | a negative wallet credit next to an item prize passes as written and fails per prize |
| TournamentValidator.PerPrizeRulesHold | src/validators/tournament.validator.js:65-68 | checked per prize, every wallet credit has an amount ≥ 0 and every item a name |
| TournamentValidator.PerPrizeRefinesAsWritten | src/validators/tournament.validator.js:67-68 | the per-prize rules are stricter and agree when all prizes are wallet credits |
| MatchValidator.ValidateReport | src/validators/match.validator.js:16-49 | both formats or neither gives 400; admitted scores are two distinct non-negative lines; admitted results are non-empty with ranks ≥ 1 |
| MatchValidator.ScoresAdmitted | src/validators/match.validator.js:30-42 | the scores rules: exactly two lines, different participant ids, non-negative integer scores |
| MatchValidator.ResultsAdmitted | src/validators/match.validator.js:45-48 | the results rules: a non-empty array, every line with rank >= 1 and kills >= 0 |
| MatchValidator.ExactlyOneFormat | src/validators/mach.validator.js:38-48 | an admitted body has exactly one of scores and results |
| MatchValidator.AdmittedReportNeverCrashes | src/validators/match.validator.js:30-48 | an admitted body never reaches the service's TypeError paths |
| MatchValidator.AdmittedScoresNonNegative | src/validators/mach.validator.js:65-67 | stored scores of an admitted body are two distinct non-negative lines |
| MatchValidator.AdmittedScoresDistinct | src/validators/mach.validator.js:51-61 | the two participant ids of an admitted score body differ |
| MatchValidator.AdmittedResultsKeepKills | src/validators/mach.validator.js:70-81 | stored results keep the given kills and have ranks ≥ 1 |
| MatchValidator.GetMatchesQueryValid | src/validators/match.validator.js:8-9 | the match listing admits the same page and limit bounds |
| Pick.PickInto | src/utils/pick.js:9-16 | each reduce step adds exactly the requested own properties with the source's values |
| Pick.Pick | src/utils/pick.js:8-17 | the result holds exactly the requested keys that are own properties of the source, with the source's values |
| Pick.PickEmpty | tests/unit/services/utils/pick.test.js:23-41 | a null source or an empty key list gives {} |
| Pick.PickIdempotent | src/utils/pick.js:8-17 | picking again with the same keys changes nothing |
| Pick.PickTwice | src/utils/pick.js:8-17 | picking from a picked object keeps exactly the keys in both lists |
| Pick.PickKeepsFalsy | tests/unit/services/utils/pick.test.js:43-48 | 0, '', false and null are kept |
| Pick.PickKeepsUndefined | src/utils/pick.js:11-13 | an own property holding undefined is copied |
| Pick.PickDefined | tests/unit/services/utils/pick.test.js:43-50 | the result holds exactly the requested own properties whose value is not undefined |
| Pick.PickDefinedAgrees | tests/unit/services/utils/pick.test.js:50 | both versions agree unless a requested property holds undefined |
| Guards.RbacGuard | src/api/v1/middlewares/rbac.guard.js:12-25 | no role gives 403, a role not allowed gives 403, and it passes iff the role is allowed |
| Guards.EmptyRoleListRejectsAll | src/api/v1/middlewares/rbac.guard.js:20-22 | an empty list of roles admits nobody |
| Guards.RbacMonotone | src/api/v1/middlewares/rbac.guard.js:20-25 | allowing more roles never turns away a request that passed |
| Guards.FirstField | src/api/v1/middlewares/auth.guard.js:13 | the first field is the prefix of the text before its first space |
| Guards.BearerToken | src/api/v1/middlewares/auth.guard.js:12-18 | a token is found only when the header starts with "Bearer "; an empty token counts as missing |
| Guards.BearerRoundTrip | src/api/v1/middlewares/auth.guard.js:12-14 | a header built from a space-free token gives that token back |
| Guards.BearerIgnoresTrailer | src/api/v1/middlewares/auth.guard.js:12-14 | the token stops at the next space |
| Guards.AuthGuard | src/api/v1/middlewares/auth.guard.js:10-44 | 401 without a token, 401 when it does not verify, 401 for a gone user, 403 when not active; success attaches exactly the looked-up user |
| Guards.InactiveUserBlocked | src/api/v1/middlewares/auth.guard.js:36-38 | banned and unverified accounts get 403 even with a valid token |
| Guards.AccessSurvivesLogoutAll | src/api/v1/middlewares/auth.guard.js:21-44 | logging out everywhere does not change what the guard answers |
| Guards.CaptainGuard | src/api/v1/middlewares/team.guard.js:15-28 | a missing team gives 404, a non-captain 403, and only the captain passes |
| Guards.CaptainGuardUnique | src/api/v1/middlewares/team.guard.js:23-28 | at most one user passes for a team, and that user is a member of a valid team |

## Left out

- Bracket generation: the tournament controller calls a service function that does not exist in the tournament service. There is nothing to model.
- The lock manager, the job runner, cron wiring and Redis connection handling provide cross-instance mutual exclusion. They are outside the model. Each job run is one atomic step.
- Notification delivery: the notification service persists a record and then dispatches it. A send is an abstract event (`NotificationJob.Reminder`). The service passes `entityId`/`entityModel` at the top level while the schema nests them under `entity`. That mismatch is not modelled, and the job's lookup of existing reminders is the input set `existing`.
- `createWalletChargeRequest` and all gateway HTTP calls are left out. The gateway's verify answer is the input `GatewayReply`.
- JWT signing and verification, bcrypt hashing and comparison, password strength, OTP generation and `sendOtp` are external libraries or random. Their results are inputs.
- The rating lookups in the Elo update use the logistic expected score as an abstract parameter with stated laws. The concrete upset figures in the Elo tests (1424/1576, 1030, 1608/1392) depend on floating-point values of `Math.pow` and are not stated.
- Routes, controllers, the async wrapper, the validation middleware, app setup, configuration, logging and `ApiError`/`ApiResponse` are plumbing and are left out. The declarative auth, user, team and payment validators are also left out, except the admin update's `walletBalance` bound (`UserService.AdminWalletAdmitted`).
- The read-only lookups `getTournamentById`, `getUserById`, `getMatchById` and `getDisputeByIdService` are left out. Each is a find by id that answers 404 when absent; their populate steps and the match read permission are not modelled.
- Concurrency and races on unique indexes are out of scope. Each workflow is one atomic step.
- A malformed ObjectId that makes a cast fail is out of scope: ids are opaque naturals, and request ids arrive already parsed.
- Enum membership of statuses, roles, prize types and platforms is enforced by the datatypes. A wrongly typed request field is modelled as an absent field (`None`).
- TournamentValidator.CreateAdmitted: an absent `prizeStructure` is `None` and admitted; a `null` or non-array `prizeStructure`, which `.isArray()` refuses with 400, is not modelled.
- String lengths follow JavaScript: schema `minlength`/`maxlength` count UTF-16 code units (`Text.Utf16Length`), and validator.js's `isLength` counts characters less the variation selectors U+FE0E/U+FE0F (`Text.IsLengthCount`). Strings are sequences of Unicode scalar values, so unpaired surrogates cannot be written.
- Case mapping (`toLowerCase`, `toUpperCase`, and the `lowercase`/`uppercase` setters of the User, Team and Game schemas) is modelled on ASCII letters only; letters outside ASCII keep their case. `\s` and `trim` use JavaScript's full whitespace set (`Text.IsSpace`), the Unicode space separators and line terminators included.
- The 7-day cutoff of the admin dashboard is `now - 7 * DayMs`. Local-time daylight-saving shifts of `setDate` are ignored.
- Validation and storage of fields the core never reads (avatars, lobby details, game profiles, evidence) is not modelled.
- MatchService.QueryMatches: the populate and select projections are not modelled, so results are the match documents themselves.
- TournamentService.QueryTournaments: the count is taken before the game lookup, so a page may hold fewer rows than the count promises when a game was deleted. The contract states that the page is full when every game exists, not a row count in general.

## Findings

| source | as written | input that shows it | evidently intended | confidence | as-written member | corrected member |
|---|---|---|---|---|---|---|
| src/services/tournament.service.js:106 | a restricted field is blocked only when the supplied value is truthy, so 0 slips through | an `active` tournament with entryFee 5000 and the body `{ entryFee: 0 }` | restricted fields cannot change at all in `active`/`completed`/`canceled` | high, not executed | TournamentService.LockedFeeCanBeZeroed | TournamentService.UpdateTournamentStrict |
| src/services/payment.service.js:84-92 | a non-OK callback marks the transaction canceled whatever its status | a `completed`, already credited wallet charge and a replayed callback with status `NOK` | only a `pending` transaction can be canceled | medium, not executed | PaymentService.CancelAfterCompletion | PaymentService.VerifyChargeStrict |
| src/validators/tournament.validator.js:67-68 | the `.if` conditions are evaluated over all prizes at once, so the amount and item-name rules are skipped when prize types are mixed | one tier with a `wallet_credit` prize of amount -500 and a `virtual_item` prize | each prize is checked by its own type | medium, not executed | TournamentValidator.MixedPrizesSkipAmountRule | TournamentValidator.PerPrizeRulesHold |
| src/utils/pick.js:11-13 | an own property whose value is undefined is copied | `pick({ e: undefined }, ['e'])` gives `{ e: undefined }` | undefined values are skipped, as tests/unit/services/utils/pick.test.js:50 expects | low, not executed | Pick.PickKeepsUndefined | Pick.PickDefined |
| src/services/auth.service.js:50-67 | `refreshTokens` is declared `select: false` and the `findOne` does not select it, so `user.refreshTokens.push` throws and a correct code answers 500 without consuming it | a pending user's phone number with its correct, unexpired code | the token list is loaded, the code consumed and one refresh token appended, as tests/integration/routes/auth.routes.test.js:61-83 expects | medium, not executed | AuthService.OtpNeverConsumed | AuthService.VerifyOtpSelected |
| src/services/auth.service.js:80-94 | the user is loaded with `+password` only, so the `push` after a correct password throws and every successful login answers 500 | an existing user's email and correct password | one refresh token appended and the token pair returned | medium, not executed | AuthService.Login | AuthService.LoginSelected |
| src/services/user.service.js:24 | the query-string `limit` is checked as an integer but never converted, so it reaches `$limit` as a string, which the database refuses | `GET /users?limit=10` | the limit is a number and the page holds at most that many users | medium, not executed | UserService.SuppliedLimitFails | UserService.ListUsers |
| src/validators/tournament.validator.js:31 | `isLength({ max: 100 })` counts characters, while the schema's `maxlength: 100` (src/models/tournament/Tournament.model.js:12) counts UTF-16 code units, so an admitted name can fail the save with 500 | a create body whose name is 60 × U+1F600 | the validator and the schema agree, so an admitted name is stored | medium, not executed | TournamentValidator.EmojiNameAdmittedThenRefused | TournamentValidator.AdmittedBodyStoredUnits |
| src/services/dispute.service.js:44 | the dispute is built from the whole request body, and no validator guards the route, so a client-chosen `status`, `assignedTo`, `comments` and `resolution` are stored | `{ match, tournament, reason: "x", status: "resolved" }` from a participant | a new dispute starts `open`, unassigned, with no comments or resolution, so the admin can resolve it | high, not executed | DisputeService.ClientStatusLocksMatch | DisputeService.CreatedDisputeResolvableCorrected |
| src/services/dispute.service.js:119-121 | the body's bare `winnerId` is assigned to the nested `winner` path, which only accepts an object, so every winner resolution aborts with 500 | outcome `winner` with `winnerId` set to a participant's id | that participant of the match becomes the winner and the match is completed | medium, not executed | DisputeService.BareWinnerIdAborts | DisputeService.BareWinnerIdResolvesCorrected |

=== FILE: admin_service.dfy ===
/**
 * src/services/admin.service.js, `getDashboardStats`: user counts, the number
 * of active tournaments and the revenue from completed wallet charges. The
 * collections are given in scan order and the clock is a parameter.
 */
module AdminService {
  import opened Ids
  import opened UserModel
  import opened TournamentModel
  import opened TransactionModel
  import opened Ordering

  datatype DashboardStats = DashboardStats(totalUsers: nat, newLast7Days: nat, activeTournaments: nat, totalRevenue: int)

  /** `{ createdAt: { $gte: sevenDaysAgo } }`. */
  function JoinedSince(cutoff: Time): User -> bool {
    (u: User) => u.createdAt >= cutoff
  }

  function IsActiveTournament(t: Tournament): bool {
    t.status.Active?
  }

  /** `$match: { status: 'completed', type: 'wallet_charge' }`. */
  predicate Counted(t: Transaction) {
    t.status.Completed? && t.kind.WalletCharge?
  }

  /** `$group: { total: { $sum: '$amount' } }`, with `|| 0` for an empty group. */
  function Revenue(txs: seq<Transaction>): int {
    if |txs| == 0 then 0
    else (if Counted(txs[0]) then txs[0].amount else 0) + Revenue(txs[1..])
  }

  function GetDashboardStats(users: seq<User>, tournaments: seq<Tournament>, txs: seq<Transaction>, now: Time): (r: DashboardStats)
    ensures r.totalUsers == |users|
    ensures r.newLast7Days == |Filter(users, JoinedSince(now - 7 * DayMs))| <= r.totalUsers
    ensures r.activeTournaments == |Filter(tournaments, IsActiveTournament)| <= |tournaments|
    ensures r.totalRevenue == Revenue(txs)
  {
    DashboardStats(|users|, |Filter(users, JoinedSince(now - 7 * DayMs))|,
                   |Filter(tournaments, IsActiveTournament)|, Revenue(txs))
  }

  /** Revenue adds up over any split of the collection. */
  lemma {:induction false} RevenueAppend(a: seq<Transaction>, b: seq<Transaction>)
    ensures Revenue(a + b) == Revenue(a) + Revenue(b)
  {
    if |a| > 0 {
      RevenueAppend(a[1..], b);
      assert (a + b)[0] == a[0];
      assert (a + b)[1..] == a[1..] + b;
    } else {
      assert a + b == b;
    }
  }

  /** Revenue does not depend on the order documents are scanned in. */
  lemma {:induction false} RevenueOrderFree(a: seq<Transaction>, b: seq<Transaction>)
    requires multiset(a) == multiset(b)
    ensures Revenue(a) == Revenue(b)
    decreases |a|
  {
    if |a| > 0 {
      assert a[0] in multiset(b);
      var k :| 0 <= k < |b| && b[k] == a[0];
      var rest := b[..k] + b[k + 1..];
      RemoveOne(a, b, k);
      RevenueOrderFree(a[1..], rest);
      RevenueRemove(b, k);
    } else {
      assert |b| == |multiset(b)| == 0;
    }
  }

  /** Taking the matching element out of both sides keeps the multisets equal. */
  lemma RemoveOne(a: seq<Transaction>, b: seq<Transaction>, k: int)
    requires |a| > 0 && 0 <= k < |b| && b[k] == a[0] && multiset(a) == multiset(b)
    ensures multiset(a[1..]) == multiset(b[..k] + b[k + 1..])
  {
    assert b == b[..k] + [b[k]] + b[k + 1..];
    assert a == [a[0]] + a[1..];
    assert multiset(b) == multiset(b[..k]) + multiset{b[k]} + multiset(b[k + 1..]);
    assert multiset(a[1..]) == multiset(a) - multiset{a[0]};
    assert multiset(b[..k] + b[k + 1..]) == multiset(b) - multiset{a[0]};
  }

  /** The revenue of a collection is that of one element plus that of the others. */
  lemma RevenueRemove(b: seq<Transaction>, k: int)
    requires 0 <= k < |b|
    ensures Revenue(b) == Revenue([b[k]]) + Revenue(b[..k] + b[k + 1..])
  {
    assert b == (b[..k] + [b[k]]) + b[k + 1..];
    RevenueAppend(b[..k] + [b[k]], b[k + 1..]);
    RevenueAppend(b[..k], [b[k]]);
    RevenueAppend(b[..k], b[k + 1..]);
  }

  /** Without a completed wallet charge the revenue is 0. */
  lemma {:induction false} RevenueZeroWhenNone(txs: seq<Transaction>)
    requires forall i :: 0 <= i < |txs| ==> !Counted(txs[i])
    ensures Revenue(txs) == 0
  {
    if |txs| > 0 {
      RevenueZeroWhenNone(txs[1..]);
    }
  }

  /** A further completed wallet charge adds exactly its amount. */
  lemma RevenueGrowsByCharge(txs: seq<Transaction>, t: Transaction)
    requires Counted(t)
    ensures Revenue(txs + [t]) == Revenue(txs) + t.amount
  {
    RevenueAppend(txs, [t]);
  }

  /** A later clock never counts more new users. */
  lemma NewUsersShrinkWithTime(users: seq<User>, tournaments: seq<Tournament>, txs: seq<Transaction>, now: Time, later: Time)
    requires now <= later
    ensures GetDashboardStats(users, tournaments, txs, later).newLast7Days
              <= GetDashboardStats(users, tournaments, txs, now).newLast7Days
  {
    FilterWeaker(users, JoinedSince(later - 7 * DayMs), JoinedSince(now - 7 * DayMs));
  }
}

=== FILE: auth_service.dfy ===
/**
 * src/services/auth.service.js: OTP verification, password login, refresh
 * token rotation and logout, as operations on a user's list of stored refresh
 * tokens. Token signing, token verification and password hashing are outside
 * the model: the freshly signed pair, the decoded token and the password
 * comparison are inputs.
 */
module AuthService {
  import opened Wrappers
  import opened Ids
  import opened Errors
  import opened UserModel
  import opened Ordering
  import opened Storage
  import opened Text

  /** What `_generateTokens` returns for this call. */
  datatype TokenPair = TokenPair(access: string, refresh: string)

  /** A user the `findOne` filter `{ phoneNumber, verificationCode, verificationCodeExpires: { $gt: now } }` accepts. */
  predicate OtpMatches(u: User, phone: string, otp: string, now: Time) {
    && u.phoneNumber == CastPhone(phone)
    && u.verificationCode == Some(otp)
    && u.verificationCodeExpires.Some? && u.verificationCodeExpires.value > now
  }

  /**
   * `found` is the document `findOne` returned: a matching user, or none when
   * no user matches.
   */
  predicate FoundBy(users: map<Id, User>, found: Option<Id>, matches: User -> bool) {
    && (found.Some? ==> found.value in users && matches(users[found.value]))
    && (found.None? ==> forall id :: id in users ==> !matches(users[id]))
  }

  function OtpFilter(phone: string, otp: string, now: Time): User -> bool {
    u => OtpMatches(u, phone, otp, now)
  }

  /** Saves a changed user; a document the schema rejects makes the save fail. */
  function SaveUser(s: Store, id: Id, u: User, tokens: TokenPair): (r: Reply<TokenPair>)
    ensures r.result.Err? ==> r.store == s
    ensures r.result.Ok? <==> SchemaValid(u)
    ensures r.result.Ok? ==> r.store == s.(users := s.users[id := u]) && r.result.value == tokens
  {
    if SchemaValid(u) then Reply(s.(users := s.users[id := u]), Ok(tokens))
    else Reply(s, Err(Crash(SaveRejected)))
  }

  // ---------------------------------------------------------------------
  // verifyOtpAndIssueTokens
  // ---------------------------------------------------------------------

  /**
   * `verifyOtpAndIssueTokens` as written. `refreshTokens` is declared
   * `select: false` and this `findOne` does not select it, so the loaded
   * document has no such array (a path left out of the projection gets no
   * default). The `push` then throws a TypeError before `save`, which the
   * global handler answers with 500; nothing is written.
   */
  function VerifyOtp(s: Store, phone: string, otp: string, now: Time, found: Option<Id>): (r: Reply<TokenPair>)
    requires FoundBy(s.users, found, OtpFilter(phone, otp, now))
    ensures r.store == s
    ensures r.result.Err?
    ensures (forall id :: id in s.users ==> !OtpMatches(s.users[id], phone, otp, now)) <==>
              r.result == Err(Fail(400, InvalidOtp))
    ensures (exists id :: id in s.users && OtpMatches(s.users[id], phone, otp, now)) ==>
              r.result == Err(Crash(Internal))
  {
    if found.None? then Reply(s, Err(Fail(400, InvalidOtp)))
    else
      assert OtpFilter(phone, otp, now)(s.users[found.value]);
      Reply(s, Err(Crash(Internal)))
  }

  /** As written, a correct code is never consumed: it still matches after the call. */
  lemma OtpNeverConsumed(s: Store, phone: string, otp: string, now: Time, found: Option<Id>)
    requires FoundBy(s.users, found, OtpFilter(phone, otp, now)) && found.Some?
    ensures VerifyOtp(s, phone, otp, now, found).result == Err(Crash(Internal))
    ensures OtpMatches(VerifyOtp(s, phone, otp, now, found).store.users[found.value], phone, otp, now)
  {
    assert OtpFilter(phone, otp, now)(s.users[found.value]);
  }

  /**
   * The verification as meant, with the user loaded together with its
   * refresh tokens (`+refreshTokens` in the projection): the code is cleared, a
   * pending account becomes active and the new refresh token is appended.
   */
  function VerifyOtpSelected(s: Store, phone: string, otp: string, now: Time, found: Option<Id>, issued: TokenPair): (r: Reply<TokenPair>)
    requires FoundBy(s.users, found, OtpFilter(phone, otp, now))
    ensures r.result.Err? ==> r.store == s
    ensures (forall id :: id in s.users ==> !OtpMatches(s.users[id], phone, otp, now)) ==>
              r.result == Err(Fail(400, InvalidOtp))
    ensures r.result.Ok? ==> found.Some? && found.value in s.users && found.value in r.store.users
    ensures r.result.Ok? ==>
              && OtpMatches(s.users[found.value], phone, otp, now)
              && r.result.value == issued
              && r.store == s.(users := s.users[found.value := Verified(s.users[found.value], issued.refresh)])
  {
    if found.None? then Reply(s, Err(Fail(400, InvalidOtp)))
    else
      var u := s.users[found.value];
      assert OtpFilter(phone, otp, now)(u);
      SaveUser(s, found.value, Verified(u, issued.refresh), issued)
  }

  /** The user after a successful verification: the code is consumed, a pending account activated, the token appended. */
  function Verified(u: User, refresh: string): (v: User)
    ensures v.verificationCode.None? && v.verificationCodeExpires.None?
    ensures v.status == (if u.status == PendingVerification then Active else u.status)
    ensures v.refreshTokens == u.refreshTokens + [refresh]
    ensures v.(verificationCode := u.verificationCode, verificationCodeExpires := u.verificationCodeExpires,
               status := u.status, refreshTokens := u.refreshTokens) == u
  {
    u.(verificationCode := None, verificationCodeExpires := None,
       status := if u.status == PendingVerification then Active else u.status,
       refreshTokens := u.refreshTokens + [refresh])
  }

  /** The two versions differ exactly on a correct code: the one as written never succeeds. */
  lemma VerifyOtpVersionsAgreeOnRejection(s: Store, phone: string, otp: string, now: Time, found: Option<Id>, issued: TokenPair)
    requires FoundBy(s.users, found, OtpFilter(phone, otp, now))
    ensures found.None? ==> VerifyOtp(s, phone, otp, now, found) == VerifyOtpSelected(s, phone, otp, now, found, issued)
    ensures found.Some? && VerifyOtpSelected(s, phone, otp, now, found, issued).result.Ok? ==>
              VerifyOtp(s, phone, otp, now, found).result == Err(Crash(Internal))
  {
    if found.Some? {
      assert OtpFilter(phone, otp, now)(s.users[found.value]);
    }
  }

  /** A used code cannot be used again: after success no user matches the same phone and code. */
  lemma OtpSingleUse(s: Store, phone: string, otp: string, now: Time, found: Option<Id>, issued: TokenPair)
    requires FoundBy(s.users, found, OtpFilter(phone, otp, now))
    requires forall a, b :: a in s.users && b in s.users && a != b ==> s.users[a].phoneNumber != s.users[b].phoneNumber
    requires VerifyOtpSelected(s, phone, otp, now, found, issued).result.Ok?
    ensures var t := VerifyOtpSelected(s, phone, otp, now, found, issued).store;
            forall id :: id in t.users ==> !OtpMatches(t.users[id], phone, otp, now)
  {
    var t := VerifyOtpSelected(s, phone, otp, now, found, issued).store;
    forall id | id in t.users ensures !OtpMatches(t.users[id], phone, otp, now) {
      if id != found.value {
        assert s.users[id].phoneNumber != s.users[found.value].phoneNumber;
      }
    }
  }

  // ---------------------------------------------------------------------
  // loginWithPassword
  // ---------------------------------------------------------------------

  /**
   * `$or: [{ email: loginIdentifier }, { phoneNumber: loginIdentifier }]`; the
   * filter values pass through the paths' setters, so the email comparison
   * ignores case and padding and the phone comparison ignores padding.
   */
  predicate IdentifiedBy(u: User, ident: string) {
    u.email == Some(CastEmail(ident)) || u.phoneNumber == CastPhone(ident)
  }

  function IdentFilter(ident: string): User -> bool {
    u => IdentifiedBy(u, ident)
  }

  /**
   * `loginWithPassword` as written: `passwordOk` is what `bcrypt.compare`
   * answers for the found user. The user is loaded with `+password` only,
   * so `refreshTokens` is missing and the `push` after a correct password
   * throws a TypeError, answered with 500; nothing is written.
   */
  function Login(s: Store, ident: string, found: Option<Id>, passwordOk: bool): (r: Reply<TokenPair>)
    requires FoundBy(s.users, found, IdentFilter(ident))
    ensures r.store == s
    ensures r.result.Err?
    ensures found.None? <==> r.result == Err(Fail(404, UserNotFound))
    ensures found.Some? && !passwordOk ==> r.result == Err(Fail(401, WrongPassword))
    ensures found.Some? && passwordOk ==> r.result == Err(Crash(Internal))
  {
    if found.None? then Reply(s, Err(Fail(404, UserNotFound)))
    else if !passwordOk then Reply(s, Err(Fail(401, WrongPassword)))
    else Reply(s, Err(Crash(Internal)))
  }

  /** The login as meant, with the refresh tokens loaded: a correct password appends one refresh token. */
  function LoginSelected(s: Store, ident: string, found: Option<Id>, passwordOk: bool, issued: TokenPair): (r: Reply<TokenPair>)
    requires FoundBy(s.users, found, IdentFilter(ident))
    ensures r.result.Err? ==> r.store == s
    ensures found.None? ==> r.result == Err(Fail(404, UserNotFound))
    ensures found.Some? && !passwordOk ==> r.result == Err(Fail(401, WrongPassword))
    ensures r.result.Ok? ==>
              && found.Some? && passwordOk
              && IdentifiedBy(s.users[found.value], ident)
              && r.result.value == issued
              && r.store == s.(users := s.users[found.value := s.users[found.value].(
                   refreshTokens := s.users[found.value].refreshTokens + [issued.refresh])])
  {
    if found.None? then Reply(s, Err(Fail(404, UserNotFound)))
    else if !passwordOk then Reply(s, Err(Fail(401, WrongPassword)))
    else
      var u := s.users[found.value];
      assert IdentFilter(ident)(u);
      SaveUser(s, found.value, u.(refreshTokens := u.refreshTokens + [issued.refresh]), issued)
  }

  /** The two logins answer alike except where the intended one succeeds. */
  lemma LoginVersionsAgreeOnRejection(s: Store, ident: string, found: Option<Id>, passwordOk: bool, issued: TokenPair)
    requires FoundBy(s.users, found, IdentFilter(ident))
    ensures !(found.Some? && passwordOk) ==>
              Login(s, ident, found, passwordOk) == LoginSelected(s, ident, found, passwordOk, issued)
    ensures LoginSelected(s, ident, found, passwordOk, issued).result.Ok? ==>
              Login(s, ident, found, passwordOk).result == Err(Crash(Internal))
  {
  }

  /**
   * A login by email finds the account whatever the case of the typed
   * address: the address typed in capitals identifies the same user.
   */
  lemma LoginIgnoresEmailCase(u: User, e: string)
    requires u.email == Some(CastEmail(e))
    ensures IdentifiedBy(u, Upper(e))
  {
    TrimUpperCommute(e);
    LowerOfUpper(Trim(e));
  }

  /** For example, "A@B.com" finds the account stored as "a@b.com". */
  lemma LoginIgnoresEmailCaseExample(u: User)
    requires u.email == Some("a@b.com")
    ensures IdentifiedBy(u, "A@B.com")
  {
    MixedCaseEmailCast();
  }

  // ---------------------------------------------------------------------
  // refreshTokens
  // ---------------------------------------------------------------------

  /** The stored list after a rotation: every copy of the old token out, the new one at the end. */
  function Rotate(tokens: seq<string>, incoming: string, issuedToken: string): (r: seq<string>)
    ensures incoming != issuedToken ==> incoming !in r
    ensures |r| > 0 && r[|r| - 1] == issuedToken
    ensures forall i :: 0 <= i < |tokens| && tokens[i] != incoming ==> tokens[i] in r
  {
    Without(tokens, incoming) + [issuedToken]
  }

  /**
   * `decoded` is the user id `jwt.verify` extracts, or None when it throws;
   * that error is not an ApiError and reaches the client as a 500.
   */
  function Refresh(s: Store, incoming: string, decoded: Option<Id>, issued: TokenPair): (r: Reply<TokenPair>)
    ensures r.result.Err? ==> r.store == s
    ensures decoded.None? ==> r.result == Err(Crash(InvalidToken))
    ensures decoded.Some? && (decoded.value !in s.users || incoming !in s.users[decoded.value].refreshTokens) ==>
              r.result == Err(Fail(403, RefreshDenied))
    ensures r.result.Ok? ==>
              && decoded.Some? && decoded.value in s.users
              && incoming in s.users[decoded.value].refreshTokens
              && r.store == s.(users := s.users[decoded.value := s.users[decoded.value].(
                   refreshTokens := Rotate(s.users[decoded.value].refreshTokens, incoming, issued.refresh))])
  {
    if decoded.None? then Reply(s, Err(Crash(InvalidToken)))
    else if decoded.value !in s.users || incoming !in s.users[decoded.value].refreshTokens then
      Reply(s, Err(Fail(403, RefreshDenied)))
    else
      var u := s.users[decoded.value];
      SaveUser(s, decoded.value, u.(refreshTokens := Rotate(u.refreshTokens, incoming, issued.refresh)), issued)
  }

  /** A rotated-out token cannot be replayed. */
  lemma RefreshReplayDenied(s: Store, incoming: string, uid: Id, issued: TokenPair, again: TokenPair)
    requires issued.refresh != incoming
    requires Refresh(s, incoming, Some(uid), issued).result.Ok?
    ensures var t := Refresh(s, incoming, Some(uid), issued).store;
            Refresh(t, incoming, Some(uid), again).result == Err(Fail(403, RefreshDenied))
  {
  }

  /** Rotation keeps the other tokens in their order. */
  lemma RotateKeepsOrder(before: seq<string>, after: seq<string>, incoming: string, issuedToken: string)
    requires incoming !in before
    ensures Rotate(before + [incoming] + after, incoming, issuedToken) == before + Without(after, incoming) + [issuedToken]
  {
    var whole := before + [incoming] + after;
    WithoutAppend(before + [incoming], after, incoming);
    WithoutAppend(before, [incoming], incoming);
    WithoutAbsent(before, incoming);
    assert Without([incoming], incoming) == [] by {
      assert incoming !in Without([incoming], incoming);
    }
    assert Without(before + [incoming], incoming) == before;
    assert Without(whole, incoming) == before + Without(after, incoming);
  }

  // ---------------------------------------------------------------------
  // logout and logoutAll
  // ---------------------------------------------------------------------

  /** A falsy token is ignored; an unknown user is a no-op update. */
  function Logout(s: Store, uid: Id, token: Option<string>): (r: Reply<()>)
    ensures r.result.Ok?
    ensures token.None? || token.value == "" || uid !in s.users ==> r.store == s
    ensures token.Some? && token.value != "" && uid in s.users ==>
              r.store == s.(users := s.users[uid := s.users[uid].(refreshTokens := Without(s.users[uid].refreshTokens, token.value))])
  {
    if token.None? || token.value == "" || uid !in s.users then Reply(s, Ok(()))
    else
      var u := s.users[uid];
      Reply(s.(users := s.users[uid := u.(refreshTokens := Without(u.refreshTokens, token.value))]), Ok(()))
  }

  function LogoutAll(s: Store, uid: Id): (r: Reply<()>)
    ensures r.result.Ok?
    ensures uid !in s.users ==> r.store == s
    ensures uid in s.users ==> r.store == s.(users := s.users[uid := s.users[uid].(refreshTokens := [])])
  {
    if uid !in s.users then Reply(s, Ok(()))
    else Reply(s.(users := s.users[uid := s.users[uid].(refreshTokens := [])]), Ok(()))
  }

  /** A logged-out token no longer refreshes. */
  lemma LogoutRevokes(s: Store, uid: Id, token: string, issued: TokenPair)
    requires token != "" && uid in s.users
    ensures var t := Logout(s, uid, Some(token)).store;
            Refresh(t, token, Some(uid), issued).result == Err(Fail(403, RefreshDenied))
  {
  }

  /** After logging out everywhere, no token of that user refreshes. */
  lemma LogoutAllRevokesEverything(s: Store, uid: Id, token: string, issued: TokenPair)
    requires uid in s.users
    ensures var t := LogoutAll(s, uid).store;
            Refresh(t, token, Some(uid), issued).result == Err(Fail(403, RefreshDenied))
  {
  }
}

=== FILE: dispute_model.dfy ===
/** Dispute documents (src/models/tournament/Dispute.model.js). */
module DisputeModel {
  import opened Wrappers
  import opened Ids
  import opened Text

  datatype DisputeStatus = Open | UnderReview | Resolved | Canceled

  /** The closed vocabulary of `resolution.decision`. */
  datatype Decision =
    | AwardWinToReporter | AwardWinToOpponent | CancelMatch | ResetMatch
    | IssueWarningToReporter | IssueWarningToOpponent | NoAction

  function ParseDecision(s: string): (d: Option<Decision>)
  {
    if s == "award_win_to_reporter" then Some(AwardWinToReporter)
    else if s == "award_win_to_opponent" then Some(AwardWinToOpponent)
    else if s == "cancel_match" then Some(CancelMatch)
    else if s == "reset_match" then Some(ResetMatch)
    else if s == "issue_warning_to_reporter" then Some(IssueWarningToReporter)
    else if s == "issue_warning_to_opponent" then Some(IssueWarningToOpponent)
    else if s == "no_action" then Some(NoAction)
    else None
  }

  datatype Comment = Comment(author: Id, content: string, timestamp: Time)

  datatype Evidence = Evidence(uploader: Id, url: string, description: Option<string>)

  /** What the schema keeps of the resolution object: its decision and final comment. */
  datatype Resolution = Resolution(decision: Option<Decision>, finalComment: Option<string>)

  datatype Dispute = Dispute(
    matchId: Id,
    tournament: Id,
    reporter: Id,
    status: DisputeStatus,
    reason: string,
    evidence: seq<Evidence>,
    assignedTo: Option<Id>,
    comments: seq<Comment>,
    resolution: Option<Resolution>)

  /** Schema validation on save: required strings and maximum lengths. */
  predicate SchemaValid(d: Dispute) {
    && d.reason != "" && Utf16Length(d.reason) <= 500
    && (forall i :: 0 <= i < |d.evidence| ==>
          d.evidence[i].url != ""
          && (d.evidence[i].description.Some? ==> Utf16Length(d.evidence[i].description.value) <= 200))
    && (forall i :: 0 <= i < |d.comments| ==> d.comments[i].content != "")
    && (d.resolution.Some? && d.resolution.value.finalComment.Some? ==>
          Utf16Length(d.resolution.value.finalComment.value) <= 1000)
  }
}

=== FILE: dispute_service.dfy ===
/**
 * src/services/dispute.service.js: opening a dispute on a match, commenting on
 * it, and an administrator's resolution, which may rewrite the match.
 */
module DisputeService {
  import opened Wrappers
  import opened Ids
  import opened Errors
  import opened MatchModel
  import opened DisputeModel
  import opened Storage

  // ---------------------------------------------------------------------
  // createDisputeService
  // ---------------------------------------------------------------------

  /**
   * `{ ...req.body, reporter }`: no validator runs on this route, so the body
   * may carry any schema path, including `status`, `assignedTo`, `comments`
   * and `resolution`; the reporter is the authenticated user.
   */
  datatype CreateRequest = CreateRequest(
    matchId: Id, reporter: Id, tournament: Option<Id>, reason: Option<string>, evidence: seq<Evidence>,
    status: Option<DisputeStatus>, assignedTo: Option<Id>, comments: seq<Comment>, resolution: Option<Resolution>)

  /** `Dispute.findOne({ match })` finds something. */
  predicate HasDispute(disputes: map<Id, Dispute>, matchId: Id) {
    exists id :: id in disputes && disputes[id].matchId == matchId
  }

  /** At most one dispute per match. */
  predicate OneDisputePerMatch(disputes: map<Id, Dispute>) {
    forall a, b :: a in disputes && b in disputes && a != b ==> disputes[a].matchId != disputes[b].matchId
  }

  /**
   * `new Dispute(disputeData)`: required fields must be present and non-empty;
   * every path the body supplies is taken as given, and only an absent
   * `status` defaults to `open`.
   */
  function NewDispute(req: CreateRequest): (d: Option<Dispute>)
    ensures d.Some? <==> req.tournament.Some? && req.reason.Some? && req.reason.value != ""
    ensures d.Some? ==> d.value.matchId == req.matchId && d.value.reporter == req.reporter
    ensures d.Some? ==> d.value.status == req.status.GetOr(Open)
    ensures d.Some? ==> d.value.comments == req.comments && d.value.assignedTo == req.assignedTo
    ensures d.Some? ==> d.value.resolution == req.resolution
  {
    if req.tournament.None? || req.reason.None? || req.reason.value == "" then None
    else Some(Dispute(req.matchId, req.tournament.value, req.reporter, req.status.GetOr(Open), req.reason.value,
                      req.evidence, req.assignedTo, req.comments, req.resolution))
  }

  /**
   * The dispute as evidently intended: the workflow fields are the server's,
   * so a new dispute is `open`, unassigned, without comments or resolution.
   */
  function NewDisputeCorrected(req: CreateRequest): (d: Option<Dispute>)
    ensures d.Some? <==> NewDispute(req).Some?
    ensures d.Some? ==> d.value.matchId == req.matchId && d.value.reporter == req.reporter
    ensures d.Some? ==> d.value.status == Open && d.value.comments == [] && d.value.assignedTo.None?
    ensures d.Some? ==> d.value.resolution.None?
  {
    if req.tournament.None? || req.reason.None? || req.reason.value == "" then None
    else Some(Dispute(req.matchId, req.tournament.value, req.reporter, Open, req.reason.value,
                      req.evidence, None, [], None))
  }

  /**
   * The checks and the two saves of `createDisputeService`, given the document
   * `new Dispute(...)` builds (None when a required field is missing).
   */
  function SaveNewDispute(s: Store, req: CreateRequest, newId: Id, built: Option<Dispute>): (r: Reply<Dispute>)
    requires newId !in s.disputes
    ensures r.result.Err? ==> r.store == s
    ensures r.result.Ok? ==>
      && req.matchId in s.matches
      && HasParticipant(s.matches[req.matchId].participants, req.reporter)
      && !HasDispute(s.disputes, req.matchId)
      && built == Some(r.result.value) && SchemaValid(r.result.value)
      && r.store.disputes == s.disputes[newId := r.result.value]
      && r.store.matches == s.matches[req.matchId := s.matches[req.matchId].(status := Disputed)]
      && r.store.(matches := s.matches, disputes := s.disputes) == s
  {
    if req.matchId !in s.matches then Reply(s, Err(Fail(404, MatchNotFound)))
    else
      var m := s.matches[req.matchId];
      if !HasParticipant(m.participants, req.reporter) then Reply(s, Err(Fail(403, NotParticipant)))
      else if HasDispute(s.disputes, req.matchId) then Reply(s, Err(Fail(400, DisputeExists)))
      else
        match Save(m.status, m.(status := Disputed))
        case Err(e) => Reply(s, Err(e))
        case Ok(m') =>
          match built
          case None => Reply(s, Err(Crash(SaveRejected)))
          case Some(d) =>
            if !SchemaValid(d) then Reply(s, Err(Crash(SaveRejected)))
            else Reply(s.(matches := s.matches[req.matchId := m'], disputes := s.disputes[newId := d]), Ok(d))
  }

  /** `createDisputeService` as written. */
  function CreateDispute(s: Store, req: CreateRequest, newId: Id): (r: Reply<Dispute>)
    requires newId !in s.disputes
    ensures r.result.Err? ==> r.store == s
    ensures r.result.Ok? ==>
      && req.matchId in s.matches
      && HasParticipant(s.matches[req.matchId].participants, req.reporter)
      && !HasDispute(s.disputes, req.matchId)
      && r.store.disputes == s.disputes[newId := r.result.value]
      && r.result.value.matchId == req.matchId && r.result.value.reporter == req.reporter
      && r.result.value.status == req.status.GetOr(Open)
      && r.result.value.comments == req.comments && r.result.value.assignedTo == req.assignedTo
      && r.result.value.resolution == req.resolution
      && r.store.matches == s.matches[req.matchId := s.matches[req.matchId].(status := Disputed)]
      && r.store.(matches := s.matches, disputes := s.disputes) == s
  {
    SaveNewDispute(s, req, newId, NewDispute(req))
  }

  /** `createDisputeService` with the workflow fields left to the server. */
  function CreateDisputeCorrected(s: Store, req: CreateRequest, newId: Id): (r: Reply<Dispute>)
    requires newId !in s.disputes
    ensures r.result.Err? ==> r.store == s
    ensures r.result.Ok? ==>
      && req.matchId in s.matches
      && HasParticipant(s.matches[req.matchId].participants, req.reporter)
      && !HasDispute(s.disputes, req.matchId)
      && r.store.disputes == s.disputes[newId := r.result.value]
      && r.result.value.matchId == req.matchId && r.result.value.reporter == req.reporter
      && r.result.value.status == Open && r.result.value.comments == [] && r.result.value.assignedTo.None?
      && r.result.value.resolution.None?
      && r.store.matches == s.matches[req.matchId := s.matches[req.matchId].(status := Disputed)]
      && r.store.(matches := s.matches, disputes := s.disputes) == s
  {
    SaveNewDispute(s, req, newId, NewDisputeCorrected(req))
  }

  /** The failure order of dispute creation. */
  lemma CreateFailures(s: Store, req: CreateRequest, newId: Id)
    requires newId !in s.disputes
    ensures req.matchId !in s.matches ==>
      CreateDispute(s, req, newId).result == Err(Fail(404, MatchNotFound))
    ensures (req.matchId in s.matches && !HasParticipant(s.matches[req.matchId].participants, req.reporter)) ==>
      CreateDispute(s, req, newId).result == Err(Fail(403, NotParticipant))
    ensures (req.matchId in s.matches && HasParticipant(s.matches[req.matchId].participants, req.reporter)
             && HasDispute(s.disputes, req.matchId)) ==>
      CreateDispute(s, req, newId).result == Err(Fail(400, DisputeExists))
  {
  }

  /** Creation keeps one dispute per match, and afterwards the match has exactly its new dispute. */
  lemma CreateKeepsOnePerMatch(s: Store, req: CreateRequest, newId: Id)
    requires newId !in s.disputes
    requires OneDisputePerMatch(s.disputes)
    ensures OneDisputePerMatch(CreateDispute(s, req, newId).store.disputes)
    ensures CreateDispute(s, req, newId).result.Ok? ==>
      forall id :: (id in CreateDispute(s, req, newId).store.disputes
                    && CreateDispute(s, req, newId).store.disputes[id].matchId == req.matchId) ==> id == newId
  {
  }

  // ---------------------------------------------------------------------
  // addCommentToDisputeService
  // ---------------------------------------------------------------------

  /** Push `{ author, content }` with the current time and save; a missing content fails the save. */
  function AddComment(s: Store, disputeId: Id, author: Id, content: Option<string>, now: Time): (r: Reply<Dispute>)
    ensures r.result.Err? ==> r.store == s
    ensures r.result.Ok? ==>
      && disputeId in s.disputes && content.Some?
      && r.result.value == s.disputes[disputeId].(comments := s.disputes[disputeId].comments + [Comment(author, content.value, now)])
      && r.store == s.(disputes := s.disputes[disputeId := r.result.value])
  {
    if disputeId !in s.disputes then Reply(s, Err(Fail(404, DisputeNotFound)))
    else if content.None? then Reply(s, Err(Crash(SaveRejected)))
    else
      var d := s.disputes[disputeId];
      var d' := d.(comments := d.comments + [Comment(author, content.value, now)]);
      if !SchemaValid(d') then Reply(s, Err(Crash(SaveRejected)))
      else Reply(s.(disputes := s.disputes[disputeId := d']), Ok(d'))
  }

  /** A comment is appended at the end: one more comment, the old ones in place, nothing else touched. */
  lemma AddCommentAppendsOne(s: Store, disputeId: Id, author: Id, content: Option<string>, now: Time)
    requires disputeId in s.disputes
    requires SchemaValid(s.disputes[disputeId])
    requires content.Some? && content.value != ""
    ensures var r := AddComment(s, disputeId, author, content, now);
      && r.result.Ok?
      && |r.store.disputes[disputeId].comments| == |s.disputes[disputeId].comments| + 1
      && r.store.disputes[disputeId].comments[..|s.disputes[disputeId].comments|] == s.disputes[disputeId].comments
      && r.store.disputes[disputeId].status == s.disputes[disputeId].status
      && r.store.matches == s.matches
  {
    var d := s.disputes[disputeId];
    var d' := d.(comments := d.comments + [Comment(author, content.value, now)]);
    CommentKeepsSchema(d, Comment(author, content.value, now));
    assert AddComment(s, disputeId, author, content, now) == Reply(s.(disputes := s.disputes[disputeId := d']), Ok(d'));
    assert d'.comments[..|d.comments|] == d.comments;
  }

  /** Appending a non-empty comment keeps a valid dispute valid. */
  lemma CommentKeepsSchema(d: Dispute, c: Comment)
    requires SchemaValid(d) && c.content != ""
    ensures SchemaValid(d.(comments := d.comments + [c]))
  {
    var cs := d.comments + [c];
    forall i | 0 <= i < |cs| ensures cs[i].content != "" {
      if i < |d.comments| {
        assert cs[i] == d.comments[i];
      }
    }
  }

  // ---------------------------------------------------------------------
  // resolveDisputeService
  // ---------------------------------------------------------------------

  /**
   * `resolutionData.winnerId` as the request body carries it: a bare id, or an
   * object already shaped like the `winner` sub-document.
   */
  datatype WinnerValue = WinnerId(id: Id) | WinnerObject(ref: ParticipantRef)

  /** The request body of a resolution. */
  datatype ResolutionData = ResolutionData(
    outcome: Option<string>,
    winnerId: Option<WinnerValue>,
    previousStatus: Option<string>,
    decision: Option<string>,
    finalComment: Option<string>)

  /** The match after the outcome branch, or None when the assignment cannot be saved. */
  function ApplyOutcome(m: Match, data: ResolutionData): Option<Match> {
    if data.outcome == Some("winner") && data.winnerId.Some? then
      match data.winnerId.value
      // a scalar assigned to the nested `winner` path is a cast error
      case WinnerId(_) => None
      case WinnerObject(ref) => Some(m.(winner := Some(ref), status := Completed))
    else if data.outcome == Some("cancelled") then
      match CastStatus(Some("cancelled"))
      case None => None
      case Some(st) => Some(m.(status := st, winner := None))
    else if data.outcome == Some("reverted") then
      var raw := if data.previousStatus.Some? && data.previousStatus.value != "" then data.previousStatus.value else "completed";
      match CastStatus(Some(raw))
      case None => None
      case Some(st) => Some(m.(status := st))
    else Some(m)
  }

  /** The match's own reference to the participant with this id, if it has one. */
  function FindParticipant(ps: seq<ParticipantRef>, id: Id): (r: Option<ParticipantRef>)
    ensures r.Some? <==> HasParticipant(ps, id)
    ensures r.Some? ==> r.value in ps && r.value.id == id
  {
    if |ps| == 0 then None
    else if ps[0].id == id then Some(ps[0])
    else
      HasParticipantTail(ps, id);
      FindParticipant(ps[1..], id)
  }

  lemma HasParticipantTail(ps: seq<ParticipantRef>, id: Id)
    requires |ps| > 0 && ps[0].id != id
    ensures HasParticipant(ps, id) <==> HasParticipant(ps[1..], id)
  {
    if HasParticipant(ps, id) {
      var i :| 0 <= i < |ps| && ps[i].id == id;
      assert ps[1..][i - 1].id == id;
    }
    if HasParticipant(ps[1..], id) {
      var i :| 0 <= i < |ps[1..]| && ps[1..][i].id == id;
      assert ps[i + 1].id == id;
    }
  }

  /**
   * The outcome branch as evidently intended: a bare winner id names one of
   * the match's participants and is stored as that participant's reference;
   * an id that names no participant is still refused.
   */
  function ApplyOutcomeCorrected(m: Match, data: ResolutionData): (r: Option<Match>)
    ensures data.outcome == Some("winner") && data.winnerId.Some? && data.winnerId.value.WinnerId? ==>
              (r.Some? <==> HasParticipant(m.participants, data.winnerId.value.id))
    ensures !(data.outcome == Some("winner") && data.winnerId.Some? && data.winnerId.value.WinnerId?) ==>
              r == ApplyOutcome(m, data)
  {
    if data.outcome == Some("winner") && data.winnerId.Some? && data.winnerId.value.WinnerId? then
      match FindParticipant(m.participants, data.winnerId.value.id)
      case None => None
      case Some(p) => Some(m.(winner := Some(p), status := Completed))
    else ApplyOutcome(m, data)
  }

  /** `dispute.resolution = resolutionData`: the schema keeps `decision` and `finalComment` only. */
  function StoredResolution(data: ResolutionData): Option<Resolution> {
    if data.decision.Some? && ParseDecision(data.decision.value).None? then None
    else Some(Resolution(if data.decision.Some? then ParseDecision(data.decision.value) else None, data.finalComment))
  }

  predicate Resolvable(d: Dispute) {
    d.status == UnderReview || d.status == Open
  }

  /** The lookups before the outcome: the dispute (404), its status (400) and its match (404). */
  function ResolutionTarget(s: Store, disputeId: Id): (r: Result<Match, ApiError>)
    ensures r.Ok? <==>
              disputeId in s.disputes && Resolvable(s.disputes[disputeId]) && s.disputes[disputeId].matchId in s.matches
    ensures r.Ok? ==> r.value == s.matches[s.disputes[disputeId].matchId]
  {
    if disputeId !in s.disputes then Err(Fail(404, DisputeNotFound))
    else
      var d := s.disputes[disputeId];
      if !Resolvable(d) then Err(Fail(400, DisputeNotResolvable))
      else if d.matchId !in s.matches then Err(Fail(404, MatchNotFound))
      else Ok(s.matches[d.matchId])
  }

  /**
   * Saving the changed match, then the resolved dispute, in one transaction:
   * the match of the dispute and the dispute are the only documents written.
   */
  function SaveResolution(s: Store, disputeId: Id, admin: Id, data: ResolutionData, changed: Option<Match>): (r: Reply<Dispute>)
    requires disputeId in s.disputes && s.disputes[disputeId].matchId in s.matches
    ensures r.result.Err? ==> r.store == s
    ensures changed.None? ==> r == Reply(s, Err(Crash(SaveRejected)))
    ensures r.result.Ok? ==>
      var d := s.disputes[disputeId];
      && changed.Some?
      && Save(s.matches[d.matchId].status, changed.value) == Ok(changed.value)
      && r.result.value == d.(status := Resolved, assignedTo := Some(admin), resolution := StoredResolution(data))
      && r.result.value.resolution.Some? && SchemaValid(r.result.value)
      && r.store == s.(matches := s.matches[d.matchId := changed.value], disputes := s.disputes[disputeId := r.result.value])
  {
    var d := s.disputes[disputeId];
    var m := s.matches[d.matchId];
    match changed
    case None => Reply(s, Err(Crash(SaveRejected)))
    case Some(m1) =>
      match Save(m.status, m1)
      case Err(e) => Reply(s, Err(e))
      case Ok(m2) =>
        match StoredResolution(data)
        case None => Reply(s, Err(Crash(SaveRejected)))
        case Some(res) =>
          var d' := d.(status := Resolved, assignedTo := Some(admin), resolution := Some(res));
          if !SchemaValid(d') then Reply(s, Err(Crash(SaveRejected)))
          else Reply(s.(matches := s.matches[d.matchId := m2], disputes := s.disputes[disputeId := d']), Ok(d'))
  }

  /** `resolveDisputeService` as written. */
  function ResolveDispute(s: Store, disputeId: Id, admin: Id, data: ResolutionData): (r: Reply<Dispute>)
    ensures r.result.Err? ==> r.store == s
    ensures r.result.Ok? ==>
      && disputeId in s.disputes && Resolvable(s.disputes[disputeId])
      && s.disputes[disputeId].matchId in s.matches
      && r.result.value.status == Resolved
      && r.result.value.assignedTo == Some(admin)
      && r.result.value.resolution == StoredResolution(data) && r.result.value.resolution.Some?
      && r.result.value.comments == s.disputes[disputeId].comments
      && r.store.disputes == s.disputes[disputeId := r.result.value]
      && r.store.(matches := s.matches, disputes := s.disputes) == s
      && r.store.matches.Keys == s.matches.Keys
      && (forall id :: id in s.matches && id != s.disputes[disputeId].matchId ==> r.store.matches[id] == s.matches[id])
  {
    match ResolutionTarget(s, disputeId)
    case Err(e) => Reply(s, Err(e))
    case Ok(m) => SaveResolution(s, disputeId, admin, data, ApplyOutcome(m, data))
  }

  /** `resolveDisputeService` with the winner branch as evidently intended. */
  function ResolveDisputeCorrected(s: Store, disputeId: Id, admin: Id, data: ResolutionData): (r: Reply<Dispute>)
    ensures r.result.Err? ==> r.store == s
    ensures r.result.Ok? ==>
      && disputeId in s.disputes && Resolvable(s.disputes[disputeId])
      && s.disputes[disputeId].matchId in s.matches
      && r.result.value.status == Resolved
      && r.result.value.assignedTo == Some(admin)
      && r.result.value.resolution == StoredResolution(data) && r.result.value.resolution.Some?
      && r.result.value.comments == s.disputes[disputeId].comments
      && r.store.disputes == s.disputes[disputeId := r.result.value]
      && r.store.(matches := s.matches, disputes := s.disputes) == s
      && r.store.matches.Keys == s.matches.Keys
      && (forall id :: id in s.matches && id != s.disputes[disputeId].matchId ==> r.store.matches[id] == s.matches[id])
  {
    match ResolutionTarget(s, disputeId)
    case Err(e) => Reply(s, Err(e))
    case Ok(m) => SaveResolution(s, disputeId, admin, data, ApplyOutcomeCorrected(m, data))
  }

  /** A bare winner id, which is what the body carries, aborts every winner resolution with 500 and writes nothing. */
  lemma BareWinnerIdAborts(s: Store, disputeId: Id, admin: Id, data: ResolutionData)
    requires data.outcome == Some("winner") && data.winnerId.Some? && data.winnerId.value.WinnerId?
    requires ResolutionTarget(s, disputeId).Ok?
    ensures ResolveDispute(s, disputeId, admin, data) == Reply(s, Err(Crash(SaveRejected)))
  {
  }

  /**
   * Corrected, a bare id that names a participant of the match makes that
   * participant the winner and completes the match, once the dispute's own
   * resolution is acceptable.
   */
  lemma BareWinnerIdResolvesCorrected(s: Store, disputeId: Id, admin: Id, data: ResolutionData)
    requires data.outcome == Some("winner") && data.winnerId.Some? && data.winnerId.value.WinnerId?
    requires ResolutionTarget(s, disputeId).Ok?
    requires HasParticipant(s.matches[s.disputes[disputeId].matchId].participants, data.winnerId.value.id)
    requires ScoresNonNegative(s.matches[s.disputes[disputeId].matchId])
    requires StoredResolution(data).Some?
    requires SchemaValid(s.disputes[disputeId].(status := Resolved, assignedTo := Some(admin), resolution := StoredResolution(data)))
    ensures var r := ResolveDisputeCorrected(s, disputeId, admin, data);
            var m' := r.store.matches[s.disputes[disputeId].matchId];
            && r.result.Ok?
            && m'.status == Completed && m'.winner.Some?
            && m'.winner.value.id == data.winnerId.value.id
            && m'.winner.value in s.matches[s.disputes[disputeId].matchId].participants
  {
    var m := s.matches[s.disputes[disputeId].matchId];
    var p := FindParticipant(m.participants, data.winnerId.value.id).value;
    var m1 := m.(winner := Some(p), status := Completed);
    assert ScoresNonNegative(m1) by { assert m1.scores == m.scores; }
    assert CompletionHookPasses(m.status, m1);
  }

  /** Apart from a bare winner id the two versions behave identically. */
  lemma ResolveVersionsAgree(s: Store, disputeId: Id, admin: Id, data: ResolutionData)
    requires !(data.outcome == Some("winner") && data.winnerId.Some? && data.winnerId.value.WinnerId?)
    ensures ResolveDisputeCorrected(s, disputeId, admin, data) == ResolveDispute(s, disputeId, admin, data)
  {
  }

  /** A dispute that is resolved or canceled cannot be resolved (again): 400 and nothing changes. */
  lemma ResolveOnlyFromOpenOrReview(s: Store, disputeId: Id, admin: Id, data: ResolutionData)
    requires disputeId in s.disputes && !Resolvable(s.disputes[disputeId])
    ensures ResolveDispute(s, disputeId, admin, data) == Reply(s, Err(Fail(400, DisputeNotResolvable)))
  {
  }

  /** Resolving twice: the second attempt always fails. */
  lemma ResolveTwiceFails(s: Store, disputeId: Id, admin: Id, data: ResolutionData, admin2: Id, data2: ResolutionData)
    requires ResolveDispute(s, disputeId, admin, data).result.Ok?
    ensures var s1 := ResolveDispute(s, disputeId, admin, data).store;
      ResolveDispute(s1, disputeId, admin2, data2).result == Err(Fail(400, DisputeNotResolvable))
  {
  }

  /** Outcome `winner` with a winner object: the match gets that winner and is completed. */
  lemma WinnerOutcome(s: Store, disputeId: Id, admin: Id, data: ResolutionData)
    requires data.outcome == Some("winner") && data.winnerId.Some? && data.winnerId.value.WinnerObject?
    requires ResolveDispute(s, disputeId, admin, data).result.Ok?
    ensures var mid := s.disputes[disputeId].matchId;
      var m' := ResolveDispute(s, disputeId, admin, data).store.matches[mid];
      m'.winner == Some(data.winnerId.value.ref) && m'.status == Completed
  {
  }

  /** Outcome `cancelled` writes a status outside the enum, so every such resolution aborts. */
  lemma CancelledOutcomeAborts(s: Store, disputeId: Id, admin: Id, data: ResolutionData)
    requires data.outcome == Some("cancelled")
    ensures ResolveDispute(s, disputeId, admin, data).store == s
    ensures ResolveDispute(s, disputeId, admin, data).result.Err?
  {
    CancelledIsNotAStatus();
  }

  /**
   * Outcome `reverted` without a previous status completes the match, so it
   * succeeds only when the match already carries an outcome (or was completed).
   */
  lemma RevertedDefaultsToCompleted(s: Store, disputeId: Id, admin: Id, data: ResolutionData)
    requires data.outcome == Some("reverted") && (data.previousStatus.None? || data.previousStatus == Some(""))
    requires disputeId in s.disputes && s.disputes[disputeId].matchId in s.matches
    ensures ResolveDispute(s, disputeId, admin, data).result.Ok? ==>
      ResolveDispute(s, disputeId, admin, data).store.matches[s.disputes[disputeId].matchId].status == Completed
    ensures (s.matches[s.disputes[disputeId].matchId].status != Completed
             && !HasOutcome(s.matches[s.disputes[disputeId].matchId])) ==>
      ResolveDispute(s, disputeId, admin, data).result.Err?
  {
    assert CastStatus(Some("completed")) == Some(Completed);
  }

  /** Any other outcome leaves the match as it was while the dispute is still resolved. */
  lemma OtherOutcomeKeepsMatch(s: Store, disputeId: Id, admin: Id, data: ResolutionData)
    requires data.outcome != Some("cancelled") && data.outcome != Some("reverted")
    requires data.outcome != Some("winner") || data.winnerId.None?
    requires ResolveDispute(s, disputeId, admin, data).result.Ok?
    ensures ResolveDispute(s, disputeId, admin, data).store.matches == s.matches
    ensures ResolveDispute(s, disputeId, admin, data).result.value.status == Resolved
  {
    var mid := s.disputes[disputeId].matchId;
    assert s.matches[mid := s.matches[mid]] == s.matches;
  }

  /** Resolution never leaves a completed match without an outcome. */
  lemma ResolveKeepsCompletionInvariant(s: Store, disputeId: Id, admin: Id, data: ResolutionData)
    requires forall id :: id in s.matches ==> CompletedHasOutcome(s.matches[id])
    ensures var r := ResolveDispute(s, disputeId, admin, data);
      forall id :: id in r.store.matches ==> CompletedHasOutcome(r.store.matches[id])
  {
  }

  // ---------------------------------------------------------------------
  // A client-chosen status at creation
  // ---------------------------------------------------------------------

  /**
   * A body that names a final status creates a dispute nobody can resolve:
   * the match is left `disputed`, every resolution answers 400, and a second
   * dispute on the match is refused because this one exists.
   */
  lemma ClientStatusLocksMatch(s: Store, req: CreateRequest, newId: Id, admin: Id, data: ResolutionData)
    requires newId !in s.disputes
    requires req.status == Some(Resolved) || req.status == Some(Canceled)
    requires CreateDispute(s, req, newId).result.Ok?
    ensures var s1 := CreateDispute(s, req, newId).store;
            && s1.matches[req.matchId].status == Disputed
            && s1.disputes[newId].status == req.status.value
            && ResolveDispute(s1, newId, admin, data) == Reply(s1, Err(Fail(400, DisputeNotResolvable)))
            && HasDispute(s1.disputes, req.matchId)
  {
    var s1 := CreateDispute(s, req, newId).store;
    assert s1.disputes[newId].matchId == req.matchId;
  }

  /** Corrected, a created dispute is always open to resolution, whatever the body carries. */
  lemma CreatedDisputeResolvableCorrected(s: Store, req: CreateRequest, newId: Id)
    requires newId !in s.disputes
    requires CreateDisputeCorrected(s, req, newId).result.Ok?
    ensures var s1 := CreateDisputeCorrected(s, req, newId).store;
            && s1.disputes[newId].status == Open
            && s1.matches[req.matchId].status == Disputed
            && ResolutionTarget(s1, newId).Ok?
  {
    var s1 := CreateDisputeCorrected(s, req, newId).store;
    assert s1.disputes[newId].matchId == req.matchId;
    assert req.matchId in s1.matches;
  }

  /** A body without workflow fields is created the same way by both versions. */
  lemma CreateVersionsAgree(s: Store, req: CreateRequest, newId: Id)
    requires newId !in s.disputes
    requires req.status.None? && req.assignedTo.None? && req.comments == [] && req.resolution.None?
    ensures CreateDisputeCorrected(s, req, newId) == CreateDispute(s, req, newId)
  {
    assert NewDisputeCorrected(req) == NewDispute(req);
  }
}

=== FILE: elo_service.dfy ===
/**
 * src/services/elo.service.js: Elo rating update after a decided two-sided
 * match. The expected score `1 / (1 + 10^((b - a) / 400))` is floating point
 * and is taken as a parameter `expected` that satisfies the three laws the
 * formula has (strictly between 0 and 1, complementary, one half on a tie).
 */
module EloService {
  import opened Wrappers
  import opened Ids
  import opened Errors
  import opened UserModel
  import opened TeamModel
  import opened Storage

  const KFactor: int := 32

  /** The laws of the logistic expected score that the model relies on. */
  ghost predicate ExpectedLaws(expected: (int, int) -> real) {
    && (forall a, b :: 0.0 < expected(a, b) < 1.0)
    && (forall a, b :: expected(a, b) + expected(b, a) == 1.0)
    && (forall a :: expected(a, a) == 0.5)
  }

  /** `Math.round`: halves round up. */
  function Round(x: real): int {
    (x + 0.5).Floor
  }

  /** `_calculateNewRatings(winnerRating, loserRating)`. */
  function NewRatings(w: int, l: int, expected: (int, int) -> real): (r: (int, int))
    requires ExpectedLaws(expected)
    ensures w <= r.0 <= w + KFactor
    ensures l - KFactor <= r.1 <= l
  {
    var ew := expected(w, l);
    var el := expected(l, w);
    var nw := w as real + KFactor as real * (1.0 - ew);
    var nl := l as real + KFactor as real * (0.0 - el);
    (Round(nw), Round(nl))
  }

  /** Equal ratings move by exactly half the K-factor. */
  lemma EqualRatingsMoveSixteen(a: int, expected: (int, int) -> real)
    requires ExpectedLaws(expected)
    ensures NewRatings(a, a, expected) == (a + 16, a - 16)
  {
    assert expected(a, a) == 0.5;
  }

  /** Two 1500-rated opponents end at 1516 and 1484. */
  lemma EqualRatingsExample(expected: (int, int) -> real)
    requires ExpectedLaws(expected)
    ensures NewRatings(1500, 1500, expected) == (1516, 1484)
  {
    EqualRatingsMoveSixteen(1500, expected);
  }

  /**
   * The winner's gain equals the loser's loss unless the exchanged amount sits
   * exactly on a half, where rounding both ways up gives the winner one point more.
   */
  lemma GainMatchesLoss(w: int, l: int, expected: (int, int) -> real)
    requires ExpectedLaws(expected)
    ensures var d := KFactor as real * (1.0 - expected(w, l));
            var r := NewRatings(w, l, expected);
            && (r.0 - w == l - r.1 || (d + 0.5).Floor as real == d + 0.5)
            && 0 <= (r.0 - w) - (l - r.1) <= 1
  {
    var ew := expected(w, l);
    var el := expected(l, w);
    assert el == 1.0 - ew;
    var d := KFactor as real * (1.0 - ew);
    var r := NewRatings(w, l, expected);
    assert r.0 == Round(w as real + d);
    assert r.1 == Round(l as real - d);
    ShiftRound(w, d);
    ShiftRound(l, -d);
    assert r.0 - w == Round(d);
    assert r.1 - l == Round(-d);
    RoundNegation(d);
  }

  lemma ShiftRound(n: int, x: real)
    ensures Round(n as real + x) == n + Round(x)
  {
  }

  /** `Round(-x)` is `-Round(x)` except on halves, where it is one more. */
  lemma RoundNegation(x: real)
    ensures Round(x) + Round(-x) == 0 || (x + 0.5).Floor as real == x + 0.5
    ensures 0 <= Round(x) + Round(-x) <= 1
  {
  }

  // ---------------------------------------------------------------------
  // updateEloForMatch
  // ---------------------------------------------------------------------

  /** The parts of a match document the update reads; `game` is absent on a schema-conforming match. */
  datatype EloInput = EloInput(participants: seq<ParticipantRef>, winner: Option<ParticipantRef>, game: Option<Id>)

  /** `participants.find(p => p.participantId != winner.participantId)`: the first other participant. */
  function FindLoser(ps: seq<ParticipantRef>, winnerId: Id): (r: Option<ParticipantRef>)
    ensures r.Some? ==> r.value in ps && r.value.id != winnerId
    ensures r.None? <==> forall i :: 0 <= i < |ps| ==> ps[i].id == winnerId
  {
    if |ps| == 0 then None
    else if ps[0].id != winnerId then Some(ps[0])
    else FindLoser(ps[1..], winnerId)
  }

  predicate Exists(s: Store, p: ParticipantRef) {
    match p.model
    case UserParticipant => p.id in s.users
    case TeamParticipant => p.id in s.teams
  }

  /** The rating the update starts from: a user's per-game rating, or a team's rankPoints. */
  function RatingOf(s: Store, p: ParticipantRef, game: Id): int
    requires Exists(s, p)
  {
    match p.model
    case UserParticipant => CurrentRating(s.users[p.id].eloRating, game)
    case TeamParticipant => s.teams[p.id].stats.rankPoints
  }

  /** Write a new rating; a team also counts the win or the loss. */
  function WriteRating(s: Store, p: ParticipantRef, game: Id, rating: int, won: bool): (s': Store)
    requires Exists(s, p)
    ensures Exists(s', p)
    ensures s'.users.Keys == s.users.Keys && s'.teams.Keys == s.teams.Keys
  {
    match p.model
    case UserParticipant =>
      var u := s.users[p.id];
      s.(users := s.users[p.id := u.(eloRating := SetRating(u.eloRating, game, rating))])
    case TeamParticipant =>
      var t := s.teams[p.id];
      var st := if won then t.stats.(rankPoints := rating, wins := t.stats.wins + 1)
                else t.stats.(rankPoints := rating, losses := t.stats.losses + 1);
      s.(teams := s.teams[p.id := t.(stats := st)])
  }

  function UpdateElo(s: Store, m: EloInput, expected: (int, int) -> real): (r: Reply<()>)
    requires ExpectedLaws(expected)
    ensures r.result.Err? ==> r.store == s
    ensures (|m.participants| != 2 || m.winner.None?) ==> r == Reply(s, Ok(()))
    ensures r.store.(users := s.users, teams := s.teams) == s
  {
    if |m.participants| != 2 || m.winner.None? then Reply(s, Ok(()))
    else
      var w := m.winner.value;
      match FindLoser(m.participants, w.id)
      case None => Reply(s, Err(Fail(500, LoserUndetermined)))
      case Some(l) =>
        if !Exists(s, w) || !Exists(s, l) then Reply(s, Err(Fail(404, ParticipantNotFound)))
        else if m.game.None? then Reply(s, Err(Crash(Internal)))
        else
          var g := m.game.value;
          var nr := NewRatings(RatingOf(s, w, g), RatingOf(s, l, g), expected);
          var s1 := WriteRating(s, w, g, nr.0, true);
          Reply(WriteRating(s1, l, g, nr.1, false), Ok(()))
  }

  /** The loser is a participant other than the winner; when there is none the update fails with 500. */
  lemma LoserDetermination(s: Store, m: EloInput, expected: (int, int) -> real)
    requires ExpectedLaws(expected)
    requires |m.participants| == 2 && m.winner.Some?
    ensures (m.participants[0].id == m.winner.value.id && m.participants[1].id == m.winner.value.id) ==>
      UpdateElo(s, m, expected) == Reply(s, Err(Fail(500, LoserUndetermined)))
    ensures m.participants[0].id != m.winner.value.id ==>
      FindLoser(m.participants, m.winner.value.id) == Some(m.participants[0])
  {
  }

  /** A participant document that does not exist stops the update with 404 before anything is written. */
  lemma MissingParticipant(s: Store, m: EloInput, expected: (int, int) -> real)
    requires ExpectedLaws(expected)
    requires |m.participants| == 2 && m.winner.Some?
    requires FindLoser(m.participants, m.winner.value.id).Some?
    requires !Exists(s, m.winner.value) || !Exists(s, FindLoser(m.participants, m.winner.value.id).value)
    ensures UpdateElo(s, m, expected) == Reply(s, Err(Fail(404, ParticipantNotFound)))
  {
  }

  /**
   * Between two users: the winner's entry for the game holds the new winner
   * rating and the loser's the new loser rating, computed from the two
   * current ratings; so the winner moves up and the loser down, by at most K each.
   */
  lemma UserRatingsMove(s: Store, m: EloInput, expected: (int, int) -> real)
    requires ExpectedLaws(expected)
    requires |m.participants| == 2 && m.winner.Some? && m.game.Some?
    requires m.winner.value.model == UserParticipant
    requires FindLoser(m.participants, m.winner.value.id).Some?
    requires FindLoser(m.participants, m.winner.value.id).value.model == UserParticipant
    requires UpdateElo(s, m, expected).result.Ok?
    ensures var w := m.winner.value.id;
            var l := FindLoser(m.participants, w).value.id;
            var g := m.game.value;
            var s' := UpdateElo(s, m, expected).store;
            var iw := FindRating(s'.users[w].eloRating, g);
            var il := FindRating(s'.users[l].eloRating, g);
            var nr := NewRatings(CurrentRating(s.users[w].eloRating, g), CurrentRating(s.users[l].eloRating, g), expected);
            && iw >= 0 && il >= 0
            && s'.users[w].eloRating[iw].rating == nr.0
            && s'.users[l].eloRating[il].rating == nr.1
            && CurrentRating(s.users[w].eloRating, g) <= s'.users[w].eloRating[iw].rating
                 <= CurrentRating(s.users[w].eloRating, g) + KFactor
            && CurrentRating(s.users[l].eloRating, g) - KFactor <= s'.users[l].eloRating[il].rating
                 <= CurrentRating(s.users[l].eloRating, g)
  {
    var w := m.winner.value;
    var l := FindLoser(m.participants, w.id).value;
    var g := m.game.value;
    var nr := NewRatings(RatingOf(s, w, g), RatingOf(s, l, g), expected);
    var s1 := WriteRating(s, w, g, nr.0, true);
    var s2 := WriteRating(s1, l, g, nr.1, false);
    SetRatingWritten(s.users[w.id].eloRating, g, nr.0);
    SetRatingWritten(s1.users[l.id].eloRating, g, nr.1);
    assert s2.users[w.id] == s1.users[w.id];
  }

  /** After a write the entry for the game exists and holds the written value. */
  lemma SetRatingWritten(list: seq<EloEntry>, game: Id, rating: int)
    ensures var r := SetRating(list, game, rating);
            FindRating(r, game) >= 0 && r[FindRating(r, game)].rating == rating
  {
    var i := FindRating(list, game);
    var r := SetRating(list, game, rating);
    if i >= 0 {
      assert r[i].game == game;
      assert forall j :: 0 <= j < i ==> r[j] == list[j];
      assert FindRating(r, game) == i;
    } else {
      assert r[|list|].game == game;
      assert FindRating(r, game) == |list|;
    }
  }

  lemma WriteRatingOther(s: Store, p: ParticipantRef, game: Id, rating: int, won: bool, u: Id, other: Id)
    requires Exists(s, p) && u in s.users && other != game
    ensures CurrentRating(WriteRating(s, p, game, rating, won).users[u].eloRating, other)
         == CurrentRating(s.users[u].eloRating, other)
  {
    if p.model == UserParticipant && p.id == u {
      SetRatingOther(s.users[u].eloRating, game, other, rating);
    }
  }

  /** A user's ratings for other games are untouched by the update. */
  lemma OtherGamesUntouched(s: Store, m: EloInput, expected: (int, int) -> real, u: Id, other: Id)
    requires ExpectedLaws(expected)
    requires m.game.Some? && other != m.game.value
    requires u in s.users
    ensures u in UpdateElo(s, m, expected).store.users
    ensures CurrentRating(UpdateElo(s, m, expected).store.users[u].eloRating, other)
         == CurrentRating(s.users[u].eloRating, other)
  {
    var r := UpdateElo(s, m, expected);
    if |m.participants| == 2 && m.winner.Some? && r.result.Ok? {
      var w := m.winner.value;
      var l := FindLoser(m.participants, w.id).value;
      var g := m.game.value;
      var nr := NewRatings(RatingOf(s, w, g), RatingOf(s, l, g), expected);
      var s1 := WriteRating(s, w, g, nr.0, true);
      WriteRatingOther(s, w, g, nr.0, true, u, other);
      WriteRatingOther(s1, l, g, nr.1, false, u, other);
    }
  }

  /** Between two teams: rankPoints are replaced, the winner gains a win and the loser a loss. */
  lemma TeamCounters(s: Store, m: EloInput, expected: (int, int) -> real)
    requires ExpectedLaws(expected)
    requires |m.participants| == 2 && m.winner.Some? && m.game.Some?
    requires m.winner.value.model == TeamParticipant
    requires FindLoser(m.participants, m.winner.value.id).Some?
    requires FindLoser(m.participants, m.winner.value.id).value.model == TeamParticipant
    requires UpdateElo(s, m, expected).result.Ok?
    ensures var w := m.winner.value.id;
            var l := FindLoser(m.participants, w).value.id;
            var s' := UpdateElo(s, m, expected).store;
            var nr := NewRatings(s.teams[w].stats.rankPoints, s.teams[l].stats.rankPoints, expected);
            && s'.teams[w].stats == s.teams[w].stats.(rankPoints := nr.0, wins := s.teams[w].stats.wins + 1)
            && s'.teams[l].stats == s.teams[l].stats.(rankPoints := nr.1, losses := s.teams[l].stats.losses + 1)
            && s'.users == s.users
  {
  }
}

=== FILE: errors.dfy ===
/**
 * The errors the services raise. The source throws `ApiError(statusCode, message)`;
 * anything else (a Mongoose validation error, a TypeError) reaches the global
 * error handler, which answers 500. The model keeps the status code and replaces
 * the localized message by a reason tag.
 */
module Errors {

  datatype Reason =
    // lookups
    | TournamentNotFound | UserNotFound | TeamNotFound | MatchNotFound
    | DisputeNotFound | TransactionNotFound | ParticipantNotFound
    // registration
    | RegistrationNotOpen | TournamentFull | AlreadyRegistered | TeamIdRequired
    | NotTeamMember | WrongTeamSize | TeamAlreadyRegistered | IndividualTournament
    | InsufficientFunds
    // match results and disputes
    | NotParticipant | MatchNotActive | AlreadyReported | ParticipantsMismatch | TieNotAllowed
    | DisputeExists | DisputeNotResolvable | LoserUndetermined
    // tournaments
    | RegistrationEndNotAfterStart | TournamentStartNotAfterRegistrationEnd
    | RestrictedField(field: string) | TournamentIsActive
    // teams and users
    | TeamInActiveTournament | PhoneImmutable | EmailTaken | UsernameTaken | CaptainOfTeam
    // auth and guards
    | InvalidOtp | WrongPassword | RefreshDenied | NotAuthenticated | InvalidToken
    | TokenUserGone | AccountBlocked | NoRole | RoleNotAllowed | NotCaptain
    // request validation
    | InvalidInput
    // payments
    | CanceledByUser | AlreadyProcessed | VerificationFailed | GatewayError
    // failures that are not ApiError in the source (answered with 500)
    | SaveRejected | Internal | StorageFailure

  datatype ApiError = ApiError(status: nat, reason: Reason)

  /** Errors the source raises as ApiError with an explicit status. */
  function Fail(status: nat, reason: Reason): ApiError {
    ApiError(status, reason)
  }

  /** A Mongoose validation failure or a runtime TypeError, which the global handler answers with 500. */
  function Crash(reason: Reason): ApiError {
    ApiError(500, reason)
  }
}

=== FILE: game_model.dfy ===
/**
 * Game documents (src/models/shared/Game.model.js) and the pre('validate') hook
 * that derives `shortName` from `name`.
 */
module GameModel {
  import opened Wrappers
  import opened Text

  datatype Platform =
    | PC | PlayStation5 | PlayStation4 | XboxSeries | XboxOne | NintendoSwitch
    | MobileIos | MobileAndroid

  datatype Mode =
    | OneVsOne | TwoVsTwo | ThreeVsThree | FourVsFour | FiveVsFive
    | TeamDeathmatch | SearchAndDestroy | BattleRoyaleMode | FreeForAll

  datatype Game = Game(
    name: string,
    shortName: Option<string>,
    platforms: seq<Platform>,
    supportedModes: seq<Mode>,
    isActive: bool)

  /** The remainder of `s` after its leading run of whitespace. */
  function DropSpaces(s: string): (r: string)
    ensures |r| <= |s|
    ensures r == s[|s| - |r|..]
    ensures |r| > 0 ==> !IsSpace(r[0])
  {
    if |s| > 0 && IsSpace(s[0]) then DropSpaces(s[1..]) else s
  }

  /** `name.toLowerCase().replace(/\s+/g, '-')`: lower-case, and each whitespace run becomes one dash. */
  function Slug(s: string): string
    decreases |s|
  {
    if |s| == 0 then ""
    else if IsSpace(s[0]) then "-" + Slug(DropSpaces(s[1..]))
    else [LowerChar(s[0])] + Slug(s[1..])
  }

  /** A slug contains no whitespace. */
  lemma {:induction false} SlugNoSpace(s: string)
    ensures NoSpace(Slug(s))
    decreases |s|
  {
    if |s| == 0 {
    } else if IsSpace(s[0]) {
      SlugNoSpace(DropSpaces(s[1..]));
    } else {
      SlugNoSpace(s[1..]);
    }
  }

  /** On whitespace-free text the slug is plain lower-casing. */
  lemma {:induction false} SlugOfWord(s: string)
    requires NoSpace(s)
    ensures Slug(s) == Lower(s)
    decreases |s|
  {
    if |s| > 0 {
      assert !IsSpace(s[0]);
      SlugOfWord(s[1..]);
    }
  }

  /** A slug is already lower-case. */
  lemma {:induction false} SlugIsLower(s: string)
    ensures Lower(Slug(s)) == Slug(s)
    decreases |s|
  {
    if |s| == 0 {
    } else if IsSpace(s[0]) {
      SlugIsLower(DropSpaces(s[1..]));
      assert Lower("-" + Slug(DropSpaces(s[1..]))) == "-" + Lower(Slug(DropSpaces(s[1..])));
    } else {
      SlugIsLower(s[1..]);
      var t := [LowerChar(s[0])] + Slug(s[1..]);
      assert Lower(t) == [LowerChar(LowerChar(s[0]))] + Lower(Slug(s[1..]));
    }
  }

  /** Deriving a slug from a slug changes nothing. */
  lemma SlugIdempotent(s: string)
    ensures Slug(Slug(s)) == Slug(s)
  {
    SlugNoSpace(s);
    SlugOfWord(Slug(s));
    SlugIsLower(s);
  }

  /** A word, one whitespace run and the rest: the run is replaced by exactly one dash. */
  lemma {:induction false} SlugRun(word: string, run: string, rest: string)
    requires NoSpace(word)
    requires |run| > 0 && forall i :: 0 <= i < |run| ==> IsSpace(run[i])
    requires |rest| > 0 ==> !IsSpace(rest[0])
    ensures Slug(word + run + rest) == Lower(word) + "-" + Slug(rest)
    decreases |word|
  {
    var s := word + run + rest;
    if |word| == 0 {
      assert s == run + rest;
      DropRun(run[1..], rest);
      assert s[1..] == run[1..] + rest;
    } else {
      assert s[0] == word[0];
      assert s[1..] == word[1..] + run + rest;
      SlugRun(word[1..], run, rest);
      assert Lower(word) == [LowerChar(word[0])] + Lower(word[1..]);
    }
  }

  lemma {:induction false} DropRun(run: string, rest: string)
    requires forall i :: 0 <= i < |run| ==> IsSpace(run[i])
    requires |rest| > 0 ==> !IsSpace(rest[0])
    ensures DropSpaces(run + rest) == rest
    decreases |run|
  {
    if |run| > 0 {
      assert (run + rest)[1..] == run[1..] + rest;
      DropRun(run[1..], rest);
    } else {
      assert run + rest == rest;
    }
  }

  /** JavaScript truthiness of an optional string. */
  predicate Truthy(s: Option<string>) {
    s.Some? && s.value != ""
  }

  /** A slug passes unchanged through the `shortName` setters (`trim`, `lowercase`). */
  lemma SlugCastStable(s: string)
    ensures TrimLower(Slug(s)) == Slug(s)
  {
    var g := Slug(s);
    SlugNoSpace(s);
    TrimOfTrimmed(g);
    SlugIsLower(s);
  }

  /**
   * The pre('validate') hook: when `name` is set and `shortName` is not, the
   * slug of the name is assigned to `shortName`, through its setters;
   * otherwise nothing changes.
   */
  function PreValidate(g: Game): (r: Game)
    ensures r.name == g.name && r.platforms == g.platforms
    ensures r.supportedModes == g.supportedModes && r.isActive == g.isActive
  {
    if g.name != "" && !Truthy(g.shortName) then g.(shortName := Some(TrimLower(Slug(g.name)))) else g
  }

  /** A supplied short name is kept; a missing one is derived and is whitespace-free. */
  lemma PreValidateShortName(g: Game)
    ensures Truthy(g.shortName) ==> PreValidate(g) == g
    ensures g.name != "" && !Truthy(g.shortName) ==>
      PreValidate(g).shortName == Some(Slug(g.name)) && NoSpace(Slug(g.name))
    ensures PreValidate(PreValidate(g)) == PreValidate(g)
  {
    SlugNoSpace(g.name);
    SlugCastStable(g.name);
  }

  /**
   * `new Game({...})`: `name` is trimmed, a supplied `shortName` is trimmed
   * and lower-cased, and `isActive` defaults to true.
   */
  function NewGame(name: string, shortName: Option<string>, platforms: seq<Platform>,
                   modes: seq<Mode>): (g: Game)
    ensures g.isActive
    ensures g.name == Trim(name) && g.platforms == platforms && g.supportedModes == modes
    ensures g.shortName.Some? <==> shortName.Some?
    ensures g.shortName.Some? ==> g.shortName.value == TrimLower(shortName.value)
  {
    Game(Trim(name), if shortName.Some? then Some(TrimLower(shortName.value)) else None, platforms, modes, true)
  }

  /**
   * A stored game's names are already in their setters' form, and a game
   * created without a short name gets the slug of its trimmed name.
   */
  lemma NewGameNames(name: string, shortName: Option<string>, platforms: seq<Platform>, modes: seq<Mode>)
    ensures var g := NewGame(name, shortName, platforms, modes);
            && Trim(g.name) == g.name
            && (g.shortName.Some? ==> TrimLower(g.shortName.value) == g.shortName.value)
    ensures shortName.None? && !Blank(name) ==>
              PreValidate(NewGame(name, shortName, platforms, modes)).shortName == Some(Slug(Trim(name)))
  {
    TrimIdempotent(name);
    if shortName.Some? {
      TrimLowerStable(shortName.value);
    }
    SlugCastStable(Trim(name));
  }
}

=== FILE: guards.dfy ===
/**
 * The three route guards: src/api/v1/middlewares/rbac.guard.js,
 * auth.guard.js and team.guard.js. A guard either lets the request through,
 * possibly with the authenticated user attached, or answers with an error.
 * Token verification is a parameter: the user id a valid token carries.
 */
module Guards {
  import opened Wrappers
  import opened Ids
  import opened Errors
  import opened UserModel
  import TeamModel
  import opened Storage
  import AuthService

  // ---------------------------------------------------------------------
  // rbacGuard
  // ---------------------------------------------------------------------

  /** `rbacGuard(...allowedRoles)` for the role of the attached user, if any. */
  function RbacGuard(role: Option<Role>, allowed: seq<Role>): (r: Result<(), ApiError>)
    ensures role.None? ==> r == Err(Fail(403, NoRole))
    ensures role.Some? && role.value !in allowed ==> r == Err(Fail(403, RoleNotAllowed))
    ensures r.Ok? <==> role.Some? && role.value in allowed
  {
    if role.None? then Err(Fail(403, NoRole))
    else if role.value !in allowed then Err(Fail(403, RoleNotAllowed))
    else Ok(())
  }

  /** An empty list of roles admits nobody. */
  lemma EmptyRoleListRejectsAll(role: Option<Role>)
    ensures RbacGuard(role, []).Err?
  {
  }

  /** Allowing more roles never turns away a request that was let through. */
  lemma RbacMonotone(role: Option<Role>, allowed: seq<Role>, wider: seq<Role>)
    requires forall i :: 0 <= i < |allowed| ==> allowed[i] in wider
    ensures RbacGuard(role, allowed).Ok? ==> RbacGuard(role, wider).Ok?
  {
  }

  // ---------------------------------------------------------------------
  // authGuard
  // ---------------------------------------------------------------------

  /** The text of `s` before its first space: `split(' ')[0]`. */
  function FirstField(s: string): (r: string)
    ensures ' ' !in r
    ensures |r| <= |s| && r == s[..|r|]
    ensures |r| < |s| ==> s[|r|] == ' '
  {
    if |s| == 0 || s[0] == ' ' then ""
    else
      var t := FirstField(s[1..]);
      assert s[..|t| + 1] == [s[0]] + s[1..][..|t|];
      [s[0]] + t
  }

  const BearerPrefix: string := "Bearer "

  /** `authHeader.startsWith('Bearer ') ? authHeader.split(' ')[1] : undefined`, with '' counted as missing. */
  function BearerToken(header: Option<string>): (r: Option<string>)
    ensures r.Some? ==> && header.Some? && |header.value| > |BearerPrefix|
                        && header.value[..|BearerPrefix|] == BearerPrefix
                        && r.value != "" && ' ' !in r.value
                        && |r.value| <= |header.value| - |BearerPrefix|
                        && header.value[|BearerPrefix|..][..|r.value|] == r.value
    ensures header.None? || |header.value| < |BearerPrefix| || header.value[..|BearerPrefix|] != BearerPrefix ==> r.None?
  {
    if header.None? || |header.value| < |BearerPrefix| || header.value[..|BearerPrefix|] != BearerPrefix then None
    else
      var t := FirstField(header.value[|BearerPrefix|..]);
      if t == "" then None else Some(t)
  }

  /** A header built from a token gives that token back. */
  lemma BearerRoundTrip(token: string)
    requires token != "" && ' ' !in token
    ensures BearerToken(Some(BearerPrefix + token)) == Some(token)
  {
    var h := BearerPrefix + token;
    assert h[..|BearerPrefix|] == BearerPrefix;
    assert h[|BearerPrefix|..] == token;
    FirstFieldWhole(token);
  }

  lemma {:induction false} FirstFieldWhole(s: string)
    requires ' ' !in s
    ensures FirstField(s) == s
  {
    if |s| > 0 {
      assert ' ' !in s[1..] by {
        forall i | 0 <= i < |s[1..]| ensures s[1..][i] != ' ' {
          assert s[1..][i] == s[i + 1];
        }
      }
      FirstFieldWhole(s[1..]);
      assert s == [s[0]] + s[1..];
    }
  }

  /** The token stops at the next space: anything after it is ignored. */
  lemma BearerIgnoresTrailer(token: string, trailer: string)
    requires token != "" && ' ' !in token
    ensures BearerToken(Some(BearerPrefix + token + " " + trailer)) == Some(token)
  {
    var h := BearerPrefix + token + " " + trailer;
    assert h[..|BearerPrefix|] == BearerPrefix;
    assert h[|BearerPrefix|..] == token + (" " + trailer);
    FirstFieldStops(token, " " + trailer);
    assert FirstField(h[|BearerPrefix|..]) == token;
  }

  lemma {:induction false} FirstFieldStops(s: string, rest: string)
    requires ' ' !in s && |rest| > 0 && rest[0] == ' '
    ensures FirstField(s + rest) == s
  {
    if |s| > 0 {
      assert ' ' !in s[1..] by {
        forall i | 0 <= i < |s[1..]| ensures s[1..][i] != ' ' {
          assert s[1..][i] == s[i + 1];
        }
      }
      FirstFieldStops(s[1..], rest);
      assert (s + rest)[1..] == s[1..] + rest;
      assert s == [s[0]] + s[1..];
    } else {
      assert s + rest == rest;
    }
  }

  /**
   * `authGuard`: `verify` is what `jwt.verify` yields for a token, the user
   * id it carries or `None` when it throws. On success the looked-up user is
   * attached to the request.
   */
  function AuthGuard(header: Option<string>, verify: string -> Option<Id>, users: map<Id, User>): (r: Result<User, ApiError>)
    ensures BearerToken(header).None? ==> r == Err(Fail(401, NotAuthenticated))
    ensures BearerToken(header).Some? && verify(BearerToken(header).value).None? ==> r == Err(Fail(401, InvalidToken))
    ensures r.Ok? <==> && BearerToken(header).Some?
                       && verify(BearerToken(header).value).Some?
                       && verify(BearerToken(header).value).value in users
                       && users[verify(BearerToken(header).value).value].status == Active
    ensures r.Ok? ==> r.value == users[verify(BearerToken(header).value).value]
    ensures (r.Err? && BearerToken(header).Some? && verify(BearerToken(header).value).Some?
             && verify(BearerToken(header).value).value in users) ==> r == Err(Fail(403, AccountBlocked))
  {
    match BearerToken(header)
    case None => Err(Fail(401, NotAuthenticated))
    case Some(token) =>
      match verify(token)
      case None => Err(Fail(401, InvalidToken))
      case Some(id) =>
        if id !in users then Err(Fail(401, TokenUserGone))
        else if users[id].status != Active then Err(Fail(403, AccountBlocked))
        else Ok(users[id])
  }

  /** Banned and unverified accounts are turned away even with a valid token. */
  lemma InactiveUserBlocked(token: string, verify: string -> Option<Id>, users: map<Id, User>)
    requires token != "" && ' ' !in token
    requires verify(token).Some? && verify(token).value in users && users[verify(token).value].status != Active
    ensures AuthGuard(Some(BearerPrefix + token), verify, users) == Err(Fail(403, AccountBlocked))
  {
    BearerRoundTrip(token);
  }

  /**
   * Logging out only drops refresh tokens: a request carrying an access token
   * issued before the logout is let through exactly as before.
   */
  lemma AccessSurvivesLogoutAll(s: Store, uid: Id, header: Option<string>, verify: string -> Option<Id>)
    ensures var t := AuthService.LogoutAll(s, uid).store;
            AuthGuard(header, verify, t.users).Ok? == AuthGuard(header, verify, s.users).Ok?
  {
  }

  // ---------------------------------------------------------------------
  // isCaptainGuard
  // ---------------------------------------------------------------------

  /** `isCaptainGuard`; it only reads the team. */
  function CaptainGuard(teams: map<Id, TeamModel.Team>, teamId: Id, userId: Id): (r: Result<(), ApiError>)
    ensures teamId !in teams ==> r == Err(Fail(404, TeamNotFound))
    ensures teamId in teams && teams[teamId].captain != userId ==> r == Err(Fail(403, NotCaptain))
    ensures r.Ok? <==> teamId in teams && teams[teamId].captain == userId
  {
    if teamId !in teams then Err(Fail(404, TeamNotFound))
    else if teams[teamId].captain != userId then Err(Fail(403, NotCaptain))
    else Ok(())
  }

  /** At most one user passes for a team, and that user is one of its members when the team is valid. */
  lemma CaptainGuardUnique(teams: map<Id, TeamModel.Team>, teamId: Id, a: Id, b: Id)
    requires CaptainGuard(teams, teamId, a).Ok? && CaptainGuard(teams, teamId, b).Ok?
    ensures a == b
    ensures TeamModel.CaptainIsMember(teams[teamId]) ==> a in teams[teamId].members
  {
  }
}

=== FILE: ids.dfy ===
/** Identifiers, timestamps and the polymorphic participant reference shared by all documents. */
module Ids {

  /** A MongoDB ObjectId. Ids are only ever compared for equality. */
  type Id = nat

  /** A Date, as milliseconds since the epoch. */
  type Time = int

  const MinuteMs: int := 60 * 1000
  const DayMs: int := 24 * 60 * MinuteMs

  /** The `participantModel` discriminator: 'User' or 'Team' and nothing else. */
  datatype ParticipantModel = UserParticipant | TeamParticipant

  /** A tagged participant reference `{participantModel, participantId}`. */
  datatype ParticipantRef = ParticipantRef(model: ParticipantModel, id: Id)

  /** The participant ids of a list of references, in order. */
  function IdsOf(ps: seq<ParticipantRef>): (ids: seq<Id>)
    ensures |ids| == |ps|
    ensures forall i :: 0 <= i < |ps| ==> ids[i] == ps[i].id
  {
    if |ps| == 0 then [] else [ps[0].id] + IdsOf(ps[1..])
  }

  /** Whether `id` is the id of one of `ps` (`participants.some(p => p.participantId == id)`). */
  predicate HasParticipant(ps: seq<ParticipantRef>, id: Id) {
    exists i :: 0 <= i < |ps| && ps[i].id == id
  }

  lemma HasParticipantIffInIds(ps: seq<ParticipantRef>, id: Id)
    ensures HasParticipant(ps, id) <==> id in IdsOf(ps)
  {
    var ids := IdsOf(ps);
    if id in ids {
      var i :| 0 <= i < |ids| && ids[i] == id;
      assert ps[i].id == id;
    }
  }
}

=== FILE: match_model.dfy ===
/**
 * Match documents (src/models/tournament/Match.model.js): the status enum, the
 * score and result sub-documents, and the pre('save') rule that a completed
 * match must carry an outcome.
 */
module MatchModel {
  import opened Wrappers
  import opened Ids
  import opened Errors

  datatype MatchStatus = Pending | Ready | Active | Completed | Disputed | Forfeited

  /** A head-to-head score line; the schema requires `score >= 0`. */
  datatype ScoreEntry = ScoreEntry(participant: ParticipantRef, score: int)

  /** A battle-royale result line. */
  datatype ResultEntry = ResultEntry(participant: ParticipantRef, rank: int, kills: int)

  datatype Match = Match(
    tournament: Id,
    bracket: Id,
    round: int,
    status: MatchStatus,
    participants: seq<ParticipantRef>,
    scores: seq<ScoreEntry>,
    results: seq<ResultEntry>,
    winner: Option<ParticipantRef>,
    reportedBy: Option<Id>,
    scheduledTime: Option<Time>)

  /**
   * A score line as it arrives in a report payload. The discriminator is
   * optional because nothing upstream requires it, although the schema does.
   */
  datatype ScoreLine = ScoreLine(participantId: Id, participantModel: Option<ParticipantModel>, score: int)

  /** A result line as it arrives in a report payload. */
  datatype ResultLine = ResultLine(
    participantId: Id, participantModel: Option<ParticipantModel>, rank: Option<int>, kills: Option<int>)

  /** The `{ scores, results }` body of a result report; either may be absent. */
  datatype ResultPayload = ResultPayload(scores: Option<seq<ScoreLine>>, results: Option<seq<ResultLine>>)

  /** The string a status is stored as. */
  function StatusName(s: MatchStatus): string {
    match s
    case Pending => "pending"
    case Ready => "ready"
    case Active => "active"
    case Completed => "completed"
    case Disputed => "disputed"
    case Forfeited => "forfeited"
  }

  /**
   * Mongoose's cast of a raw value assigned to `status`: one of the six enum
   * strings, or the default `pending` when no value is given. Anything else
   * (for instance "cancelled") fails validation.
   */
  function CastStatus(raw: Option<string>): (r: Option<MatchStatus>)
    ensures raw.None? ==> r == Some(Pending)
    ensures raw.Some? && r.Some? ==> StatusName(r.value) == raw.value
  {
    match raw
    case None => Some(Pending)
    case Some(v) =>
      if v == "pending" then Some(Pending)
      else if v == "ready" then Some(Ready)
      else if v == "active" then Some(Active)
      else if v == "completed" then Some(Completed)
      else if v == "disputed" then Some(Disputed)
      else if v == "forfeited" then Some(Forfeited)
      else None
  }

  /** Every status survives a store-and-load round trip through its name. */
  lemma CastStatusName(s: MatchStatus)
    ensures CastStatus(Some(StatusName(s))) == Some(s)
  {
  }

  /** The value written by the dispute service's cancel branch is outside the enum. */
  lemma CancelledIsNotAStatus()
    ensures CastStatus(Some("cancelled")) == None
  {
  }

  /** A winner, a score line or a result line. */
  predicate HasOutcome(m: Match) {
    m.winner.Some? || |m.scores| > 0 || |m.results| > 0
  }

  /** The standing invariant the pre('save') hook is meant to keep. */
  predicate CompletedHasOutcome(m: Match) {
    m.status == Completed ==> HasOutcome(m)
  }

  predicate ScoresNonNegative(m: Match) {
    forall i :: 0 <= i < |m.scores| ==> m.scores[i].score >= 0
  }

  /** The pre('save') hook: it only looks when `status` was changed to `completed`. */
  predicate CompletionHookPasses(loaded: MatchStatus, m: Match) {
    !(m.status != loaded && m.status == Completed) || HasOutcome(m)
  }

  /**
   * `match.save()` of a document loaded with status `loaded`: schema validation
   * (score minimum) and then the completion hook. A rejection is not an ApiError,
   * so callers surface it as 500.
   */
  function Save(loaded: MatchStatus, m: Match): (r: Result<Match, ApiError>)
    ensures r.Ok? ==> r.value == m
    ensures r.Err? ==> r.error.status == 500
  {
    if !ScoresNonNegative(m) then Err(Crash(SaveRejected))
    else if !CompletionHookPasses(loaded, m) then Err(Crash(SaveRejected))
    else Ok(m)
  }

  /** Saving a newly completed match succeeds exactly when one of winner, scores or results is there. */
  lemma SaveCompletedNeedsOutcome(loaded: MatchStatus, m: Match)
    requires ScoresNonNegative(m)
    requires m.status == Completed && loaded != Completed
    ensures Save(loaded, m).Ok? <==> (m.winner.Some? || |m.scores| > 0 || |m.results| > 0)
  {
  }

  /** The hook does not look at documents whose status is unchanged or not `completed`. */
  lemma SaveSkipsHook(loaded: MatchStatus, m: Match)
    requires ScoresNonNegative(m)
    requires m.status == loaded || m.status != Completed
    ensures Save(loaded, m) == Ok(m)
  {
  }

  /**
   * A save keeps "completed implies outcome" provided the update did not drop an
   * outcome the document already had.
   */
  lemma SaveKeepsCompletionInvariant(before: Match, after: Match)
    requires CompletedHasOutcome(before)
    requires HasOutcome(before) ==> HasOutcome(after)
    requires Save(before.status, after).Ok?
    ensures CompletedHasOutcome(after)
  {
  }
}

=== FILE: match_service.dfy ===
/**
 * src/services/match.service.js: listing matches with pagination, and a
 * participant's result report, which parks the match in `disputed` until an
 * administrator confirms it.
 */
module MatchService {
  import opened Wrappers
  import opened Ids
  import opened Errors
  import opened MatchModel
  import opened Ordering
  import opened Pagination
  import opened Storage

  // ---------------------------------------------------------------------
  // Participant comparison: `_.isEqual(_.sortBy(a), _.sortBy(b))`
  // ---------------------------------------------------------------------

  function IdKey(x: Id): int {
    x
  }

  /** The comparison the service makes: sort both id lists and compare them element-wise. */
  function SameParticipants(a: seq<Id>, b: seq<Id>): bool {
    SortBy(a, IdKey) == SortBy(b, IdKey)
  }

  predicate Ascending(s: seq<Id>) {
    forall i, j :: 0 <= i < j < |s| ==> s[i] <= s[j]
  }

  lemma AscendingBySort(s: seq<Id>)
    ensures Ascending(SortBy(s, IdKey))
  {
    var r := SortBy(s, IdKey);
    forall i, j | 0 <= i < j < |r| ensures r[i] <= r[j] {
      assert IdKey(r[i]) <= IdKey(r[j]);
    }
  }

  /** The head of an ascending list is its least element. */
  lemma HeadIsLeast(a: seq<Id>, x: Id)
    requires Ascending(a) && x in multiset(a)
    ensures a[0] <= x
  {
    assert x in a;
  }

  lemma TailFacts(a: seq<Id>)
    requires Ascending(a) && |a| > 0
    ensures Ascending(a[1..])
    ensures multiset(a[1..]) == multiset(a) - multiset{a[0]}
    ensures a[0] in multiset(a)
  {
    assert a == [a[0]] + a[1..];
  }

  /** Two ascending id lists with the same elements are the same list. */
  lemma {:induction false} SortedUnique(a: seq<Id>, b: seq<Id>)
    requires Ascending(a) && Ascending(b)
    requires multiset(a) == multiset(b)
    ensures a == b
  {
    assert |a| == |b| by {
      assert |multiset(a)| == |a|;
      assert |multiset(b)| == |b|;
    }
    if |a| > 0 {
      TailFacts(a);
      TailFacts(b);
      HeadIsLeast(b, a[0]);
      HeadIsLeast(a, b[0]);
      assert a[0] == b[0];
      SortedUnique(a[1..], b[1..]);
      assert a == [a[0]] + a[1..];
      assert b == [b[0]] + b[1..];
    }
  }

  /** Sorting and comparing is exactly multiset equality of the two id lists. */
  lemma SameParticipantsIff(a: seq<Id>, b: seq<Id>)
    ensures SameParticipants(a, b) <==> multiset(a) == multiset(b)
  {
    if multiset(a) == multiset(b) {
      AscendingBySort(a);
      AscendingBySort(b);
      SortedUnique(SortBy(a, IdKey), SortBy(b, IdKey));
    }
  }

  // ---------------------------------------------------------------------
  // Casting the payload onto the schema
  // ---------------------------------------------------------------------

  function ScoreIds(lines: seq<ScoreLine>): (ids: seq<Id>)
    ensures |ids| == |lines| && forall i :: 0 <= i < |lines| ==> ids[i] == lines[i].participantId
  {
    if |lines| == 0 then [] else [lines[0].participantId] + ScoreIds(lines[1..])
  }

  function ResultIds(lines: seq<ResultLine>): (ids: seq<Id>)
    ensures |ids| == |lines| && forall i :: 0 <= i < |lines| ==> ids[i] == lines[i].participantId
  {
    if |lines| == 0 then [] else [lines[0].participantId] + ResultIds(lines[1..])
  }

  /** Assigning score lines to `match.scores`: every line needs its `participantModel`. */
  function CastScores(lines: seq<ScoreLine>): (r: Option<seq<ScoreEntry>>)
    ensures r.Some? <==> forall i :: 0 <= i < |lines| ==> lines[i].participantModel.Some?
    ensures r.Some? ==> |r.value| == |lines|
    ensures r.Some? ==> forall i :: 0 <= i < |lines| ==>
      r.value[i] == ScoreEntry(ParticipantRef(lines[i].participantModel.value, lines[i].participantId), lines[i].score)
  {
    if |lines| == 0 then Some([])
    else
      match (lines[0].participantModel, CastScores(lines[1..]))
      case (Some(k), Some(rest)) =>
        Some([ScoreEntry(ParticipantRef(k, lines[0].participantId), lines[0].score)] + rest)
      case (Some(_), None) =>
        var i :| 0 <= i < |lines[1..]| && lines[1..][i].participantModel.None?;
        assert lines[i + 1].participantModel.None?;
        None
      case _ => None
  }

  /** Assigning result lines to `match.results`: the model and rank are required, kills default to 0. */
  function CastResults(lines: seq<ResultLine>): (r: Option<seq<ResultEntry>>)
    ensures r.Some? <==> forall i :: 0 <= i < |lines| ==>
      lines[i].participantModel.Some? && lines[i].rank.Some?
    ensures r.Some? ==> |r.value| == |lines|
    ensures r.Some? ==> forall i :: 0 <= i < |lines| ==>
      r.value[i] == ResultEntry(ParticipantRef(lines[i].participantModel.value, lines[i].participantId),
                                lines[i].rank.value, lines[i].kills.GetOr(0))
  {
    if |lines| == 0 then Some([])
    else
      var l := lines[0];
      match CastResults(lines[1..])
      case Some(rest) =>
        if l.participantModel.Some? && l.rank.Some? then
          Some([ResultEntry(ParticipantRef(l.participantModel.value, l.participantId), l.rank.value, l.kills.GetOr(0))] + rest)
        else None
      case None =>
        var i :| 0 <= i < |lines[1..]| && !(lines[1..][i].participantModel.Some? && lines[1..][i].rank.Some?);
        assert lines[i + 1] == lines[1..][i];
        None
  }

  // ---------------------------------------------------------------------
  // reportResult
  // ---------------------------------------------------------------------

  /** The reported participant ids: `(scores || results).map(r => r.participantId)`. */
  function ReportedIds(p: ResultPayload): seq<Id>
    requires p.scores.Some? || p.results.Some?
  {
    if p.scores.Some? then ScoreIds(p.scores.value) else ResultIds(p.results.value)
  }

  /** The checks before anything is written, in the service's order. */
  function ReportFailure(m: Match, reporter: Id, p: ResultPayload): Option<ApiError> {
    if !HasParticipant(m.participants, reporter) then Some(Fail(403, NotParticipant))
    else if m.status != Active then Some(Fail(400, MatchNotActive))
    else if m.reportedBy.Some? then Some(Fail(400, AlreadyReported))
    // `.map` of undefined throws a TypeError
    else if p.scores.None? && p.results.None? then Some(Crash(Internal))
    else if !SameParticipants(IdsOf(m.participants), ReportedIds(p)) then Some(Fail(400, ParticipantsMismatch))
    // destructuring fewer than two score lines leaves `p2Score` undefined
    else if p.scores.Some? && |p.scores.value| < 2 then Some(Crash(Internal))
    else if p.scores.Some? && p.scores.value[0].score == p.scores.value[1].score then Some(Fail(400, TieNotAllowed))
    else None
  }

  /** The match document after the report is applied in memory (before it is saved). */
  function Reported(m: Match, reporter: Id, p: ResultPayload): (r: Option<Match>)
    requires p.scores.Some? || p.results.Some?
    ensures r.Some? ==> r.value.status == Disputed && r.value.reportedBy == Some(reporter)
    ensures r.Some? ==> r.value.participants == m.participants && r.value.winner == m.winner
    ensures r.Some? && p.scores.Some? ==>
      CastScores(p.scores.value) == Some(r.value.scores) && r.value.results == m.results
    ensures r.Some? && p.scores.None? ==>
      CastResults(p.results.value) == Some(r.value.results) && r.value.scores == m.scores
  {
    if p.scores.Some? then
      match CastScores(p.scores.value)
      case None => None
      case Some(sc) => Some(m.(scores := sc, reportedBy := Some(reporter), status := Disputed))
    else
      match CastResults(p.results.value)
      case None => None
      case Some(rs) => Some(m.(results := rs, reportedBy := Some(reporter), status := Disputed))
  }

  /** What passing every check tells about the match and the payload. */
  lemma AcceptedReport(m: Match, reporter: Id, p: ResultPayload)
    requires ReportFailure(m, reporter, p).None?
    ensures HasParticipant(m.participants, reporter) && m.status == Active && m.reportedBy.None?
    ensures p.scores.Some? || p.results.Some?
    ensures multiset(IdsOf(m.participants)) == multiset(ReportedIds(p))
  {
    SameParticipantsIff(IdsOf(m.participants), ReportedIds(p));
  }

  function ReportResult(s: Store, matchId: Id, reporter: Id, p: ResultPayload): (r: Reply<()>)
    ensures r.result.Err? ==> r.store == s
    ensures r.result.Ok? ==>
      && matchId in s.matches
      && var m := s.matches[matchId];
      && HasParticipant(m.participants, reporter)
      && m.status == Active && m.reportedBy.None?
      && (p.scores.Some? || p.results.Some?)
      && multiset(IdsOf(m.participants)) == multiset(ReportedIds(p))
      && matchId in r.store.matches
      && r.store == s.(matches := s.matches[matchId := r.store.matches[matchId]])
      && var m' := r.store.matches[matchId];
      && m'.status == Disputed && m'.reportedBy == Some(reporter)
      && m'.participants == m.participants && m'.winner == m.winner
      && (p.scores.Some? ==> CastScores(p.scores.value) == Some(m'.scores) && m'.results == m.results)
      && (p.scores.None? ==> CastResults(p.results.value) == Some(m'.results) && m'.scores == m.scores)
  {
    if matchId !in s.matches then Reply(s, Err(Fail(404, MatchNotFound)))
    else
      var m := s.matches[matchId];
      match ReportFailure(m, reporter, p)
      case Some(e) => Reply(s, Err(e))
      case None =>
        AcceptedReport(m, reporter, p);
        match Reported(m, reporter, p)
        case None => Reply(s, Err(Crash(SaveRejected)))
        case Some(m') =>
          match Save(m.status, m')
          case Err(e) => Reply(s, Err(e))
          case Ok(saved) => Reply(s.(matches := s.matches[matchId := saved]), Ok(()))
  }

  /** Only participants may report; anyone else gets 403. */
  lemma NonParticipantRejected(s: Store, matchId: Id, reporter: Id, p: ResultPayload)
    requires matchId in s.matches && !HasParticipant(s.matches[matchId].participants, reporter)
    ensures ReportResult(s, matchId, reporter, p) == Reply(s, Err(Fail(403, NotParticipant)))
  {
  }

  /** A report succeeds only against an active match that nobody has reported yet; a second report leaves the first in place. */
  lemma OnlyFirstReportOnActiveMatch(s: Store, matchId: Id, reporter: Id, p: ResultPayload)
    requires matchId in s.matches
    requires HasParticipant(s.matches[matchId].participants, reporter)
    ensures s.matches[matchId].status != Active ==>
      ReportResult(s, matchId, reporter, p).result == Err(Fail(400, MatchNotActive))
    ensures s.matches[matchId].status == Active && s.matches[matchId].reportedBy.Some? ==>
      ReportResult(s, matchId, reporter, p) == Reply(s, Err(Fail(400, AlreadyReported)))
  {
  }

  /** The reported participants must be the match's participants, counted with multiplicity. */
  lemma MismatchRejected(s: Store, matchId: Id, reporter: Id, p: ResultPayload)
    requires matchId in s.matches
    requires var m := s.matches[matchId];
      HasParticipant(m.participants, reporter) && m.status == Active && m.reportedBy.None?
    requires p.scores.Some? || p.results.Some?
    requires multiset(IdsOf(s.matches[matchId].participants)) != multiset(ReportedIds(p))
    ensures ReportResult(s, matchId, reporter, p).result == Err(Fail(400, ParticipantsMismatch))
  {
    var m := s.matches[matchId];
    SameParticipantsIff(IdsOf(m.participants), ReportedIds(p));
    assert !SameParticipants(IdsOf(m.participants), ReportedIds(p));
    assert ReportFailure(m, reporter, p) == Some(Fail(400, ParticipantsMismatch));
  }

  /** Two equal leading scores are refused as a tie. */
  lemma TieRejected(s: Store, matchId: Id, reporter: Id, p: ResultPayload)
    requires matchId in s.matches
    requires var m := s.matches[matchId];
      HasParticipant(m.participants, reporter) && m.status == Active && m.reportedBy.None?
    requires p.scores.Some? && |p.scores.value| >= 2
    requires p.scores.value[0].score == p.scores.value[1].score
    requires multiset(IdsOf(s.matches[matchId].participants)) == multiset(ReportedIds(p))
    ensures ReportResult(s, matchId, reporter, p).result == Err(Fail(400, TieNotAllowed))
  {
    SameParticipantsIff(IdsOf(s.matches[matchId].participants), ReportedIds(p));
  }

  /** Reporting never leaves a completed match without an outcome. */
  lemma ReportKeepsCompletionInvariant(s: Store, matchId: Id, reporter: Id, p: ResultPayload)
    requires forall id :: id in s.matches ==> CompletedHasOutcome(s.matches[id])
    ensures var r := ReportResult(s, matchId, reporter, p);
      forall id :: id in r.store.matches ==> CompletedHasOutcome(r.store.matches[id])
  {
  }

  // ---------------------------------------------------------------------
  // queryMatches
  // ---------------------------------------------------------------------

  datatype MatchFilter = MatchFilter(tournament: Option<Id>, user: Option<Id>)

  predicate Selected(f: MatchFilter, m: Match) {
    && (f.tournament.Some? ==> m.tournament == f.tournament.value)
    && (f.user.Some? ==> HasParticipant(m.participants, f.user.value))
  }

  function TimeKey(m: Match): int {
    m.scheduledTime.GetOr(0)
  }

  predicate Unscheduled(m: Match) {
    m.scheduledTime.None?
  }

  predicate Scheduled(m: Match) {
    m.scheduledTime.Some?
  }

  /** `.sort({ scheduledTime: 1 })`: matches without a time sort first, then by time. */
  function BySchedule(ms: seq<Match>): seq<Match> {
    Filter(ms, Unscheduled) + SortBy(Filter(ms, Scheduled), TimeKey)
  }

  /** The ascending schedule order: unscheduled first, then non-decreasing times. */
  lemma BySchedulePlaced(ms: seq<Match>)
    ensures SchedulePlaced(BySchedule(ms))
  {
    var a := Filter(ms, Unscheduled);
    var b := SortBy(Filter(ms, Scheduled), TimeKey);
    SortByKeepsProperty(Filter(ms, Scheduled), TimeKey, Scheduled);
    forall i, j | 0 <= i < j < |b|
      ensures b[i].scheduledTime.value <= b[j].scheduledTime.value
    {
      assert TimeKey(b[i]) <= TimeKey(b[j]);
    }
    AppendPlaced(a, b);
  }

  /** Unscheduled first, then scheduled in non-decreasing time. */
  predicate SchedulePlaced(r: seq<Match>) {
    forall i, j :: 0 <= i < j < |r| ==>
      (r[j].scheduledTime.None? ==> r[i].scheduledTime.None?)
      && (r[i].scheduledTime.Some? && r[j].scheduledTime.Some? ==>
            r[i].scheduledTime.value <= r[j].scheduledTime.value)
  }

  lemma AppendPlaced(a: seq<Match>, b: seq<Match>)
    requires forall k :: 0 <= k < |a| ==> a[k].scheduledTime.None?
    requires forall k :: 0 <= k < |b| ==> b[k].scheduledTime.Some?
    requires forall i, j :: 0 <= i < j < |b| ==> b[i].scheduledTime.value <= b[j].scheduledTime.value
    ensures SchedulePlaced(a + b)
  {
    var r := a + b;
    forall i, j | 0 <= i < j < |r|
      ensures r[j].scheduledTime.None? ==> r[i].scheduledTime.None?
      ensures r[i].scheduledTime.Some? && r[j].scheduledTime.Some? ==>
              r[i].scheduledTime.value <= r[j].scheduledTime.value
    {
      if i >= |a| {
        assert r[i] == b[i - |a|] && r[j] == b[j - |a|];
      } else if j >= |a| {
        assert r[i] == a[i] && r[j] == b[j - |a|];
      } else {
        assert r[i] == a[i] && r[j] == a[j];
      }
    }
  }

  function SelectedBy(f: MatchFilter): Match -> bool {
    m => Selected(f, m)
  }

  /** `queryMatches(filter, options)` over the match collection in scan order. */
  function QueryMatches(docs: seq<Match>, f: MatchFilter, o: PageOptions): (p: Page<Match>)
    requires Valid(o)
    ensures |p.results| <= o.limit
    ensures forall i :: 0 <= i < |p.results| ==> Selected(f, p.results[i])
    ensures p.totalResults == |Filter(docs, SelectedBy(f))| <= |docs|
    ensures p.totalPages * o.limit >= p.totalResults && p.totalPages * o.limit < p.totalResults + o.limit
  {
    var hits := Filter(docs, SelectedBy(f));
    var ordered := BySchedule(hits);
    ByScheduleSelected(hits, f);
    FilterSplit(hits);
    Paginate(ordered, o)
  }

  /** Ordering the hits keeps only selected matches, and all of them. */
  lemma ByScheduleSelected(hits: seq<Match>, f: MatchFilter)
    requires forall i :: 0 <= i < |hits| ==> Selected(f, hits[i])
    ensures forall k :: 0 <= k < |BySchedule(hits)| ==> Selected(f, BySchedule(hits)[k])
  {
    var a := Filter(hits, Unscheduled);
    var sch := Filter(hits, Scheduled);
    forall k | 0 <= k < |a| ensures Selected(f, a[k]) {
      assert a[k] in multiset(a);
      assert a[k] in multiset(hits);
      assert a[k] in hits;
    }
    forall k | 0 <= k < |sch| ensures Selected(f, sch[k]) {
      assert sch[k] in multiset(sch);
      assert sch[k] in multiset(hits);
      assert sch[k] in hits;
    }
    SortByKeepsProperty(sch, TimeKey, SelectedBy(f));
  }

  /** Splitting on "has a scheduled time" loses nothing. */
  lemma {:induction false} FilterSplit(ms: seq<Match>)
    ensures |Filter(ms, Unscheduled)| + |Filter(ms, Scheduled)| == |ms|
  {
    if |ms| > 0 {
      FilterSplit(ms[1..]);
    }
  }
}

=== FILE: match_validator.dfy ===
/**
 * src/validators/match.validator.js and its duplicate src/validators/mach.validator.js:
 * the rules for listing matches and for the body of a result report. Both
 * files state the same report rules, so they are modelled once. Participant
 * ids arrive already parsed; a malformed id is outside the model.
 */
module MatchValidator {
  import opened Wrappers
  import opened Ids
  import opened Errors
  import opened MatchModel
  import opened Pagination
  import MatchService
  import TournamentValidator

  /** `scores` is an array of exactly two lines for two different participants, each score a non-negative integer. */
  predicate ScoresAdmitted(lines: seq<ScoreLine>) {
    && |lines| == 2
    && lines[0].participantId != lines[1].participantId
    && forall i :: 0 <= i < |lines| ==> lines[i].score >= 0
  }

  /** `results` is a non-empty array; every line has a rank of at least 1 and a kill count of at least 0. */
  predicate ResultsAdmitted(lines: seq<ResultLine>) {
    && |lines| >= 1
    && forall i :: 0 <= i < |lines| ==>
         lines[i].rank.Some? && lines[i].rank.value >= 1 && lines[i].kills.Some? && lines[i].kills.value >= 0
  }

  /** `validate(matchValidators.reportResult)`. */
  function ValidateReport(p: ResultPayload): (r: Result<(), ApiError>)
    ensures r.Err? ==> r.error == Fail(400, InvalidInput)
    ensures p.scores.Some? && p.results.Some? ==> r.Err?
    ensures p.scores.None? && p.results.None? ==> r.Err?
    ensures r.Ok? && p.scores.Some? ==>
              |p.scores.value| == 2 && p.scores.value[0].participantId != p.scores.value[1].participantId
              && p.scores.value[0].score >= 0 && p.scores.value[1].score >= 0
    ensures r.Ok? && p.results.Some? ==>
              |p.results.value| >= 1
              && forall i :: 0 <= i < |p.results.value| ==> p.results.value[i].rank.Some? && p.results.value[i].rank.value >= 1
  {
    if p.scores.Some? == p.results.Some? then Err(Fail(400, InvalidInput))
    else if p.scores.Some? && !ScoresAdmitted(p.scores.value) then Err(Fail(400, InvalidInput))
    else if p.results.Some? && !ResultsAdmitted(p.results.value) then Err(Fail(400, InvalidInput))
    else Ok(())
  }

  /** Exactly one of the two formats is present in an admitted body. */
  lemma ExactlyOneFormat(p: ResultPayload)
    ensures ValidateReport(p).Ok? ==> (p.scores.Some? <==> p.results.None?)
  {
  }

  /**
   * An admitted body never reaches the service's TypeError paths: there is
   * always something to map, and a scores array always has a second line.
   */
  lemma AdmittedReportNeverCrashes(m: Match, reporter: Id, p: ResultPayload)
    requires ValidateReport(p).Ok?
    ensures MatchService.ReportFailure(m, reporter, p) != Some(Crash(Internal))
  {
  }

  /** Scores of an admitted body that reach the match document are non-negative, as the schema demands. */
  lemma AdmittedScoresNonNegative(p: ResultPayload)
    requires ValidateReport(p).Ok? && p.scores.Some?
    requires MatchService.CastScores(p.scores.value).Some?
    ensures var sc := MatchService.CastScores(p.scores.value).value;
            |sc| == 2 && sc[0].participant.id != sc[1].participant.id
            && forall i :: 0 <= i < |sc| ==> sc[i].score >= 0
  {
  }

  /** The two participant ids of an admitted score body differ. */
  lemma AdmittedScoresDistinct(p: ResultPayload)
    requires ValidateReport(p).Ok? && p.scores.Some?
    ensures MatchService.ScoreIds(p.scores.value)[0] != MatchService.ScoreIds(p.scores.value)[1]
  {
  }

  /** Kill counts of an admitted results body are stored as given. */
  lemma AdmittedResultsKeepKills(p: ResultPayload)
    requires ValidateReport(p).Ok? && p.results.Some?
    requires MatchService.CastResults(p.results.value).Some?
    ensures var rs := MatchService.CastResults(p.results.value).value;
            forall i :: 0 <= i < |rs| ==> rs[i].kills == p.results.value[i].kills.value && rs[i].rank >= 1
  {
  }

  /** `getMatches` admits the same page and limit bounds as the tournament listing. */
  lemma GetMatchesQueryValid(page: Option<int>, limit: Option<int>)
    requires TournamentValidator.ListQueryAdmitted(page, limit)
    ensures Valid(WithDefaults(page, limit)) && WithDefaults(page, limit).limit <= 100
  {
    TournamentValidator.ListQueryGivesValidOptions(page, limit);
  }
}

=== FILE: notification_job.dfy ===
/**
 * src/jobs/notification.job.js: the once-a-minute match reminder. Pending
 * matches that start between 15 and 16 minutes from now are selected, and
 * every participant of such a match who has no `MATCH_REMINDER` for it yet
 * is sent one. Sending is an abstract event: the run's result is the list of
 * reminders sent, in order.
 */
module NotificationJob {
  import opened Ids
  import opened MatchModel
  import opened Ordering

  /** A match document together with its id, as the query returns it. */
  datatype MatchDoc = MatchDoc(id: Id, doc: Match)

  /** One `notificationService.send(recipient, 'MATCH_REMINDER', { tournamentName }, { entityId, entityModel: 'Match' })`. */
  datatype Reminder = Reminder(recipient: Id, matchId: Id, tournamentName: string)

  /**
   * The reminders sent, and whether the run stopped early: a match whose
   * tournament no longer exists populates as null, and reading its name
   * throws before that participant's reminder is sent.
   */
  datatype ReminderRun = ReminderRun(sent: seq<Reminder>, aborted: bool)

  const WindowStartMs: int := 15 * MinuteMs
  const WindowEndMs: int := 16 * MinuteMs

  /** `{ status: 'pending', scheduledTime: { $gte: now + 15 min, $lt: now + 16 min } }`. */
  predicate Upcoming(m: MatchDoc, now: Time) {
    && m.doc.status.Pending?
    && m.doc.scheduledTime.Some?
    && now + WindowStartMs <= m.doc.scheduledTime.value < now + WindowEndMs
  }

  function UpcomingAt(now: Time): MatchDoc -> bool {
    m => Upcoming(m, now)
  }

  /** A reminder of this run that is owed: the pair has none yet and the tournament name can be read. */
  predicate Owed(m: MatchDoc, j: int, existing: set<(Id, Id)>) {
    0 <= j < |m.doc.participants| && (m.doc.participants[j].id, m.id) !in existing
  }

  /** The reminders for one match, participant by participant. */
  function SendFor(m: MatchDoc, j: nat, names: map<Id, string>, existing: set<(Id, Id)>): (r: ReminderRun)
    requires j <= |m.doc.participants|
    decreases |m.doc.participants| - j
    ensures forall k :: 0 <= k < |r.sent| ==>
              && r.sent[k].matchId == m.id
              && (r.sent[k].recipient, m.id) !in existing
              && m.doc.tournament in names && r.sent[k].tournamentName == names[m.doc.tournament]
              && HasParticipant(m.doc.participants, r.sent[k].recipient)
    ensures r.aborted <==> m.doc.tournament !in names && exists i :: j <= i < |m.doc.participants| && Owed(m, i, existing)
    ensures !r.aborted ==> forall i :: j <= i < |m.doc.participants| && Owed(m, i, existing) ==>
              Reminder(m.doc.participants[i].id, m.id, names[m.doc.tournament]) in r.sent
  {
    if j == |m.doc.participants| then ReminderRun([], false)
    else
      var p := m.doc.participants[j];
      if (p.id, m.id) in existing then
        var rest := SendFor(m, j + 1, names, existing);
        assert forall i :: j <= i < |m.doc.participants| && Owed(m, i, existing) ==> j + 1 <= i;
        rest
      else if m.doc.tournament !in names then
        assert Owed(m, j, existing);
        ReminderRun([], true)
      else
        var rest := SendFor(m, j + 1, names, existing);
        ReminderRun([Reminder(p.id, m.id, names[m.doc.tournament])] + rest.sent, rest.aborted)
  }

  /** A reminder some selected match owes. */
  ghost predicate Justified(x: Reminder, sel: seq<MatchDoc>, names: map<Id, string>, existing: set<(Id, Id)>) {
    exists k :: 0 <= k < |sel| && sel[k].id == x.matchId
      && (x.recipient, x.matchId) !in existing
      && sel[k].doc.tournament in names && x.tournamentName == names[sel[k].doc.tournament]
      && HasParticipant(sel[k].doc.participants, x.recipient)
  }

  /** The loop over the selected matches; a run stops at the first abort. */
  function SendAll(sel: seq<MatchDoc>, names: map<Id, string>, existing: set<(Id, Id)>): (r: ReminderRun)
    ensures forall k :: 0 <= k < |r.sent| ==> Justified(r.sent[k], sel, names, existing)
    ensures r.aborted <==> exists k, i :: 0 <= k < |sel| && Owed(sel[k], i, existing) && sel[k].doc.tournament !in names
    ensures !r.aborted ==> forall k, i :: 0 <= k < |sel| && Owed(sel[k], i, existing) ==>
              Reminder(sel[k].doc.participants[i].id, sel[k].id, names[sel[k].doc.tournament]) in r.sent
  {
    if |sel| == 0 then ReminderRun([], false)
    else
      var first := SendFor(sel[0], 0, names, existing);
      if first.aborted then
        assert Owed(sel[0], 0, existing) || exists i :: 0 <= i < |sel[0].doc.participants| && Owed(sel[0], i, existing);
        first
      else
        var rest := SendAll(sel[1..], names, existing);
        var r := ReminderRun(first.sent + rest.sent, rest.aborted);
        forall k | 0 <= k < |r.sent| ensures Justified(r.sent[k], sel, names, existing) {
          if k < |first.sent| {
            assert r.sent[k] == first.sent[k];
            assert sel[0].id == r.sent[k].matchId;
          } else {
            assert r.sent[k] == rest.sent[k - |first.sent|];
            assert Justified(rest.sent[k - |first.sent|], sel[1..], names, existing);
            var q :| 0 <= q < |sel[1..]| && sel[1..][q].id == r.sent[k].matchId
              && (r.sent[k].recipient, r.sent[k].matchId) !in existing
              && sel[1..][q].doc.tournament in names && r.sent[k].tournamentName == names[sel[1..][q].doc.tournament]
              && HasParticipant(sel[1..][q].doc.participants, r.sent[k].recipient);
            assert sel[q + 1] == sel[1..][q];
          }
        }
        assert r.aborted ==> exists k, i :: 0 <= k < |sel| && Owed(sel[k], i, existing) && sel[k].doc.tournament !in names by {
          if r.aborted {
            var k, i :| 0 <= k < |sel[1..]| && Owed(sel[1..][k], i, existing) && sel[1..][k].doc.tournament !in names;
            assert sel[k + 1] == sel[1..][k];
          }
        }
        assert !r.aborted ==> forall k, i :: 0 <= k < |sel| && Owed(sel[k], i, existing) ==>
              Reminder(sel[k].doc.participants[i].id, sel[k].id, names[sel[k].doc.tournament]) in r.sent by {
          if !r.aborted {
            forall k, i | 0 <= k < |sel| && Owed(sel[k], i, existing)
              ensures Reminder(sel[k].doc.participants[i].id, sel[k].id, names[sel[k].doc.tournament]) in r.sent
            {
              if k > 0 {
                assert sel[k] == sel[1..][k - 1];
              }
            }
          }
        }
        r
  }

  /** `handleMatchReminders` for the matches in scan order at time `now`. */
  function HandleMatchReminders(docs: seq<MatchDoc>, names: map<Id, string>, existing: set<(Id, Id)>, now: Time): (r: ReminderRun)
    ensures forall k :: 0 <= k < |r.sent| ==> (r.sent[k].recipient, r.sent[k].matchId) !in existing
    ensures forall k :: 0 <= k < |r.sent| ==> ForUpcoming(r.sent[k], docs, now)
  {
    var sel := Filter(docs, UpcomingAt(now));
    var run := SendAll(sel, names, existing);
    SentFromUpcoming(docs, names, existing, now, run);
    run
  }

  /** The reminder is for a match of the window. */
  ghost predicate ForUpcoming(x: Reminder, docs: seq<MatchDoc>, now: Time) {
    exists i :: 0 <= i < |docs| && docs[i].id == x.matchId && Upcoming(docs[i], now)
  }

  /** Every reminder belongs to a match of the window. */
  lemma SentFromUpcoming(docs: seq<MatchDoc>, names: map<Id, string>, existing: set<(Id, Id)>, now: Time, run: ReminderRun)
    requires run == SendAll(Filter(docs, UpcomingAt(now)), names, existing)
    ensures forall k :: 0 <= k < |run.sent| ==> ForUpcoming(run.sent[k], docs, now)
  {
    var keep := UpcomingAt(now);
    var sel := Filter(docs, keep);
    forall k | 0 <= k < |run.sent|
      ensures ForUpcoming(run.sent[k], docs, now)
    {
      assert Justified(run.sent[k], sel, names, existing);
      var q :| 0 <= q < |sel| && sel[q].id == run.sent[k].matchId;
      assert sel[q] in multiset(sel);
      assert sel[q] in multiset(docs);
      assert keep(sel[q]);
      var i :| 0 <= i < |docs| && docs[i] == sel[q];
      assert Upcoming(docs[i], now) && docs[i].id == run.sent[k].matchId;
    }
  }

  /** With no match in the window nothing is sent. */
  lemma NothingUpcomingNothingSent(docs: seq<MatchDoc>, names: map<Id, string>, existing: set<(Id, Id)>, now: Time)
    requires forall i :: 0 <= i < |docs| ==> !Upcoming(docs[i], now)
    ensures HandleMatchReminders(docs, names, existing, now) == ReminderRun([], false)
  {
    FilterNone(docs, UpcomingAt(now));
  }

  /**
   * Every participant of an upcoming match who had no reminder for it gets
   * one, unless the run stopped early on a match without a tournament.
   */
  lemma OwedRemindersSent(docs: seq<MatchDoc>, names: map<Id, string>, existing: set<(Id, Id)>, now: Time, k: int, i: int)
    requires 0 <= k < |docs| && Upcoming(docs[k], now) && Owed(docs[k], i, existing)
    requires !HandleMatchReminders(docs, names, existing, now).aborted
    ensures docs[k].doc.tournament in names
    ensures Reminder(docs[k].doc.participants[i].id, docs[k].id, names[docs[k].doc.tournament])
              in HandleMatchReminders(docs, names, existing, now).sent
  {
    var keep := UpcomingAt(now);
    var sel := Filter(docs, keep);
    FilterKeeps(docs, keep, k);
    var q :| 0 <= q < |sel| && sel[q] == docs[k];
    assert Owed(sel[q], i, existing);
  }

  /** A run sends at most one reminder per (participant slot, match), so a pair already reminded gets nothing. */
  lemma RemindedPairSkipped(docs: seq<MatchDoc>, names: map<Id, string>, existing: set<(Id, Id)>, now: Time, who: Id, matchId: Id)
    requires (who, matchId) in existing
    ensures forall k :: 0 <= k < |HandleMatchReminders(docs, names, existing, now).sent| ==>
              HandleMatchReminders(docs, names, existing, now).sent[k].recipient != who
              || HandleMatchReminders(docs, names, existing, now).sent[k].matchId != matchId
  {
  }
}

=== FILE: ordering.dfy ===
/**
 * Sorting and filtering of query results. The database's `$sort`/`.sort()`
 * is modelled by a functional insertion sort on an integer key, and a query
 * filter by `Filter` over the collection in scan order.
 */
module Ordering {
  predicate SortedBy<T>(s: seq<T>, key: T -> int) {
    forall i, j :: 0 <= i < j < |s| ==> key(s[i]) <= key(s[j])
  }

  predicate AllAtLeast<T>(s: seq<T>, key: T -> int, lo: int) {
    forall i :: 0 <= i < |s| ==> lo <= key(s[i])
  }

  function Insert<T>(x: T, s: seq<T>, key: T -> int): (r: seq<T>)
    requires SortedBy(s, key)
    ensures |r| == |s| + 1
    ensures SortedBy(r, key)
    ensures forall lo :: AllAtLeast(s, key, lo) && lo <= key(x) ==> AllAtLeast(r, key, lo)
    ensures multiset(r) == multiset(s) + multiset{x}
  {
    if |s| == 0 then [x]
    else if key(x) <= key(s[0]) then [x] + s
    else
      var t := Insert(x, s[1..], key);
      InsertCons(x, s, t, key);
      [s[0]] + t
  }

  /** The recursive step of `Insert`: the head stays in front of the insertion into the tail. */
  lemma InsertCons<T>(x: T, s: seq<T>, t: seq<T>, key: T -> int)
    requires |s| > 0 && SortedBy(s, key) && key(s[0]) < key(x)
    requires SortedBy(t, key) && multiset(t) == multiset(s[1..]) + multiset{x}
    requires forall lo :: AllAtLeast(s[1..], key, lo) && lo <= key(x) ==> AllAtLeast(t, key, lo)
    ensures SortedBy([s[0]] + t, key)
    ensures forall lo :: AllAtLeast(s, key, lo) && lo <= key(x) ==> AllAtLeast([s[0]] + t, key, lo)
    ensures multiset([s[0]] + t) == multiset(s) + multiset{x}
  {
    assert AllAtLeast(s[1..], key, key(s[0]));
    assert AllAtLeast(t, key, key(s[0]));
    assert s == [s[0]] + s[1..];
    forall lo | AllAtLeast(s, key, lo) && lo <= key(x) ensures AllAtLeast([s[0]] + t, key, lo) {
      assert AllAtLeast(s[1..], key, lo);
    }
  }

  /** Ascending order on `key`, a permutation of the input; equal keys may come in any order. */
  function SortBy<T>(s: seq<T>, key: T -> int): (r: seq<T>)
    ensures SortedBy(r, key)
    ensures multiset(r) == multiset(s)
    ensures |r| == |s|
  {
    if |s| == 0 then []
    else
      assert s == [s[0]] + s[1..];
      Insert(s[0], SortBy(s[1..], key), key)
  }

  /** A query filter: the elements of `s` that satisfy `keep`, in scan order. */
  function Filter<T>(s: seq<T>, keep: T -> bool): (r: seq<T>)
    ensures |r| <= |s|
    ensures forall i :: 0 <= i < |r| ==> keep(r[i])
    ensures multiset(r) <= multiset(s)
  {
    if |s| == 0 then []
    else
      var rest := Filter(s[1..], keep);
      assert s == [s[0]] + s[1..];
      if keep(s[0]) then [s[0]] + rest else rest
  }

  /** Every element that passes the filter is kept. */
  lemma {:induction false} FilterKeeps<T>(s: seq<T>, keep: T -> bool, i: int)
    requires 0 <= i < |s| && keep(s[i])
    ensures s[i] in Filter(s, keep)
  {
    if i > 0 {
      FilterKeeps(s[1..], keep, i - 1);
    }
  }

  /** Sorting neither adds nor drops an element. */
  lemma SortByMembership<T>(s: seq<T>, key: T -> int, i: int)
    requires 0 <= i < |s|
    ensures s[i] in SortBy(s, key)
  {
    assert s[i] in multiset(s);
  }

  /** A property every input element has, every sorted element has. */
  lemma SortByKeepsProperty<T>(s: seq<T>, key: T -> int, keep: T -> bool)
    requires forall i :: 0 <= i < |s| ==> keep(s[i])
    ensures forall k :: 0 <= k < |SortBy(s, key)| ==> keep(SortBy(s, key)[k])
  {
    var r := SortBy(s, key);
    forall k | 0 <= k < |r| ensures keep(r[k]) {
      assert r[k] in multiset(r);
      assert r[k] in multiset(s);
      assert r[k] in s;
    }
  }

  /** Filtering a sorted sequence keeps it sorted. */
  lemma {:induction false} FilterSorted<T>(s: seq<T>, key: T -> int, keep: T -> bool)
    requires SortedBy(s, key)
    ensures SortedBy(Filter(s, keep), key)
  {
    if |s| > 0 {
      var rest := Filter(s[1..], keep);
      assert SortedBy(s[1..], key);
      FilterSorted(s[1..], key, keep);
      if keep(s[0]) {
        forall k | 0 <= k < |rest| ensures key(s[0]) <= key(rest[k]) {
          assert rest[k] in multiset(rest);
          assert rest[k] in multiset(s[1..]);
          assert rest[k] in s[1..];
        }
        var r := [s[0]] + rest;
        forall i, j | 0 <= i < j < |r| ensures key(r[i]) <= key(r[j]) {
          if i > 0 {
            assert r[i] == rest[i - 1] && r[j] == rest[j - 1];
          }
        }
      }
    }
  }

  /** A filter nothing passes yields nothing. */
  lemma {:induction false} FilterNone<T>(s: seq<T>, keep: T -> bool)
    requires forall i :: 0 <= i < |s| ==> !keep(s[i])
    ensures Filter(s, keep) == []
  {
    if |s| > 0 {
      FilterNone(s[1..], keep);
    }
  }

  /** `$pull`: every occurrence of `x` removed, everything else kept in order. */
  function Without<T(==)>(s: seq<T>, x: T): (r: seq<T>)
    ensures |r| <= |s|
    ensures x !in r
    ensures forall i :: 0 <= i < |r| ==> r[i] in s
    ensures forall i :: 0 <= i < |s| && s[i] != x ==> s[i] in r
  {
    if |s| == 0 then []
    else
      assert s == [s[0]] + s[1..];
      if s[0] == x then Without(s[1..], x) else [s[0]] + Without(s[1..], x)
  }

  /** Removal works piecewise, so the survivors keep their relative order. */
  lemma {:induction false} WithoutAppend<T>(a: seq<T>, b: seq<T>, x: T)
    ensures Without(a + b, x) == Without(a, x) + Without(b, x)
  {
    if |a| > 0 {
      WithoutAppend(a[1..], b, x);
      assert (a + b)[1..] == a[1..] + b;
    } else {
      assert a + b == b;
    }
  }

  /** Nothing to remove leaves the sequence as it was. */
  lemma {:induction false} WithoutAbsent<T>(s: seq<T>, x: T)
    requires x !in s
    ensures Without(s, x) == s
  {
    if |s| > 0 {
      WithoutAbsent(s[1..], x);
      assert s == [s[0]] + s[1..];
    }
  }

  /** A filter everything passes is the identity. */
  lemma {:induction false} FilterAll<T>(s: seq<T>, keep: T -> bool)
    requires forall k :: 0 <= k < |s| ==> keep(s[k])
    ensures Filter(s, keep) == s
  {
    if |s| > 0 {
      FilterAll(s[1..], keep);
      assert s == [s[0]] + s[1..];
    }
  }

  /** A weaker filter keeps at least as many elements. */
  lemma {:induction false} FilterWeaker<T>(s: seq<T>, p: T -> bool, q: T -> bool)
    requires forall k :: 0 <= k < |s| && p(s[k]) ==> q(s[k])
    ensures |Filter(s, p)| <= |Filter(s, q)|
  {
    if |s| > 0 {
      FilterWeaker(s[1..], p, q);
    }
  }
}

=== FILE: pagination.dfy ===
/**
 * Offset pagination shared by the list queries: `skip = (page - 1) * limit`,
 * at most `limit` results, and `totalPages = Math.ceil(totalResults / limit)`.
 */
module Pagination {
  import opened Wrappers

  datatype PageOptions = PageOptions(page: int, limit: int)

  /** `const { page = 1, limit = 10 } = options`. */
  function WithDefaults(page: Option<int>, limit: Option<int>): (o: PageOptions)
    ensures o.page == page.GetOr(1) && o.limit == limit.GetOr(10)
  {
    PageOptions(page.GetOr(1), limit.GetOr(10))
  }

  /** What the route validators admit: a positive page and a positive limit. */
  predicate Valid(o: PageOptions) {
    o.page >= 1 && o.limit >= 1
  }

  datatype Page<T> = Page(results: seq<T>, page: int, limit: int, totalPages: nat, totalResults: nat)

  /** `Math.ceil(n / d)` for a non-negative count and a positive divisor. */
  function CeilDiv(n: nat, d: int): (q: nat)
    requires d >= 1
    ensures q * d >= n && q * d < n + d
  {
    (n + d - 1) / d
  }

  function Skip(o: PageOptions): nat
    requires Valid(o)
  {
    (o.page - 1) * o.limit
  }

  /** `.skip(skip).limit(limit)` applied to an already filtered and sorted sequence. */
  function Window<T>(items: seq<T>, o: PageOptions): (w: seq<T>)
    requires Valid(o)
    ensures |w| <= o.limit
    ensures Skip(o) + |w| <= |items| || |w| == 0
    ensures forall k :: 0 <= k < |w| ==> w[k] == items[Skip(o) + k]
    ensures |w| == if Skip(o) >= |items| then 0
                   else if Skip(o) + o.limit <= |items| then o.limit
                   else |items| - Skip(o)
  {
    var lo := if Skip(o) < |items| then Skip(o) else |items|;
    var hi := if Skip(o) + o.limit < |items| then Skip(o) + o.limit else |items|;
    items[lo..hi]
  }

  function Paginate<T>(items: seq<T>, o: PageOptions): (p: Page<T>)
    requires Valid(o)
    ensures p.results == Window(items, o)
    ensures p.page == o.page && p.limit == o.limit
    ensures p.totalResults == |items| && p.totalPages == CeilDiv(|items|, o.limit)
  {
    Page(Window(items, o), o.page, o.limit, CeilDiv(|items|, o.limit), |items|)
  }

  /** A window of an ordered sequence is ordered. */
  lemma WindowKeepsOrder<T>(items: seq<T>, key: T -> int, o: PageOptions)
    requires Valid(o)
    requires forall i, j :: 0 <= i < j < |items| ==> key(items[i]) <= key(items[j])
    ensures var w := Window(items, o);
            forall i, j :: 0 <= i < j < |w| ==> key(w[i]) <= key(w[j])
  {
    var w := Window(items, o);
    forall i, j | 0 <= i < j < |w| ensures key(w[i]) <= key(w[j]) {
      assert w[i] == items[Skip(o) + i] && w[j] == items[Skip(o) + j];
    }
  }

  /** A page has results exactly when its number is at most `totalPages`. */
  lemma PageNonEmptyIff<T>(items: seq<T>, o: PageOptions)
    requires Valid(o)
    ensures |Paginate(items, o).results| > 0 <==> o.page <= Paginate(items, o).totalPages
  {
    var q := CeilDiv(|items|, o.limit);
    var skip := Skip(o);
    if o.page <= q {
      MulMonotone(o.page - 1, q - 1, o.limit);
      assert skip <= (q - 1) * o.limit == q * o.limit - o.limit;
    } else {
      MulMonotone(q, o.page - 1, o.limit);
      assert skip >= q * o.limit;
    }
  }

  lemma MulMonotone(a: int, b: int, c: int)
    requires a <= b && c >= 0
    ensures a * c <= b * c
  {
  }

  /** Pages 1..n, one after the other. */
  function Pages<T>(items: seq<T>, limit: int, n: nat): seq<T>
    requires limit >= 1
  {
    if n == 0 then [] else Pages(items, limit, n - 1) + Window(items, PageOptions(n, limit))
  }

  /** The first `n` pages are the first `n * limit` items. */
  lemma {:induction false} PagesPrefix<T>(items: seq<T>, limit: int, n: nat)
    requires limit >= 1
    ensures Pages(items, limit, n) == items[..if n * limit <= |items| then n * limit else |items|]
  {
    if n > 0 {
      PagesPrefix(items, limit, n - 1);
      var o := PageOptions(n, limit);
      assert Skip(o) == (n - 1) * limit;
      var a := if (n - 1) * limit <= |items| then (n - 1) * limit else |items|;
      var b := if n * limit <= |items| then n * limit else |items|;
      assert n * limit == (n - 1) * limit + limit;
      assert Window(items, o) == items[a..b];
      assert items[..a] + items[a..b] == items[..b];
    }
  }

  /** Reading pages 1 to `totalPages` returns every item exactly once, in order. */
  lemma PagesCoverAll<T>(items: seq<T>, limit: int)
    requires limit >= 1
    ensures Pages(items, limit, CeilDiv(|items|, limit)) == items
  {
    PagesPrefix(items, limit, CeilDiv(|items|, limit));
  }
}

=== FILE: payment_service.dfy ===
/**
 * src/services/payment.service.js, `verifyWalletCharge`: the gateway's
 * callback for a wallet charge. The gateway's verify call is an input: what
 * it answered, or that it could not be reached. The database session is
 * atomic, so every failure after the lookups leaves the store as it was.
 */
module PaymentService {
  import opened Wrappers
  import opened Ids
  import opened Errors
  import opened TransactionModel
  import opened UserModel
  import opened Storage

  /** The gateway's answer to `verify.json`. */
  datatype GatewayReply =
    | Answered(code: Option<int>, refId: string)
    | Unreachable

  /** Success code of the gateway, and its code for a payment verified before. */
  const Verified: int := 100
  const VerifiedBefore: int := 101

  /** `findOne({ _id: transactionId, authority })`. */
  predicate Pairs(s: Store, txId: Id, authority: string) {
    txId in s.transactions && s.transactions[txId].authority == Some(authority)
  }

  /** The wallet credit of a verified charge; a missing user is a no-op update. */
  function Credit(users: map<Id, User>, uid: Id, amount: int): (r: map<Id, User>)
    ensures r.Keys == users.Keys
    ensures forall u :: u in users && u != uid ==> r[u] == users[u]
    ensures uid in users ==> r[uid] == users[uid].(walletBalance := users[uid].walletBalance + amount)
  {
    if uid in users then users[uid := users[uid].(walletBalance := users[uid].walletBalance + amount)] else users
  }

  /** The callback as written: a non-OK status cancels the transaction whatever its state. */
  function VerifyCharge(s: Store, authority: string, callback: string, txId: Id, gateway: GatewayReply): (r: Reply<Option<string>>)
    ensures callback != "OK" ==> r.result == Err(Fail(400, CanceledByUser))
    ensures callback != "OK" && txId in s.transactions ==>
              r.store == s.(transactions := s.transactions[txId := s.transactions[txId].(status := Canceled)])
    ensures callback != "OK" && txId !in s.transactions ==> r.store == s
    ensures callback == "OK" && r.result.Err? ==> r.store == s
    ensures callback == "OK" && !Pairs(s, txId, authority) ==> r.result == Err(Fail(404, TransactionNotFound))
    ensures callback == "OK" && Pairs(s, txId, authority) && !s.transactions[txId].status.Pending? ==>
              r.result == Err(Fail(400, AlreadyProcessed))
    ensures r.result.Ok? ==> callback == "OK" && Pairs(s, txId, authority) && s.transactions[txId].status.Pending?
                             && gateway.Answered? && gateway.code.Some?
    ensures r.result.Ok? && gateway.code.value == VerifiedBefore ==>
              r.store == s && r.result.value == s.transactions[txId].refId
    ensures r.result.Ok? && gateway.code.value != VerifiedBefore ==>
              var t := s.transactions[txId];
              && gateway.code.value == Verified
              && r.result.value == Some(gateway.refId)
              && r.store == s.(transactions := s.transactions[txId := t.(status := Completed, refId := Some(gateway.refId))],
                               users := Credit(s.users, t.user, t.amount))
    ensures callback == "OK" && Pairs(s, txId, authority) && s.transactions[txId].status.Pending? ==>
              && (gateway.Unreachable? ==> r.result == Err(Fail(502, GatewayError)))
              && (gateway.Answered? && !(gateway.code in {Some(Verified), Some(VerifiedBefore)}) ==>
                    r.result == Err(Fail(400, VerificationFailed)))
  {
    if callback != "OK" then
      if txId in s.transactions then
        Reply(s.(transactions := s.transactions[txId := s.transactions[txId].(status := Canceled)]), Err(Fail(400, CanceledByUser)))
      else Reply(s, Err(Fail(400, CanceledByUser)))
    else Settle(s, authority, txId, gateway)
  }

  /** The checks and the atomic update that follow an OK callback. */
  function Settle(s: Store, authority: string, txId: Id, gateway: GatewayReply): (r: Reply<Option<string>>)
    ensures r.result.Err? ==> r.store == s
    ensures r.result.Ok? ==> Pairs(s, txId, authority) && s.transactions[txId].status.Pending?
                             && gateway.Answered? && gateway.code.Some?
  {
    if !Pairs(s, txId, authority) then Reply(s, Err(Fail(404, TransactionNotFound)))
    else
      var t := s.transactions[txId];
      if !t.status.Pending? then Reply(s, Err(Fail(400, AlreadyProcessed)))
      else if gateway.Unreachable? then Reply(s, Err(Fail(502, GatewayError)))
      else if gateway.code == Some(VerifiedBefore) then Reply(s, Ok(t.refId))
      else if gateway.code == Some(Verified) then
        Reply(s.(transactions := s.transactions[txId := t.(status := Completed, refId := Some(gateway.refId))],
                 users := Credit(s.users, t.user, t.amount)), Ok(Some(gateway.refId)))
      else Reply(s, Err(Fail(400, VerificationFailed)))
  }

  /** A charge is credited at most once: replaying a verified callback is refused and changes nothing. */
  lemma CreditedOnce(s: Store, authority: string, txId: Id, gateway: GatewayReply, replay: GatewayReply)
    requires VerifyCharge(s, authority, "OK", txId, gateway).result.Ok?
    requires gateway.code == Some(Verified)
    ensures var t := VerifyCharge(s, authority, "OK", txId, gateway).store;
            && t.transactions[txId].status == Completed
            && VerifyCharge(t, authority, "OK", txId, replay) == Reply(t, Err(Fail(400, AlreadyProcessed)))
  {
  }

  /** A verified charge moves exactly its amount into its owner's wallet and nothing else. */
  lemma VerifiedChargeConserves(s: Store, authority: string, txId: Id, gateway: GatewayReply)
    requires VerifyCharge(s, authority, "OK", txId, gateway).result.Ok?
    requires gateway.code == Some(Verified)
    requires s.transactions[txId].user in s.users
    ensures var t := VerifyCharge(s, authority, "OK", txId, gateway).store;
            var owner := s.transactions[txId].user;
            && t.users[owner].walletBalance == s.users[owner].walletBalance + s.transactions[txId].amount
            && (forall u :: u in s.users && u != owner ==> t.users[u] == s.users[u])
  {
  }

  /**
   * When the gateway says the payment was verified before, the local
   * transaction stays pending and no wallet is credited.
   */
  lemma VerifiedBeforeLeavesPending(s: Store, authority: string, txId: Id, refId: string)
    requires Pairs(s, txId, authority) && s.transactions[txId].status.Pending?
    ensures var r := VerifyCharge(s, authority, "OK", txId, Answered(Some(VerifiedBefore), refId));
            r.result == Ok(s.transactions[txId].refId) && r.store.transactions[txId].status.Pending?
  {
  }

  /** A cancelling callback turns a completed, already credited charge into a cancelled one. */
  lemma CancelAfterCompletion(s: Store, txId: Id, uid: Id)
    requires txId in s.transactions && uid in s.users
    requires s.transactions[txId] == Transaction(uid, 50000, WalletCharge, Completed, Some("A1"), Some("R1"))
    ensures var r := VerifyCharge(s, "A1", "NOK", txId, Unreachable);
            && r.store.transactions[txId].status == Canceled
            && r.store.users[uid].walletBalance == s.users[uid].walletBalance
  {
  }

  /** The callback with cancellation limited to transactions still pending. */
  function VerifyChargeStrict(s: Store, authority: string, callback: string, txId: Id, gateway: GatewayReply): (r: Reply<Option<string>>)
    ensures callback != "OK" ==> r.result == Err(Fail(400, CanceledByUser))
    ensures callback == "OK" ==> r == Settle(s, authority, txId, gateway)
    ensures forall k :: k in s.transactions && !s.transactions[k].status.Pending? ==>
              k in r.store.transactions && r.store.transactions[k].status == s.transactions[k].status
    ensures callback != "OK" ==> r.store.users == s.users
  {
    if callback != "OK" then
      if txId in s.transactions && s.transactions[txId].status.Pending? then
        Reply(s.(transactions := s.transactions[txId := s.transactions[txId].(status := Canceled)]), Err(Fail(400, CanceledByUser)))
      else Reply(s, Err(Fail(400, CanceledByUser)))
    else Settle(s, authority, txId, gateway)
  }

  /** The two agree on every callback except a cancellation of a settled transaction. */
  lemma StrictAgreesOnPending(s: Store, authority: string, callback: string, txId: Id, gateway: GatewayReply)
    requires callback == "OK" || txId !in s.transactions || s.transactions[txId].status.Pending?
    ensures VerifyChargeStrict(s, authority, callback, txId, gateway) == VerifyCharge(s, authority, callback, txId, gateway)
  {
  }
}

=== FILE: pick.dfy ===
/**
 * src/utils/pick.js: copies the listed own properties of a request source
 * into a fresh object. A JavaScript object is a map from property names to
 * values; `None` stands for a null or undefined source.
 */
module Pick {
  import opened Wrappers

  /** The values a request property can hold; `Undefined` is an own property explicitly set to undefined. */
  datatype JsValue = Undefined | Null | Bool(b: bool) | Num(n: int) | Str(s: string) | Other

  type JsObject = map<string, JsValue>

  /** `object && Object.prototype.hasOwnProperty.call(object, key)`. */
  predicate OwnProperty(source: Option<JsObject>, key: string) {
    source.Some? && key in source.value
  }

  /** `keys.reduce((obj, key) => ..., acc)`: one step per key, in order. */
  function PickInto(source: Option<JsObject>, keys: seq<string>, acc: JsObject): (r: JsObject)
    ensures forall k :: k in r <==> k in acc || (k in keys && OwnProperty(source, k))
    ensures forall k :: k in r ==> r[k] == if k in keys && OwnProperty(source, k) then source.value[k] else acc[k]
  {
    if |keys| == 0 then acc
    else
      var key := keys[0];
      var next := if OwnProperty(source, key) then acc[key := source.value[key]] else acc;
      var r := PickInto(source, keys[1..], next);
      assert forall k :: k in keys <==> k == key || k in keys[1..];
      r
  }

  function Pick(source: Option<JsObject>, keys: seq<string>): (r: JsObject)
    ensures forall k :: k in r <==> k in keys && OwnProperty(source, k)
    ensures forall k :: k in r ==> OwnProperty(source, k) && r[k] == source.value[k]
  {
    PickInto(source, keys, map[])
  }

  /** A null or undefined source, or an empty key list, gives `{}`. */
  lemma PickEmpty(source: Option<JsObject>, keys: seq<string>)
    requires source.None? || keys == []
    ensures Pick(source, keys) == map[]
  {
  }

  /** Picking again with the same keys changes nothing. */
  lemma PickIdempotent(source: Option<JsObject>, keys: seq<string>)
    ensures Pick(Some(Pick(source, keys)), keys) == Pick(source, keys)
  {
  }

  /** Picking from a picked source keeps the common keys. */
  lemma PickTwice(source: Option<JsObject>, keys: seq<string>, more: seq<string>)
    ensures forall k :: k in Pick(Some(Pick(source, keys)), more) <==> k in keys && k in more && OwnProperty(source, k)
  {
  }

  /** Falsy values other than undefined are kept: `{ a: 0, b: '', c: false, d: null }`. */
  lemma PickKeepsFalsy()
    ensures var o := map["a" := Num(0), "b" := Str(""), "c" := Bool(false), "d" := Null];
            Pick(Some(o), ["a", "b", "c", "d"]) == o
  {
    var o := map["a" := Num(0), "b" := Str(""), "c" := Bool(false), "d" := Null];
    var r := Pick(Some(o), ["a", "b", "c", "d"]);
    assert r.Keys == o.Keys;
  }

  /** An own property whose value is undefined is copied too. */
  lemma PickKeepsUndefined()
    ensures Pick(Some(map["e" := Undefined]), ["e"]) == map["e" := Undefined]
  {
    var r := Pick(Some(map["e" := Undefined]), ["e"]);
    assert r.Keys == {"e"};
  }

  /** The helper as its tests describe it: a property holding undefined is skipped. */
  function PickDefined(source: Option<JsObject>, keys: seq<string>): (r: JsObject)
    ensures forall k :: k in r <==> k in keys && OwnProperty(source, k) && source.value[k] != Undefined
    ensures forall k :: k in r ==> OwnProperty(source, k) && r[k] == source.value[k] && r[k] != Undefined
  {
    var p := Pick(source, keys);
    map k | k in p && p[k] != Undefined :: p[k]
  }

  /** The two agree unless a requested property holds undefined. */
  lemma PickDefinedAgrees(source: Option<JsObject>, keys: seq<string>)
    requires forall k :: k in keys && OwnProperty(source, k) ==> source.value[k] != Undefined
    ensures PickDefined(source, keys) == Pick(source, keys)
  {
  }
}

=== FILE: registration_model.dfy ===
/** Registration documents (src/models/user/Registration.model.js) and counting over them. */
module RegistrationModel {
  import opened Wrappers
  import opened Ids

  datatype RegistrationStatus = Registered | CheckedIn | Playing | Eliminated | Completed | Disqualified

  datatype PaymentStatus = Paid | Refunded | NotApplicable

  datatype Registration = Registration(
    user: Id,
    tournament: Id,
    team: Option<Id>,
    status: RegistrationStatus,
    paymentStatus: PaymentStatus)

  /** `Registration.countDocuments({ tournament })`. */
  function CountFor(regs: seq<Registration>, tournament: Id): nat {
    if |regs| == 0 then 0
    else (if regs[0].tournament == tournament then 1 else 0) + CountFor(regs[1..], tournament)
  }

  /** The number of registrations of `user` in `tournament`. */
  function PairCount(regs: seq<Registration>, user: Id, tournament: Id): nat {
    if |regs| == 0 then 0
    else (if regs[0].user == user && regs[0].tournament == tournament then 1 else 0)
         + PairCount(regs[1..], user, tournament)
  }

  /** `Registration.findOne({ user, tournament })` finds something. */
  predicate UserRegistered(regs: seq<Registration>, user: Id, tournament: Id) {
    exists i :: 0 <= i < |regs| && regs[i].user == user && regs[i].tournament == tournament
  }

  /** `Registration.findOne({ tournament, team })` finds something. */
  predicate TeamRegistered(regs: seq<Registration>, team: Id, tournament: Id) {
    exists i :: 0 <= i < |regs| && regs[i].team == Some(team) && regs[i].tournament == tournament
  }

  lemma {:induction false} CountAppend(regs: seq<Registration>, r: Registration, t: Id)
    ensures CountFor(regs + [r], t) == CountFor(regs, t) + (if r.tournament == t then 1 else 0)
  {
    if |regs| == 0 {
      assert regs + [r] == [r];
    } else {
      assert (regs + [r])[1..] == regs[1..] + [r];
      CountAppend(regs[1..], r, t);
    }
  }

  lemma {:induction false} PairCountAppend(regs: seq<Registration>, r: Registration, u: Id, t: Id)
    ensures PairCount(regs + [r], u, t)
         == PairCount(regs, u, t) + (if r.user == u && r.tournament == t then 1 else 0)
  {
    if |regs| == 0 {
      assert regs + [r] == [r];
    } else {
      assert (regs + [r])[1..] == regs[1..] + [r];
      PairCountAppend(regs[1..], r, u, t);
    }
  }

  /** A pair is registered exactly when it is counted at least once. */
  lemma {:induction false} PairCountPositive(regs: seq<Registration>, u: Id, t: Id)
    ensures PairCount(regs, u, t) > 0 <==> UserRegistered(regs, u, t)
  {
    if |regs| > 0 {
      PairCountPositive(regs[1..], u, t);
      if UserRegistered(regs[1..], u, t) {
        var i :| 0 <= i < |regs[1..]| && regs[1..][i].user == u && regs[1..][i].tournament == t;
        assert regs[i + 1] == regs[1..][i];
      }
      if UserRegistered(regs, u, t) && !(regs[0].user == u && regs[0].tournament == t) {
        var i :| 0 <= i < |regs| && regs[i].user == u && regs[i].tournament == t;
        assert regs[1..][i - 1] == regs[i];
      }
    }
  }
}

=== FILE: registration_service.dfy ===
/**
 * `createRegistration` (src/services/registration.service.js): an ordered chain
 * of checks, then a wallet debit and one new registration, all inside one
 * transaction that is aborted on any error.
 */
module RegistrationService {
  import opened Wrappers
  import opened Ids
  import opened Errors
  import opened TournamentModel
  import opened RegistrationModel
  import opened UserModel
  import opened TeamModel
  import opened Storage

  datatype Request = Request(user: Id, tournament: Id, team: Option<Id>)

  /** Team tournaments are those whose teams have more than one member. */
  predicate IsTeamTournament(t: Tournament) {
    t.teamSize > 1
  }

  /** The checks on the team named in a team-tournament registration. */
  function TeamCheck(s: Store, req: Request, t: Tournament): Option<ApiError>
    requires IsTeamTournament(t)
  {
    if req.team.None? then Some(Fail(400, TeamIdRequired))
    else if req.team.value !in s.teams then Some(Fail(404, TeamNotFound))
    else if req.user !in s.teams[req.team.value].members then Some(Fail(403, NotTeamMember))
    else if |s.teams[req.team.value].members| != t.teamSize then Some(Fail(400, WrongTeamSize))
    else if TeamRegistered(s.registrations, req.team.value, req.tournament) then
      Some(Fail(400, TeamAlreadyRegistered))
    else None
  }

  /** The first check that fails, in the order the service makes them. */
  function FirstFailure(s: Store, req: Request): Option<ApiError> {
    if req.tournament !in s.tournaments then Some(Fail(404, TournamentNotFound))
    else if req.user !in s.users then Some(Fail(404, UserNotFound))
    else
      var t := s.tournaments[req.tournament];
      var u := s.users[req.user];
      if t.status != RegistrationOpen then Some(Fail(400, RegistrationNotOpen))
      else if CountFor(s.registrations, req.tournament) >= t.maxParticipants then
        Some(Fail(400, TournamentFull))
      else if UserRegistered(s.registrations, req.user, req.tournament) then
        Some(Fail(400, AlreadyRegistered))
      else if IsTeamTournament(t) && TeamCheck(s, req, t).Some? then TeamCheck(s, req, t)
      else if !IsTeamTournament(t) && req.team.Some? then Some(Fail(400, IndividualTournament))
      else if t.entryFee > 0 && u.walletBalance < t.entryFee then Some(Fail(402, InsufficientFunds))
      else None
  }

  /** The registration document the service inserts. */
  function NewRegistration(req: Request, t: Tournament): Registration {
    Registration(
      req.user, req.tournament,
      if IsTeamTournament(t) then req.team else None,
      Registered,
      if t.entryFee > 0 then Paid else NotApplicable)
  }

  function CreateRegistration(s: Store, req: Request): (r: Reply<Registration>)
    ensures r.result.Err? ==> r.store == s
    ensures r.result.Ok? ==>
      && req.tournament in s.tournaments && req.user in s.users
      && s.tournaments[req.tournament].status == RegistrationOpen
      && CountFor(s.registrations, req.tournament) < s.tournaments[req.tournament].maxParticipants
      && !UserRegistered(s.registrations, req.user, req.tournament)
      && r.result.value.user == req.user && r.result.value.tournament == req.tournament
      && r.result.value.status == Registered
      && r.store.registrations == s.registrations + [r.result.value]
      && r.store.users.Keys == s.users.Keys
      && (forall id :: id in s.users && id != req.user ==> r.store.users[id] == s.users[id])
      && r.store.(users := s.users, registrations := s.registrations) == s
  {
    match FirstFailure(s, req)
    case Some(e) => Reply(s, Err(e))
    case None =>
      var t := s.tournaments[req.tournament];
      var u := s.users[req.user];
      var users := if t.entryFee > 0
        then s.users[req.user := u.(walletBalance := u.walletBalance - t.entryFee)]
        else s.users;
      var reg := NewRegistration(req, t);
      Reply(s.(users := users, registrations := s.registrations + [reg]), Ok(reg))
  }

  /** The failures come in the order: missing tournament, missing user, closed, full, duplicate. */
  lemma FailureOrder(s: Store, req: Request)
    ensures req.tournament !in s.tournaments ==>
      CreateRegistration(s, req).result == Err(Fail(404, TournamentNotFound))
    ensures (req.tournament in s.tournaments && req.user !in s.users) ==>
      CreateRegistration(s, req).result == Err(Fail(404, UserNotFound))
    ensures (req.tournament in s.tournaments && req.user in s.users
             && s.tournaments[req.tournament].status != RegistrationOpen) ==>
      CreateRegistration(s, req).result == Err(Fail(400, RegistrationNotOpen))
    ensures (req.tournament in s.tournaments && req.user in s.users
             && s.tournaments[req.tournament].status == RegistrationOpen
             && CountFor(s.registrations, req.tournament) >= s.tournaments[req.tournament].maxParticipants) ==>
      CreateRegistration(s, req).result == Err(Fail(400, TournamentFull))
    ensures (req.tournament in s.tournaments && req.user in s.users
             && s.tournaments[req.tournament].status == RegistrationOpen
             && CountFor(s.registrations, req.tournament) < s.tournaments[req.tournament].maxParticipants
             && UserRegistered(s.registrations, req.user, req.tournament)) ==>
      CreateRegistration(s, req).result == Err(Fail(400, AlreadyRegistered))
  {
  }

  /** In a team tournament success needs a team id, an existing team with the user in it, the exact size, and no earlier team entry. */
  lemma TeamRegistrationRequirements(s: Store, req: Request)
    requires req.tournament in s.tournaments && IsTeamTournament(s.tournaments[req.tournament])
    requires CreateRegistration(s, req).result.Ok?
    ensures req.team.Some? && req.team.value in s.teams
    ensures req.user in s.teams[req.team.value].members
    ensures |s.teams[req.team.value].members| == s.tournaments[req.tournament].teamSize
    ensures !TeamRegistered(s.registrations, req.team.value, req.tournament)
    ensures CreateRegistration(s, req).result.value.team == req.team
  {
  }

  /** An individual tournament refuses a team id, and its registrations carry no team. */
  lemma IndividualRegistration(s: Store, req: Request)
    requires req.tournament in s.tournaments && !IsTeamTournament(s.tournaments[req.tournament])
    ensures req.team.Some? ==> CreateRegistration(s, req).result.Err?
    ensures CreateRegistration(s, req).result.Ok? ==> CreateRegistration(s, req).result.value.team.None?
  {
  }

  /** Every check before the wallet check passes: the tournament is open with room, the user is new to it, and the team (or its absence) fits. */
  predicate EarlierChecksPass(s: Store, req: Request) {
    && req.tournament in s.tournaments && req.user in s.users
    && var t := s.tournaments[req.tournament];
    && t.status == RegistrationOpen
    && CountFor(s.registrations, req.tournament) < t.maxParticipants
    && !UserRegistered(s.registrations, req.user, req.tournament)
    && (IsTeamTournament(t) ==>
          && req.team.Some? && req.team.value in s.teams
          && req.user in s.teams[req.team.value].members
          && |s.teams[req.team.value].members| == t.teamSize
          && !TeamRegistered(s.registrations, req.team.value, req.tournament))
    && (!IsTeamTournament(t) ==> req.team.None?)
  }

  /**
   * The converse of the success contract: once every check passes and the
   * wallet covers any fee, the registration is created and appended.
   */
  lemma RegistersWhenChecksPass(s: Store, req: Request)
    requires EarlierChecksPass(s, req)
    requires var t := s.tournaments[req.tournament];
             t.entryFee > 0 ==> s.users[req.user].walletBalance >= t.entryFee
    ensures var t := s.tournaments[req.tournament];
            var r := CreateRegistration(s, req);
            && r.result == Ok(NewRegistration(req, t))
            && r.store.registrations == s.registrations + [NewRegistration(req, t)]
            && r.result.value.team == (if IsTeamTournament(t) then req.team else None)
  {
  }

  /** The entry fee: 402 when the wallet cannot cover it; otherwise exactly the fee is debited and the entry is paid. */
  lemma EntryFee(s: Store, req: Request)
    requires req.tournament in s.tournaments && req.user in s.users
    ensures var t := s.tournaments[req.tournament];
            var r := CreateRegistration(s, req);
            && (t.entryFee > 0 && s.users[req.user].walletBalance < t.entryFee ==> r.result.Err?)
            && (EarlierChecksPass(s, req) && t.entryFee > 0 && s.users[req.user].walletBalance < t.entryFee ==>
                  r == Reply(s, Err(Fail(402, InsufficientFunds))))
            && (r.result == Err(Fail(402, InsufficientFunds)) ==>
                  EarlierChecksPass(s, req) && t.entryFee > 0 && s.users[req.user].walletBalance < t.entryFee)
            && (r.result.Ok? && t.entryFee > 0 ==>
                  r.store.users[req.user] == s.users[req.user].(walletBalance := s.users[req.user].walletBalance - t.entryFee)
                  && r.result.value.paymentStatus == Paid)
            && (r.result.Ok? && t.entryFee <= 0 ==>
                  r.store.users == s.users && r.result.value.paymentStatus == NotApplicable)
  {
    var t := s.tournaments[req.tournament];
    if t.entryFee > 0 && s.users[req.user].walletBalance < t.entryFee {
      assert FirstFailure(s, req).Some?;
    }
  }

  /** A registration never drives a wallet below zero. */
  lemma WalletStaysNonNegative(s: Store, req: Request)
    requires req.user in s.users && s.users[req.user].walletBalance >= 0
    ensures CreateRegistration(s, req).store.users[req.user].walletBalance >= 0
  {
  }

  /** No tournament holds more registrations than its capacity. */
  predicate WithinCapacity(s: Store) {
    forall t :: t in s.tournaments ==> CountFor(s.registrations, t) <= s.tournaments[t].maxParticipants
  }

  /** No (user, tournament) pair is registered twice. */
  ghost predicate PairsUnique(s: Store) {
    forall u, t :: PairCount(s.registrations, u, t) <= 1
  }

  /** Registration keeps every tournament within its capacity. */
  lemma CreateKeepsCapacity(s: Store, req: Request)
    requires WithinCapacity(s)
    ensures WithinCapacity(CreateRegistration(s, req).store)
  {
    var r := CreateRegistration(s, req);
    if r.result.Ok? {
      forall t | t in r.store.tournaments
        ensures CountFor(r.store.registrations, t) <= r.store.tournaments[t].maxParticipants
      {
        CountAppend(s.registrations, r.result.value, t);
      }
    }
  }

  /** Registration never creates a second entry for the same user and tournament. */
  lemma CreateKeepsPairsUnique(s: Store, req: Request)
    requires PairsUnique(s)
    ensures PairsUnique(CreateRegistration(s, req).store)
  {
    var r := CreateRegistration(s, req);
    if r.result.Ok? {
      PairCountPositive(s.registrations, req.user, req.tournament);
      forall u, t ensures PairCount(r.store.registrations, u, t) <= 1 {
        PairCountAppend(s.registrations, r.result.value, u, t);
      }
    }
  }
}

=== FILE: storage.dfy ===
/**
 * The database as one immutable value: a map per collection keyed by
 * document id. Registrations are kept as a sequence in insertion order, since
 * the core only ever scans and counts them.
 */
module Storage {
  import opened Wrappers
  import opened Ids
  import opened Errors
  import opened TournamentModel
  import opened RegistrationModel
  import opened MatchModel
  import opened DisputeModel
  import opened UserModel
  import opened TeamModel
  import opened TransactionModel
  import opened GameModel

  datatype Store = Store(
    users: map<Id, User>,
    teams: map<Id, Team>,
    games: map<Id, Game>,
    tournaments: map<Id, Tournament>,
    registrations: seq<Registration>,
    matches: map<Id, Match>,
    brackets: map<Id, Bracket>,
    disputes: map<Id, Dispute>,
    transactions: map<Id, Transaction>)

  /** The store after an operation, and what the operation answered. */
  datatype Reply<T> = Reply(store: Store, result: Result<T, ApiError>)
}

=== FILE: team_model.dfy ===
/** Team documents (src/models/shared/Team.model.js). */
module TeamModel {
  import opened Ids
  import opened Text

  datatype TeamStats = TeamStats(wins: int, losses: int, tournamentsPlayed: int, rankPoints: int)

  datatype Team = Team(
    name: string,
    tag: string,
    game: Id,
    captain: Id,
    members: seq<Id>,
    stats: TeamStats,
    createdAt: Time)

  /** The captain validator: the captain's id is one of the member ids. */
  predicate CaptainIsMember(t: Team) {
    t.captain in t.members
  }

  /** Schema validation of one team document. */
  predicate SchemaValid(t: Team) {
    && 3 <= Utf16Length(t.name) <= 30
    && 2 <= Utf16Length(t.tag) <= 5
    && Upper(t.tag) == t.tag
    && CaptainIsMember(t)
  }

  /**
   * The unique indexes: no two teams share a tag, and no two teams of the same
   * game share a name.
   */
  predicate IndexesHold(teams: map<Id, Team>) {
    forall a, b :: a in teams && b in teams && a != b ==>
      teams[a].tag != teams[b].tag
      && (teams[a].name != teams[b].name || teams[a].game != teams[b].game)
  }

  const ZeroStats := TeamStats(0, 0, 0, 0)

  /** The `name` setter: `trim`. */
  function CastName(name: string): (r: string)
    ensures |r| <= |name| && (r == "" <==> Blank(name))
  {
    Trim(name)
  }

  /** The `tag` setters: `trim`, then `uppercase`. */
  function CastTag(tag: string): (r: string)
    ensures |r| == |Trim(tag)|
    ensures Upper(r) == r
  {
    UpperIdempotent(Trim(tag));
    Upper(Trim(tag))
  }

  /** The setters are stable: casting a stored name or tag again changes nothing. */
  lemma CastStable(name: string, tag: string)
    ensures CastName(CastName(name)) == CastName(name)
    ensures CastTag(CastTag(tag)) == CastTag(tag)
  {
    TrimIdempotent(name);
    var t := Trim(tag);
    var c := CastTag(tag);
    assert c == Upper(t);
    TrimOfUpper(t);
    assert Trim(c) == c;
    UpperIdempotent(t);
    assert CastTag(c) == Upper(Trim(c));
  }

  /** `new Team({...})`: name and tag pass through their setters and the stats start at zero. */
  function NewTeam(name: string, tag: string, game: Id, captain: Id, members: seq<Id>, now: Time): (t: Team)
    ensures t.name == CastName(name) && t.tag == CastTag(tag)
    ensures t.game == game && t.captain == captain && t.members == members
  {
    Team(CastName(name), CastTag(tag), game, captain, members, ZeroStats, now)
  }

  /**
   * A new team has zeroed stats and validates exactly when its trimmed name and
   * tag meet the length bounds, counted in UTF-16 code units as `maxlength`
   * counts them, and the captain is a member.
   */
  lemma NewTeamValid(name: string, tag: string, game: Id, captain: Id, members: seq<Id>, now: Time)
    ensures NewTeam(name, tag, game, captain, members, now).stats == TeamStats(0, 0, 0, 0)
    ensures SchemaValid(NewTeam(name, tag, game, captain, members, now)) <==>
      (3 <= Utf16Length(Trim(name)) <= 30 && 2 <= Utf16Length(Trim(tag)) <= 5 && captain in members)
  {
    var t := NewTeam(name, tag, game, captain, members, now);
    UpperKeepsUnits(Trim(tag));
    assert Utf16Length(t.tag) == Utf16Length(Trim(tag));
    assert t.name == Trim(name);
    CastStable(name, tag);
    assert Upper(t.tag) == t.tag;
  }

  /** Sixteen emoji are sixteen characters but 32 code units, over the name's limit of 30. */
  lemma EmojiNameTooLong(game: Id, captain: Id, now: Time)
    ensures var name := seq(16, _ => '\U{1F600}');
            |name| == 16 && !SchemaValid(NewTeam(name, "TAG", game, captain, [captain], now))
  {
    var name := seq(16, _ => '\U{1F600}');
    EmojiUnits(16);
    assert !IsSpace(name[0]) && !IsSpace(name[15]);
    TrimOfTrimmed(name);
  }

  /** Padding does not count towards the length: "  ab  " is trimmed to "ab" and is too short. */
  lemma PaddedShortNameRejected(game: Id, captain: Id, now: Time)
    ensures NewTeam("  ab  ", "TAG", game, captain, [captain], now).name == "ab"
    ensures !SchemaValid(NewTeam("  ab  ", "TAG", game, captain, [captain], now))
  {
    TrimPaddedAb();
  }

  lemma TrimPaddedAb()
    ensures Trim("  ab  ") == "ab"
  {
    TrimStartPaddedAb();
    TrimEndPaddedAb();
  }

  lemma TrimStartPaddedAb()
    ensures TrimStart("  ab  ") == "ab  "
  {
    var s0, s1, s2 := "  ab  ", " ab  ", "ab  ";
    assert IsSpace(s0[0]) && s0[1..] == s1;
    assert IsSpace(s1[0]) && s1[1..] == s2;
    assert !IsSpace(s2[0]);
  }

  lemma TrimEndPaddedAb()
    ensures TrimEnd("ab  ") == "ab"
  {
    var t0, t1, t2 := "ab  ", "ab ", "ab";
    assert IsSpace(t0[3]) && t0[..3] == t1;
    assert IsSpace(t1[2]) && t1[..2] == t2;
    assert !IsSpace(t2[1]);
  }
}

=== FILE: team_service.dfy ===
/**
 * src/services/team.service.js: team listing, the cache-aside team read, and
 * the update and delete that invalidate the cache. The cache is a map from
 * team id (the key `team:<id>`) to the cached team and its expiry time; every
 * cache command may fail, and a failure is only logged.
 */
module TeamService {
  import opened Wrappers
  import opened Ids
  import opened Errors
  import opened TeamModel
  import opened UserModel
  import opened RegistrationModel
  import opened Ordering
  import opened Pagination
  import opened Storage
  import opened Text

  const CachePrefix: string := "team:"
  const CacheTtlSeconds: int := 5 * 60
  const CacheTtlMs: int := CacheTtlSeconds * 1000

  datatype CacheEntry = CacheEntry(team: Team, expiresAt: Time)

  /** The cache, keyed by the team id that follows the prefix. */
  type Cache = map<Id, CacheEntry>

  /** Which cache commands fail during one call. */
  datatype CacheFaults = CacheFaults(getFails: bool, setFails: bool, delFails: bool)

  const NoFaults := CacheFaults(false, false, false)

  /** The store and the cache after a call, and its answer. */
  datatype CacheReply<T> = CacheReply(store: Store, cache: Cache, result: Result<T, ApiError>)

  /** An entry Redis still returns at time `now`. */
  predicate Live(c: Cache, id: Id, now: Time) {
    id in c && now < c[id].expiresAt
  }

  /** Every live cache entry holds the team as it is in the store. */
  predicate Coherent(s: Store, c: Cache, now: Time) {
    forall id :: id in c && now < c[id].expiresAt ==> id in s.teams && c[id].team == s.teams[id]
  }

  // ---------------------------------------------------------------------
  // queryTeams
  // ---------------------------------------------------------------------

  /** `if (filter.game) query.game = filter.game`. */
  predicate Matches(game: Option<Id>, t: Team) {
    game.None? || t.game == game.value
  }

  function MatchesGame(game: Option<Id>): Team -> bool {
    t => Matches(game, t)
  }

  predicate AllOfGame(ts: seq<Team>, game: Option<Id>) {
    forall k :: 0 <= k < |ts| ==> Matches(game, ts[k])
  }

  /** `.sort({ createdAt: -1 })` as an ascending key. */
  function NewestFirst(t: Team): int {
    -t.createdAt
  }

  function QueryTeams(docs: seq<Team>, game: Option<Id>, o: PageOptions): (p: Page<Team>)
    requires Valid(o)
    ensures p.page == o.page && p.limit == o.limit
    ensures |p.results| <= o.limit
    ensures AllOfGame(p.results, game)
    ensures forall i, j :: 0 <= i < j < |p.results| ==> p.results[i].createdAt >= p.results[j].createdAt
    ensures p.totalResults == |Filter(docs, MatchesGame(game))| <= |docs|
    ensures p.totalPages * o.limit >= p.totalResults && p.totalPages * o.limit < p.totalResults + o.limit
    ensures game.None? ==> p.totalResults == |docs|
  {
    var hits := Filter(docs, MatchesGame(game));
    var ordered := SortBy(hits, NewestFirst);
    QueryTeamsFacts(docs, game, o);
    assert |ordered| == |hits|;
    Paginate(ordered, o)
  }

  lemma QueryTeamsFacts(docs: seq<Team>, game: Option<Id>, o: PageOptions)
    requires Valid(o)
    ensures var p := Paginate(SortBy(Filter(docs, MatchesGame(game)), NewestFirst), o);
            && AllOfGame(p.results, game)
            && (forall i, j :: 0 <= i < j < |p.results| ==> p.results[i].createdAt >= p.results[j].createdAt)
            && (game.None? ==> |Filter(docs, MatchesGame(game))| == |docs|)
  {
    var hits := Filter(docs, MatchesGame(game));
    var ordered := SortBy(hits, NewestFirst);
    SortByKeepsProperty(hits, NewestFirst, MatchesGame(game));
    if game.None? {
      FilterAll(docs, MatchesGame(game));
    }
    QueryTeamsOrdered(ordered, o);
    QueryTeamsOfGame(ordered, game, o);
  }

  lemma QueryTeamsOrdered(ordered: seq<Team>, o: PageOptions)
    requires Valid(o) && SortedBy(ordered, NewestFirst)
    ensures var w := Window(ordered, o);
            forall i, j :: 0 <= i < j < |w| ==> w[i].createdAt >= w[j].createdAt
  {
    var w := Window(ordered, o);
    forall i, j | 0 <= i < j < |w| ensures w[i].createdAt >= w[j].createdAt {
      assert w[i] == ordered[Skip(o) + i] && w[j] == ordered[Skip(o) + j];
      assert NewestFirst(ordered[Skip(o) + i]) <= NewestFirst(ordered[Skip(o) + j]);
    }
  }

  lemma QueryTeamsOfGame(ordered: seq<Team>, game: Option<Id>, o: PageOptions)
    requires Valid(o) && forall k :: 0 <= k < |ordered| ==> MatchesGame(game)(ordered[k])
    ensures AllOfGame(Window(ordered, o), game)
  {
    var w := Window(ordered, o);
    forall k | 0 <= k < |w| ensures Matches(game, w[k]) {
      assert w[k] == ordered[Skip(o) + k];
      assert MatchesGame(game)(ordered[Skip(o) + k]);
    }
  }

  // ---------------------------------------------------------------------
  // getTeamById
  // ---------------------------------------------------------------------

  /**
   * Cache-aside read: a live entry is returned without touching the store; on
   * a miss (or a failed GET) the store is read, and a found team is cached for
   * five minutes unless the SETEX fails.
   */
  function GetTeam(s: Store, c: Cache, id: Id, now: Time, f: CacheFaults): (r: CacheReply<Team>)
    ensures r.store == s
    ensures !f.getFails && Live(c, id, now) ==> r.result == Ok(c[id].team) && r.cache == c
    ensures (f.getFails || !Live(c, id, now)) && id !in s.teams ==>
              r.result == Err(Fail(404, TeamNotFound)) && r.cache == c
    ensures (f.getFails || !Live(c, id, now)) && id in s.teams ==>
              && r.result == Ok(s.teams[id])
              && r.cache == if f.setFails then c else c[id := CacheEntry(s.teams[id], now + CacheTtlMs)]
  {
    if !f.getFails && Live(c, id, now) then CacheReply(s, c, Ok(c[id].team))
    else if id !in s.teams then CacheReply(s, c, Err(Fail(404, TeamNotFound)))
    else
      var team := s.teams[id];
      var c' := if f.setFails then c else c[id := CacheEntry(team, now + CacheTtlMs)];
      CacheReply(s, c', Ok(team))
  }

  /** A cache hit answers without reading the store: any two stores give the same answer. */
  lemma CacheHitIgnoresStore(s1: Store, s2: Store, c: Cache, id: Id, now: Time)
    requires Live(c, id, now)
    ensures GetTeam(s1, c, id, now, NoFaults).result == GetTeam(s2, c, id, now, NoFaults).result
  {
  }

  /** While the cache is coherent, a read returns the stored team and keeps the cache coherent, whichever commands fail. */
  lemma GetTeamFresh(s: Store, c: Cache, id: Id, now: Time, f: CacheFaults)
    requires Coherent(s, c, now)
    ensures id in s.teams ==> GetTeam(s, c, id, now, f).result == Ok(s.teams[id])
    ensures id !in s.teams ==> GetTeam(s, c, id, now, f).result == Err(Fail(404, TeamNotFound))
    ensures Coherent(s, GetTeam(s, c, id, now, f).cache, now)
  {
  }

  // ---------------------------------------------------------------------
  // updateTeamById
  // ---------------------------------------------------------------------

  /** The fields an update body may carry. */
  datatype TeamUpdate = TeamUpdate(
    name: Option<string>,
    tag: Option<string>,
    game: Option<Id>,
    captain: Option<Id>,
    members: Option<seq<Id>>)

  /**
   * The `$set` that `findByIdAndUpdate` performs; update casting runs the
   * setters, so the name is trimmed and the tag trimmed and upper-cased.
   */
  function ApplyUpdate(t: Team, u: TeamUpdate): (r: Team)
    ensures r.stats == t.stats && r.createdAt == t.createdAt
    ensures u.name.Some? ==> r.name == Trim(u.name.value)
    ensures u.tag.Some? ==> r.tag == Upper(Trim(u.tag.value))
  {
    t.(name := if u.name.Some? then CastName(u.name.value) else t.name,
       tag := if u.tag.Some? then CastTag(u.tag.value) else t.tag,
       game := u.game.GetOr(t.game),
       captain := u.captain.GetOr(t.captain),
       members := u.members.GetOr(t.members))
  }

  /**
   * Update validators (`runValidators: true`) check only the paths in the
   * update. The `members` validator reads `this.captain`, and in an update
   * validator `this` is not the document, so any update carrying `members`
   * throws inside the validator and is rejected. Nothing checks `captain`.
   */
  predicate UpdateValidates(u: TeamUpdate) {
    && (u.name.Some? ==> 3 <= Utf16Length(CastName(u.name.value)) <= 30)
    && (u.tag.Some? ==> 2 <= Utf16Length(CastTag(u.tag.value)) <= 5)
    && u.members.None?
  }

  /**
   * Validation runs before the lookup, so an invalid body is rejected even
   * for a missing team; a unique-index clash is raised by the write.
   */
  function UpdateTeam(s: Store, c: Cache, id: Id, u: TeamUpdate, f: CacheFaults): (r: CacheReply<Team>)
    ensures r.result.Err? ==> r.store == s && r.cache == c
    ensures UpdateValidates(u) && id !in s.teams ==> r.result == Err(Fail(404, TeamNotFound))
    ensures !UpdateValidates(u) ==> r.result == Err(Crash(SaveRejected))
    ensures r.result.Ok? ==>
              && id in s.teams
              && r.result.value == ApplyUpdate(s.teams[id], u)
              && r.store == s.(teams := s.teams[id := r.result.value])
              && IndexesHold(r.store.teams)
    ensures r.result.Ok? ==> r.cache == if f.delFails then c else c - {id}
    ensures r.result.Ok? <==>
              UpdateValidates(u) && id in s.teams && IndexesHold(s.teams[id := ApplyUpdate(s.teams[id], u)])
  {
    if !UpdateValidates(u) then CacheReply(s, c, Err(Crash(SaveRejected)))
    else if id !in s.teams then CacheReply(s, c, Err(Fail(404, TeamNotFound)))
    else
      var next := ApplyUpdate(s.teams[id], u);
      var teams := s.teams[id := next];
      if !IndexesHold(teams) then CacheReply(s, c, Err(Crash(SaveRejected)))
      else CacheReply(s.(teams := teams), if f.delFails then c else c - {id}, Ok(next))
  }

  /** With a working DEL, an update keeps the cache coherent. */
  lemma UpdateKeepsCoherence(s: Store, c: Cache, id: Id, u: TeamUpdate, now: Time, f: CacheFaults)
    requires Coherent(s, c, now) && !f.delFails
    ensures var r := UpdateTeam(s, c, id, u, f);
            Coherent(r.store, r.cache, now)
  {
  }

  /** Cache failures never change what an update does to the store or answers. */
  lemma UpdateIgnoresCacheFaults(s: Store, c: Cache, id: Id, u: TeamUpdate, f: CacheFaults)
    ensures UpdateTeam(s, c, id, u, f).store == UpdateTeam(s, c, id, u, NoFaults).store
    ensures UpdateTeam(s, c, id, u, f).result == UpdateTeam(s, c, id, u, NoFaults).result
  {
  }

  /** A failed DEL leaves the old team in the cache, and the next read returns it. */
  lemma StaleReadAfterFailedInvalidation(s: Store, c: Cache, id: Id, u: TeamUpdate, now: Time)
    requires Live(c, id, now) && Coherent(s, c, now)
    requires UpdateTeam(s, c, id, u, CacheFaults(false, false, true)).result.Ok?
    ensures var r := UpdateTeam(s, c, id, u, CacheFaults(false, false, true));
            GetTeam(r.store, r.cache, id, now, NoFaults).result == Ok(s.teams[id])
  {
  }

  /**
   * Nothing validates `captain` on update, so a valid team can be given a
   * captain outside its members.
   */
  lemma UpdateCanMoveCaptainOut(s: Store, c: Cache, id: Id, outsider: Id)
    requires id in s.teams && TeamModel.SchemaValid(s.teams[id]) && IndexesHold(s.teams)
    requires outsider !in s.teams[id].members
    ensures var r := UpdateTeam(s, c, id, TeamUpdate(None, None, None, Some(outsider), None), NoFaults);
            r.result.Ok? && !CaptainIsMember(r.store.teams[id])
  {
    var next := ApplyUpdate(s.teams[id], TeamUpdate(None, None, None, Some(outsider), None));
    var teams := s.teams[id := next];
    forall a, b | a in teams && b in teams && a != b
      ensures teams[a].tag != teams[b].tag && (teams[a].name != teams[b].name || teams[a].game != teams[b].game)
    {
      assert teams[a].tag == s.teams[a].tag && teams[a].name == s.teams[a].name && teams[a].game == s.teams[a].game;
      assert teams[b].tag == s.teams[b].tag && teams[b].name == s.teams[b].name && teams[b].game == s.teams[b].game;
    }
  }

  // ---------------------------------------------------------------------
  // deleteTeamById
  // ---------------------------------------------------------------------

  /**
   * `Registration.findOne({ team, status: { $in: ['playing', 'active'] } })`:
   * `active` is not a registration status, so only `playing` can match.
   */
  predicate Playing(regs: seq<Registration>, team: Id) {
    exists k :: 0 <= k < |regs| && regs[k].team == Some(team) && regs[k].status.Playing?
  }

  /** `$pull: { teams: teamId }` on the users listed as members. */
  function PullTeam(users: map<Id, User>, members: seq<Id>, team: Id): (r: map<Id, User>)
    ensures r.Keys == users.Keys
    ensures forall u :: u in users && u in members ==> r[u] == users[u].(teams := Without(users[u].teams, team))
    ensures forall u :: u in users && u !in members ==> r[u] == users[u]
  {
    map u | u in users :: if u in members then users[u].(teams := Without(users[u].teams, team)) else users[u]
  }

  /**
   * Delete a team in a transaction. `storageFault` stands for a failure of
   * the pull or the removal, which aborts and is answered with 500; a failed
   * DEL of the cache key is only logged.
   */
  function DeleteTeam(s: Store, c: Cache, id: Id, f: CacheFaults, storageFault: bool): (r: CacheReply<()>)
    ensures r.result.Err? ==> r.store == s && r.cache == c
    ensures id !in s.teams ==> r.result == Err(Fail(404, TeamNotFound))
    ensures id in s.teams && Playing(s.registrations, id) ==> r.result == Err(Fail(400, TeamInActiveTournament))
    ensures id in s.teams && !Playing(s.registrations, id) && storageFault ==> r.result == Err(Fail(500, StorageFailure))
    ensures r.result.Ok? <==> id in s.teams && !Playing(s.registrations, id) && !storageFault
    ensures r.result.Ok? ==>
              && r.store == s.(teams := s.teams - {id}, users := PullTeam(s.users, s.teams[id].members, id))
              && r.cache == if f.delFails then c else c - {id}
  {
    if id !in s.teams then CacheReply(s, c, Err(Fail(404, TeamNotFound)))
    else if Playing(s.registrations, id) then CacheReply(s, c, Err(Fail(400, TeamInActiveTournament)))
    else if storageFault then CacheReply(s, c, Err(Fail(500, StorageFailure)))
    else
      var team := s.teams[id];
      CacheReply(s.(teams := s.teams - {id}, users := PullTeam(s.users, team.members, id)),
                 if f.delFails then c else c - {id}, Ok(()))
  }

  /** After a delete no member lists the team, and a read of it answers 404 unless a stale entry survived a failed DEL. */
  lemma DeleteTeamEffects(s: Store, c: Cache, id: Id, now: Time)
    requires DeleteTeam(s, c, id, NoFaults, false).result.Ok?
    requires Coherent(s, c, now)
    ensures var r := DeleteTeam(s, c, id, NoFaults, false);
            && id !in r.store.teams
            && (forall u :: u in r.store.users && u in s.teams[id].members ==> id !in r.store.users[u].teams)
            && Coherent(r.store, r.cache, now)
            && GetTeam(r.store, r.cache, id, now, NoFaults).result == Err(Fail(404, TeamNotFound))
  {
  }
}

=== FILE: text.dfy ===
/**
 * The string operations the schemas' setters and the request sanitizers apply:
 * `String.prototype.trim`, `toLowerCase` and `toUpperCase`. Whitespace is the
 * set `\s` and `trim` share in JavaScript; case mapping covers the ASCII letters.
 */
module Text {

  /** The characters `\s` matches and `trim` removes in JavaScript. */
  predicate IsSpace(c: char) {
    c == ' ' || c == '\t' || c == '\n' || c == '\U{000B}' || c == '\U{000C}' || c == '\r'
    || c == '\U{00A0}' || c == '\U{1680}' || ('\U{2000}' <= c <= '\U{200A}')
    || c == '\U{2028}' || c == '\U{2029}' || c == '\U{202F}' || c == '\U{205F}'
    || c == '\U{3000}' || c == '\U{FEFF}'
  }

  predicate Blank(s: string) {
    forall i :: 0 <= i < |s| ==> IsSpace(s[i])
  }

  predicate NoSpace(s: string) {
    forall i :: 0 <= i < |s| ==> !IsSpace(s[i])
  }

  // ---------------------------------------------------------------------
  // Case mapping
  // ---------------------------------------------------------------------

  function LowerChar(c: char): char {
    if 'A' <= c <= 'Z' then (c as int - 'A' as int + 'a' as int) as char else c
  }

  function UpperChar(c: char): char {
    if 'a' <= c <= 'z' then (c as int - 'a' as int + 'A' as int) as char else c
  }

  function Lower(s: string): (r: string)
    ensures |r| == |s|
    ensures forall i :: 0 <= i < |s| ==> r[i] == LowerChar(s[i])
  {
    if |s| == 0 then "" else [LowerChar(s[0])] + Lower(s[1..])
  }

  function Upper(s: string): (r: string)
    ensures |r| == |s|
    ensures forall i :: 0 <= i < |s| ==> r[i] == UpperChar(s[i])
  {
    if |s| == 0 then "" else [UpperChar(s[0])] + Upper(s[1..])
  }

  /** Upper-casing twice is the same as once, so an upper-case setter is stable on re-save. */
  lemma UpperIdempotent(s: string)
    ensures Upper(Upper(s)) == Upper(s)
  {
    assert forall i :: 0 <= i < |s| ==> UpperChar(UpperChar(s[i])) == UpperChar(s[i]);
  }

  lemma LowerIdempotent(s: string)
    ensures Lower(Lower(s)) == Lower(s)
  {
    assert forall i :: 0 <= i < |s| ==> LowerChar(LowerChar(s[i])) == LowerChar(s[i]);
  }

  // ---------------------------------------------------------------------
  // `trim`
  // ---------------------------------------------------------------------

  function TrimStart(s: string): (r: string)
    ensures |r| <= |s| && r == s[|s| - |r|..]
    ensures |r| > 0 ==> !IsSpace(r[0])
    ensures forall i :: 0 <= i < |s| - |r| ==> IsSpace(s[i])
  {
    if |s| > 0 && IsSpace(s[0]) then
      var r := TrimStart(s[1..]);
      assert forall i :: 1 <= i < |s| - |r| ==> s[i] == s[1..][i - 1];
      r
    else s
  }

  function TrimEnd(s: string): (r: string)
    ensures |r| <= |s| && r == s[..|r|]
    ensures |r| > 0 ==> !IsSpace(r[|r| - 1])
    ensures forall i :: |r| <= i < |s| ==> IsSpace(s[i])
  {
    if |s| > 0 && IsSpace(s[|s| - 1]) then
      var r := TrimEnd(s[..|s| - 1]);
      assert forall i :: |r| <= i < |s| - 1 ==> s[i] == s[..|s| - 1][i];
      r
    else s
  }

  /** `String.prototype.trim`. */
  function Trim(s: string): (r: string)
    ensures |r| <= |s|
    ensures r == "" <==> Blank(s)
    ensures |r| > 0 ==> !IsSpace(r[0]) && !IsSpace(r[|r| - 1])
  {
    var a := TrimStart(s);
    var r := TrimEnd(a);
    TrimBlank(s, a, r);
    r
  }

  lemma TrimBlank(s: string, a: string, r: string)
    requires a == TrimStart(s) && r == TrimEnd(a)
    ensures r == "" <==> Blank(s)
  {
    if r == "" {
      assert a == "";
    }
  }

  /** Text without whitespace at either end is its own trim. */
  lemma TrimOfTrimmed(s: string)
    requires |s| > 0 ==> !IsSpace(s[0]) && !IsSpace(s[|s| - 1])
    ensures Trim(s) == s
  {
  }

  /** Trimming twice is the same as once, so a trim setter is stable on re-save. */
  lemma TrimIdempotent(s: string)
    ensures Trim(Trim(s)) == Trim(s)
  {
    TrimOfTrimmed(Trim(s));
  }

  /** Upper-casing trimmed text leaves it trimmed. */
  lemma TrimOfUpper(t: string)
    requires |t| > 0 ==> !IsSpace(t[0]) && !IsSpace(t[|t| - 1])
    ensures Trim(Upper(t)) == Upper(t)
  {
    var u := Upper(t);
    if |u| > 0 {
      assert u[0] == UpperChar(t[0]);
      assert !IsSpace(u[0]);
      assert !IsSpace(u[|u| - 1]);
    }
    TrimOfTrimmed(u);
  }

  /** Lower-casing trimmed text leaves it trimmed. */
  lemma TrimOfLower(t: string)
    requires |t| > 0 ==> !IsSpace(t[0]) && !IsSpace(t[|t| - 1])
    ensures Trim(Lower(t)) == Lower(t)
  {
    var u := Lower(t);
    if |u| > 0 {
      assert u[0] == LowerChar(t[0]);
      assert !IsSpace(u[0]);
      assert !IsSpace(u[|u| - 1]);
    }
    TrimOfTrimmed(u);
  }

  /** Case mapping touches only letters, so it neither makes nor removes whitespace. */
  lemma UpperCharKeepsSpace(c: char)
    ensures IsSpace(UpperChar(c)) <==> IsSpace(c)
  {
  }

  lemma {:induction false} TrimStartOfUpper(s: string)
    ensures TrimStart(Upper(s)) == Upper(TrimStart(s))
    decreases |s|
  {
    if |s| > 0 {
      UpperCharKeepsSpace(s[0]);
      assert Upper(s)[1..] == Upper(s[1..]);
      if IsSpace(s[0]) {
        TrimStartOfUpper(s[1..]);
      }
    }
  }

  lemma {:induction false} TrimEndOfUpper(s: string)
    ensures TrimEnd(Upper(s)) == Upper(TrimEnd(s))
    decreases |s|
  {
    if |s| > 0 {
      UpperCharKeepsSpace(s[|s| - 1]);
      assert Upper(s)[..|s| - 1] == Upper(s[..|s| - 1]);
      if IsSpace(s[|s| - 1]) {
        TrimEndOfUpper(s[..|s| - 1]);
      }
    }
  }

  /** Trimming and upper-casing commute. */
  lemma TrimUpperCommute(s: string)
    ensures Trim(Upper(s)) == Upper(Trim(s))
  {
    TrimStartOfUpper(s);
    TrimEndOfUpper(TrimStart(s));
  }

  /** Lower-casing forgets an earlier upper-casing. */
  lemma LowerOfUpper(s: string)
    ensures Lower(Upper(s)) == Lower(s)
  {
    assert forall i :: 0 <= i < |s| ==> LowerChar(UpperChar(s[i])) == LowerChar(s[i]);
  }

  /** `trim` then `lowercase`, the setters of normalised fields such as an email address. */
  function TrimLower(s: string): (r: string)
    ensures |r| == |Trim(s)|
  {
    Lower(Trim(s))
  }

  /** The trim-and-lower-case setter is stable: a stored value casts to itself. */
  lemma TrimLowerStable(s: string)
    ensures TrimLower(TrimLower(s)) == TrimLower(s)
    ensures Lower(TrimLower(s)) == TrimLower(s) && Trim(TrimLower(s)) == TrimLower(s)
  {
    var t := Trim(s);
    TrimOfLower(t);
    LowerIdempotent(t);
    var c := TrimLower(s);
    assert c == Lower(t);
    assert TrimLower(c) == Lower(Trim(c));
  }

  // ---------------------------------------------------------------------
  // Lengths
  // ---------------------------------------------------------------------

  /** A character outside the Basic Multilingual Plane, stored as a surrogate pair in UTF-16. */
  predicate Astral(c: char) {
    c as int > 0xFFFF
  }

  function Units(c: char): nat {
    if Astral(c) then 2 else 1
  }

  /**
   * JavaScript's `length`, which the schemas' `minlength` and `maxlength`
   * test: UTF-16 code units, two for every astral character.
   */
  function Utf16Length(s: string): (n: nat)
    ensures |s| <= n <= 2 * |s|
  {
    if |s| == 0 then 0 else Units(s[0]) + Utf16Length(s[1..])
  }

  /**
   * The length validator.js's `isLength` compares: `length` less one per
   * surrogate pair and one per variation selector U+FE0E or U+FE0F.
   */
  function IsLengthCount(s: string): (n: nat)
    ensures n <= |s|
  {
    if |s| == 0 then 0
    else (if s[0] == '\U{FE0E}' || s[0] == '\U{FE0F}' then 0 else 1) + IsLengthCount(s[1..])
  }

  /** Code units add up over a concatenation. */
  lemma {:induction false} Utf16LengthAppend(a: string, b: string)
    ensures Utf16Length(a + b) == Utf16Length(a) + Utf16Length(b)
    decreases |a|
  {
    if |a| > 0 {
      assert (a + b)[1..] == a[1..] + b;
      Utf16LengthAppend(a[1..], b);
    } else {
      assert a + b == b;
    }
  }

  /** The two counts agree exactly on text without astral characters. */
  lemma {:induction false} Utf16LengthIsSize(s: string)
    ensures Utf16Length(s) == |s| <==> forall i :: 0 <= i < |s| ==> !Astral(s[i])
    decreases |s|
  {
    if |s| > 0 {
      Utf16LengthIsSize(s[1..]);
      assert forall i :: 1 <= i < |s| ==> s[i] == s[1..][i - 1];
    }
  }

  /** ASCII case mapping never changes a character's code units. */
  lemma {:induction false} UpperKeepsUnits(s: string)
    ensures Utf16Length(Upper(s)) == Utf16Length(s)
    decreases |s|
  {
    if |s| > 0 {
      assert Upper(s)[1..] == Upper(s[1..]);
      UpperKeepsUnits(s[1..]);
    }
  }

  lemma {:induction false} LowerKeepsUnits(s: string)
    ensures Utf16Length(Lower(s)) == Utf16Length(s)
    decreases |s|
  {
    if |s| > 0 {
      assert Lower(s)[1..] == Lower(s[1..]);
      LowerKeepsUnits(s[1..]);
    }
  }

  /** One emoji is one character but two code units. */
  lemma EmojiUnits(n: nat)
    ensures var s := seq(n, _ => '\U{1F600}');
            |s| == n && Utf16Length(s) == 2 * n && IsLengthCount(s) == n
  {
    var s := seq(n, _ => '\U{1F600}');
    if n > 0 {
      assert s[1..] == seq(n - 1, _ => '\U{1F600}');
      EmojiUnits(n - 1);
    }
  }
}

=== FILE: tournament_model.dfy ===
/** Tournament and Bracket documents (src/models/tournament/Tournament.model.js, Bracket.model.js). */
module TournamentModel {
  import opened Wrappers
  import opened Ids
  import opened Text

  datatype TournamentStatus = Draft | RegistrationOpen | RegistrationClosed | Active | Completed | Canceled

  /** The five structures the request validator knows. */
  datatype Structure = SingleElimination | DoubleElimination | RoundRobin | Swiss | BattleRoyale

  datatype PrizeType = WalletCredit | VirtualItem | PhysicalItem | OtherPrize

  datatype Prize = Prize(kind: PrizeType, amount: Option<int>, itemName: Option<string>, description: string)

  datatype PrizeTier = PrizeTier(rank: int, prizes: seq<Prize>)

  datatype Tournament = Tournament(
    name: string,
    game: Id,
    status: TournamentStatus,
    structure: Structure,
    teamSize: int,
    maxParticipants: int,
    rules: string,
    registrationStart: Time,
    registrationEnd: Time,
    checkInStart: Time,
    tournamentStart: Time,
    entryFee: int,
    prizeStructure: seq<PrizeTier>,
    organizer: Id)

  /** A bracket holds no structure of its own; it only points at its tournament. */
  datatype Bracket = Bracket(tournament: Id, isCompleted: bool)

  /** The schema's `structure` enum lists four values: battle_royale is missing. */
  predicate SchemaStructure(s: Structure) {
    s != BattleRoyale
  }

  /** Mongoose schema validation of a tournament document on create and save. */
  predicate SchemaValid(t: Tournament) {
    && t.name != "" && Utf16Length(t.name) <= 100
    && SchemaStructure(t.structure)
    && t.teamSize >= 1
    && t.rules != ""
    && forall i, j :: 0 <= i < |t.prizeStructure| && 0 <= j < |t.prizeStructure[i].prizes| ==>
         t.prizeStructure[i].prizes[j].description != ""
  }
}

=== FILE: tournament_scheduler.dfy ===
/**
 * src/jobs/tournament.scheduler.js: the once-a-minute cycle that opens
 * registration for drafts whose registration start has passed, then closes
 * registration for open tournaments whose registration end has passed. Both
 * steps are one `updateMany` over the tournament collection.
 */
module TournamentScheduler {
  import opened Ids
  import opened TournamentModel

  /** `{ status: 'draft', registrationStartDate: { $lte: now } }`. */
  predicate DueToOpen(t: Tournament, now: Time) {
    t.status.Draft? && t.registrationStart <= now
  }

  /** `{ status: 'registration_open', registrationEndDate: { $lte: now } }`. */
  predicate DueToClose(t: Tournament, now: Time) {
    t.status.RegistrationOpen? && t.registrationEnd <= now
  }

  function OpenRegistrations(ts: map<Id, Tournament>, now: Time): (r: map<Id, Tournament>)
    ensures r.Keys == ts.Keys
    ensures forall k :: k in ts && DueToOpen(ts[k], now) ==> r[k] == ts[k].(status := RegistrationOpen)
    ensures forall k :: k in ts && !DueToOpen(ts[k], now) ==> r[k] == ts[k]
  {
    map k | k in ts :: if DueToOpen(ts[k], now) then ts[k].(status := RegistrationOpen) else ts[k]
  }

  function CloseRegistrations(ts: map<Id, Tournament>, now: Time): (r: map<Id, Tournament>)
    ensures r.Keys == ts.Keys
    ensures forall k :: k in ts && DueToClose(ts[k], now) ==> r[k] == ts[k].(status := RegistrationClosed)
    ensures forall k :: k in ts && !DueToClose(ts[k], now) ==> r[k] == ts[k]
  {
    map k | k in ts :: if DueToClose(ts[k], now) then ts[k].(status := RegistrationClosed) else ts[k]
  }

  /**
   * One scheduler run: open first, then close. Each step reads its own clock
   * (`new Date()` in each handler); `ClockedCycle` keeps the two readings
   * apart, and `Cycle` is the case where both read the same instant.
   */
  function ClockedCycle(ts: map<Id, Tournament>, openNow: Time, closeNow: Time): (r: map<Id, Tournament>)
    ensures r.Keys == ts.Keys
  {
    CloseRegistrations(OpenRegistrations(ts, openNow), closeNow)
  }

  /** A run with a single clock reading for both steps. */
  function Cycle(ts: map<Id, Tournament>, now: Time): (r: map<Id, Tournament>)
    ensures r.Keys == ts.Keys
  {
    ClockedCycle(ts, now, now)
  }

  /** Where a cycle leaves a single tournament; only the status can change. */
  lemma CycleOutcome(ts: map<Id, Tournament>, now: Time, k: Id)
    requires k in ts
    ensures var t := ts[k];
            var c := Cycle(ts, now)[k];
            && c == t.(status := c.status)
            && (t.status.Draft? && t.registrationStart <= now && t.registrationEnd <= now ==> c.status == RegistrationClosed)
            && (t.status.Draft? && t.registrationStart <= now && t.registrationEnd > now ==> c.status == RegistrationOpen)
            && (t.status.Draft? && t.registrationStart > now ==> c.status == Draft)
            && (t.status.RegistrationOpen? && t.registrationEnd <= now ==> c.status == RegistrationClosed)
            && (t.status.RegistrationOpen? && t.registrationEnd > now ==> c.status == RegistrationOpen)
            && (!t.status.Draft? && !t.status.RegistrationOpen? ==> c == t)
  {
  }

  /** For a fixed `now`, a second run changes nothing. */
  lemma CycleIdempotent(ts: map<Id, Tournament>, now: Time)
    ensures Cycle(Cycle(ts, now), now) == Cycle(ts, now)
  {
    var once := Cycle(ts, now);
    var twice := Cycle(once, now);
    forall k | k in ts ensures twice[k] == once[k] {
      CycleOutcome(ts, now, k);
      CycleOutcome(once, now, k);
    }
  }

  /** Registration only moves forward: draft, then open, then closed. */
  function Stage(st: TournamentStatus): int {
    match st
    case Draft => 0
    case RegistrationOpen => 1
    case RegistrationClosed => 2
    case _ => 3
  }

  lemma CycleMovesForward(ts: map<Id, Tournament>, now: Time, k: Id)
    requires k in ts
    ensures Stage(ts[k].status) <= Stage(Cycle(ts, now)[k].status)
    ensures Stage(ts[k].status) == 3 ==> Cycle(ts, now)[k] == ts[k]
  {
    CycleOutcome(ts, now, k);
  }

  /** With a later clock a cycle never leaves a tournament behind an earlier one's result. */
  lemma CycleMonotoneInTime(ts: map<Id, Tournament>, now: Time, later: Time, k: Id)
    requires k in ts && now <= later
    ensures Stage(Cycle(ts, now)[k].status) <= Stage(Cycle(ts, later)[k].status)
  {
    CycleOutcome(ts, now, k);
    CycleOutcome(ts, later, k);
  }

  /**
   * The close step's clock is read after the open step's: the real run lands
   * between a single-clock run at the first reading and one at the second.
   */
  lemma ClockedCycleBetween(ts: map<Id, Tournament>, openNow: Time, closeNow: Time, k: Id)
    requires k in ts && openNow <= closeNow
    ensures Stage(Cycle(ts, openNow)[k].status) <= Stage(ClockedCycle(ts, openNow, closeNow)[k].status)
    ensures Stage(ClockedCycle(ts, openNow, closeNow)[k].status) <= Stage(Cycle(ts, closeNow)[k].status)
    ensures ClockedCycle(ts, openNow, closeNow)[k] == ts[k].(status := ClockedCycle(ts, openNow, closeNow)[k].status)
  {
    CycleOutcome(ts, openNow, k);
    CycleOutcome(ts, closeNow, k);
  }
}

=== FILE: tournament_service.dfy ===
/**
 * src/services/tournament.service.js: the public tournament listing, creation
 * with its date checks, updates under the restricted-field rule, and deletion
 * with a cascade over everything that belongs to the tournament.
 */
module TournamentService {
  import opened Wrappers
  import opened Ids
  import opened Errors
  import opened TournamentModel
  import opened RegistrationModel
  import MatchModel
  import DisputeModel
  import opened GameModel
  import opened Ordering
  import opened Pagination
  import opened Storage
  import opened Text

  // ---------------------------------------------------------------------
  // queryTournaments
  // ---------------------------------------------------------------------

  /** The statuses the public listing shows: drafts and canceled tournaments stay hidden. */
  predicate ListedStatus(st: TournamentStatus) {
    st.RegistrationOpen? || st.RegistrationClosed? || st.Active? || st.Completed?
  }

  predicate Listed(t: Tournament) {
    ListedStatus(t.status)
  }

  /** `$sort: { tournamentStartDate: -1 }` as an ascending key. */
  function LatestFirst(t: Tournament): int {
    -t.tournamentStart
  }

  /** The projected listing row, with the looked-up game's name in place of its id. */
  datatype TournamentSummary = TournamentSummary(
    name: string,
    status: TournamentStatus,
    tournamentStart: Time,
    entryFee: int,
    maxParticipants: int,
    gameName: string)

  function Summarize(t: Tournament, g: Game): (r: TournamentSummary)
    ensures r.status == t.status && r.tournamentStart == t.tournamentStart
    ensures r.name == t.name && r.gameName == g.name
  {
    TournamentSummary(t.name, t.status, t.tournamentStart, t.entryFee, t.maxParticipants, g.name)
  }

  /** `$lookup` followed by `$unwind` of the game: a row whose game is missing disappears. */
  function Unwind(window: seq<Tournament>, games: map<Id, Game>): (r: seq<TournamentSummary>)
    ensures |r| <= |window|
    ensures (forall k :: 0 <= k < |window| ==> window[k].game in games) ==> |r| == |window|
  {
    var known := Filter(window, (t: Tournament) => t.game in games);
    KnownAll(window, games);
    seq(|known|, i requires 0 <= i < |known| => Summarize(known[i], games[known[i].game]))
  }

  lemma KnownAll(window: seq<Tournament>, games: map<Id, Game>)
    ensures (forall k :: 0 <= k < |window| ==> window[k].game in games) ==>
              |Filter(window, (t: Tournament) => t.game in games)| == |window|
  {
    if forall k :: 0 <= k < |window| ==> window[k].game in games {
      FilterAll(window, (t: Tournament) => t.game in games);
    }
  }

  /** The listed tournaments, latest start first. */
  function Listing(docs: seq<Tournament>): (r: seq<Tournament>)
    ensures SortedBy(r, LatestFirst)
    ensures forall k :: 0 <= k < |r| ==> Listed(r[k])
    ensures multiset(r) <= multiset(docs)
  {
    var hits := Filter(docs, Listed);
    SortByKeepsProperty(hits, LatestFirst, Listed);
    SortBy(hits, LatestFirst)
  }

  /**
   * One page of the listing. The count is taken before the game lookup, so a
   * page may hold fewer rows than the count promises when a game was deleted.
   */
  function QueryTournaments(docs: seq<Tournament>, games: map<Id, Game>, o: PageOptions): (p: Page<TournamentSummary>)
    requires Valid(o)
    ensures p.page == o.page && p.limit == o.limit
    ensures |p.results| <= o.limit
    ensures forall k :: 0 <= k < |p.results| ==> ListedStatus(p.results[k].status)
    ensures forall i, j :: 0 <= i < j < |p.results| ==> p.results[i].tournamentStart >= p.results[j].tournamentStart
    ensures p.totalResults == |Filter(docs, Listed)| <= |docs|
    ensures p.totalPages * o.limit >= p.totalResults && p.totalPages * o.limit < p.totalResults + o.limit
    ensures p.totalResults == 0 ==> p.totalPages == 0 && p.results == []
    ensures (forall k :: 0 <= k < |docs| ==> docs[k].game in games) ==>
              |p.results| == if Skip(o) >= p.totalResults then 0
                             else if Skip(o) + o.limit <= p.totalResults then o.limit
                             else p.totalResults - Skip(o)
  {
    var listed := Listing(docs);
    var window := Window(listed, o);
    WindowFacts(listed, o, games);
    ListingCount(docs, games);
    Page(Unwind(window, games), o.page, o.limit, CeilDiv(|listed|, o.limit), |listed|)
  }

  lemma ListingCount(docs: seq<Tournament>, games: map<Id, Game>)
    ensures |Listing(docs)| == |Filter(docs, Listed)| <= |docs|
    ensures (forall k :: 0 <= k < |docs| ==> docs[k].game in games) ==>
              forall k :: 0 <= k < |Listing(docs)| ==> Listing(docs)[k].game in games
  {
    var r := Listing(docs);
    assert |r| == |SortBy(Filter(docs, Listed), LatestFirst)|;
    if forall k :: 0 <= k < |docs| ==> docs[k].game in games {
      forall k | 0 <= k < |r| ensures r[k].game in games {
        assert r[k] in multiset(r);
        assert r[k] in multiset(docs);
        assert r[k] in docs;
      }
    }
  }

  /** What the unwound window inherits from the sorted, filtered listing. */
  lemma WindowFacts(listed: seq<Tournament>, o: PageOptions, games: map<Id, Game>)
    requires Valid(o)
    requires SortedBy(listed, LatestFirst)
    requires forall k :: 0 <= k < |listed| ==> Listed(listed[k])
    ensures var r := Unwind(Window(listed, o), games);
            && (forall k :: 0 <= k < |r| ==> ListedStatus(r[k].status))
            && (forall i, j :: 0 <= i < j < |r| ==> r[i].tournamentStart >= r[j].tournamentStart)
    ensures (forall k :: 0 <= k < |listed| ==> listed[k].game in games) ==>
              forall k :: 0 <= k < |Window(listed, o)| ==> Window(listed, o)[k].game in games
  {
    var w := Window(listed, o);
    assert SortedBy(w, LatestFirst) by {
      forall i, j | 0 <= i < j < |w| ensures LatestFirst(w[i]) <= LatestFirst(w[j]) {
        assert w[i] == listed[Skip(o) + i] && w[j] == listed[Skip(o) + j];
      }
    }
    var keep := (t: Tournament) => t.game in games;
    var known := Filter(w, keep);
    FilterSorted(w, LatestFirst, keep);
    forall k | 0 <= k < |known| ensures Listed(known[k]) {
      assert known[k] in multiset(known);
      assert known[k] in multiset(w);
      assert known[k] in w;
    }
    var r := Unwind(w, games);
    assert |r| == |known|;
    forall i, j | 0 <= i < j < |r| ensures r[i].tournamentStart >= r[j].tournamentStart {
      assert LatestFirst(known[i]) <= LatestFirst(known[j]);
    }
  }

  /** A listed tournament is counted, and one that is not listed never shows up. */
  lemma ListedIffCounted(docs: seq<Tournament>, i: int)
    requires 0 <= i < |docs|
    ensures Listed(docs[i]) <==> docs[i] in Listing(docs)
  {
    var hits := Filter(docs, Listed);
    if Listed(docs[i]) {
      FilterKeeps(docs, Listed, i);
      assert docs[i] in multiset(hits);
      assert docs[i] in multiset(Listing(docs));
    }
  }

  // ---------------------------------------------------------------------
  // createTournament
  // ---------------------------------------------------------------------

  /**
   * The service checks two of the date constraints and lets the store
   * validate the document. The check-in date is only checked by the request
   * validator.
   */
  function CreateTournament(s: Store, data: Tournament, newId: Id): (r: Reply<Id>)
    requires newId !in s.tournaments
    ensures r.result.Err? ==> r.store == s
    ensures data.registrationEnd <= data.registrationStart ==>
              r.result == Err(Fail(400, RegistrationEndNotAfterStart))
    ensures data.registrationStart < data.registrationEnd && data.tournamentStart <= data.registrationEnd ==>
              r.result == Err(Fail(400, TournamentStartNotAfterRegistrationEnd))
    ensures r.result.Ok? <==>
              data.registrationStart < data.registrationEnd < data.tournamentStart
              && SchemaValid(data.(name := Trim(data.name)))
    ensures r.result.Ok? ==>
              r.result.value == newId
              && r.store == s.(tournaments := s.tournaments[newId := data.(name := Trim(data.name))])
  {
    var doc := data.(name := Trim(data.name));
    if data.registrationEnd <= data.registrationStart then
      Reply(s, Err(Fail(400, RegistrationEndNotAfterStart)))
    else if data.tournamentStart <= data.registrationEnd then
      Reply(s, Err(Fail(400, TournamentStartNotAfterRegistrationEnd)))
    else if !SchemaValid(doc) then
      Reply(s, Err(Crash(SaveRejected)))
    else
      Reply(s.(tournaments := s.tournaments[newId := doc]), Ok(newId))
  }

  /**
   * The request validator admits `battle_royale` but the schema does not, so
   * such a tournament can never be stored; with well-ordered dates the
   * caller gets a 500.
   */
  lemma BattleRoyaleNeverStored(s: Store, data: Tournament, newId: Id)
    requires newId !in s.tournaments
    requires data.structure == BattleRoyale
    ensures CreateTournament(s, data, newId).result.Err?
    ensures data.registrationStart < data.registrationEnd < data.tournamentStart ==>
              CreateTournament(s, data, newId).result == Err(Crash(SaveRejected))
  {
  }

  // ---------------------------------------------------------------------
  // updateTournamentById
  // ---------------------------------------------------------------------

  /** The fields an update body may carry; an absent field is left alone by `Object.assign`. */
  datatype TournamentUpdate = TournamentUpdate(
    name: Option<string>,
    game: Option<Id>,
    status: Option<TournamentStatus>,
    structure: Option<Structure>,
    teamSize: Option<int>,
    maxParticipants: Option<int>,
    rules: Option<string>,
    registrationStart: Option<Time>,
    registrationEnd: Option<Time>,
    checkInStart: Option<Time>,
    tournamentStart: Option<Time>,
    entryFee: Option<int>,
    prizeStructure: Option<seq<PrizeTier>>,
    organizer: Option<Id>)

  /** `Object.assign(tournament, updateBody)`; the schema's setter trims a new name. */
  function Assign(t: Tournament, u: TournamentUpdate): (r: Tournament)
    ensures u.name.Some? ==> r.name == Trim(u.name.value)
    ensures u.name.None? ==> r.name == t.name
    ensures u.entryFee.Some? ==> r.entryFee == u.entryFee.value
    ensures u.entryFee.None? ==> r.entryFee == t.entryFee
  {
    Tournament(
      if u.name.Some? then Trim(u.name.value) else t.name,
      u.game.GetOr(t.game),
      u.status.GetOr(t.status),
      u.structure.GetOr(t.structure),
      u.teamSize.GetOr(t.teamSize),
      u.maxParticipants.GetOr(t.maxParticipants),
      u.rules.GetOr(t.rules),
      u.registrationStart.GetOr(t.registrationStart),
      u.registrationEnd.GetOr(t.registrationEnd),
      u.checkInStart.GetOr(t.checkInStart),
      u.tournamentStart.GetOr(t.tournamentStart),
      u.entryFee.GetOr(t.entryFee),
      u.prizeStructure.GetOr(t.prizeStructure),
      u.organizer.GetOr(t.organizer))
  }

  /** `['active', 'completed', 'canceled']`: the statuses in which restricted fields are frozen. */
  predicate Locked(st: TournamentStatus) {
    st.Active? || st.Completed? || st.Canceled?
  }

  /**
   * `updateBody[field] && updateBody[field] !== tournament[field]` for a
   * numeric field: 0 is falsy and slips through.
   */
  predicate NumberBlocked(v: Option<int>, current: int) {
    v.Some? && v.value != 0 && v.value != current
  }

  /**
   * The first restricted field the body would change, in the order the source
   * lists them. A body's `game` is a string while the stored one is an
   * ObjectId, and a body's `prizeStructure` is a fresh array, so `!==` holds
   * for both whenever they are supplied.
   */
  function Violation(t: Tournament, u: TournamentUpdate): Option<string> {
    if u.game.Some? then Some("game")
    else if u.structure.Some? && u.structure.value != t.structure then Some("structure")
    else if NumberBlocked(u.teamSize, t.teamSize) then Some("teamSize")
    else if NumberBlocked(u.maxParticipants, t.maxParticipants) then Some("maxParticipants")
    else if NumberBlocked(u.entryFee, t.entryFee) then Some("entryFee")
    else if u.prizeStructure.Some? then Some("prizeStructure")
    else None
  }

  function UpdateTournament(s: Store, id: Id, u: TournamentUpdate): (r: Reply<Tournament>)
    ensures r.result.Err? ==> r.store == s
    ensures id !in s.tournaments ==> r.result == Err(Fail(404, TournamentNotFound))
    ensures r.result.Ok? ==>
              id in s.tournaments
              && r.result.value == Assign(s.tournaments[id], u)
              && SchemaValid(r.result.value)
              && r.store == s.(tournaments := s.tournaments[id := r.result.value])
    ensures id in s.tournaments && !Locked(s.tournaments[id].status) ==>
              (r.result.Ok? <==> SchemaValid(Assign(s.tournaments[id], u)))
    ensures id in s.tournaments && Locked(s.tournaments[id].status) && u.game.Some? ==>
              r.result == Err(Fail(400, RestrictedField("game")))
    ensures id in s.tournaments && Locked(s.tournaments[id].status) && r.result.Ok? ==>
              var before := s.tournaments[id];
              var after := r.result.value;
              && after.game == before.game
              && after.structure == before.structure
              && after.teamSize == before.teamSize
              && after.prizeStructure == before.prizeStructure
              && (after.maxParticipants == before.maxParticipants || after.maxParticipants == 0)
              && (after.entryFee == before.entryFee || after.entryFee == 0)
  {
    if id !in s.tournaments then Reply(s, Err(Fail(404, TournamentNotFound)))
    else
      var t := s.tournaments[id];
      var v := Violation(t, u);
      if Locked(t.status) && v.Some? then Reply(s, Err(Fail(400, RestrictedField(v.value))))
      else
        var next := Assign(t, u);
        if !SchemaValid(next) then Reply(s, Err(Crash(SaveRejected)))
        else Reply(s.(tournaments := s.tournaments[id := next]), Ok(next))
  }

  /**
   * The falsy-value loophole: a running tournament's entry fee can be set to
   * 0 although `entryFee` is a restricted field.
   */
  lemma LockedFeeCanBeZeroed(s: Store, id: Id)
    requires id in s.tournaments && s.tournaments[id].status.Active?
    requires SchemaValid(s.tournaments[id]) && s.tournaments[id].entryFee == 5000
    ensures var u := TournamentUpdate(None, None, None, None, None, None, None, None, None, None, None, Some(0), None, None);
            var r := UpdateTournament(s, id, u);
            r.result.Ok? && r.result.value.entryFee == 0
  {
  }

  /** The rule as its comment states it: a supplied restricted field that differs is refused. */
  predicate Changes(t: Tournament, u: TournamentUpdate) {
    || (u.game.Some? && u.game.value != t.game)
    || (u.structure.Some? && u.structure.value != t.structure)
    || (u.teamSize.Some? && u.teamSize.value != t.teamSize)
    || (u.maxParticipants.Some? && u.maxParticipants.value != t.maxParticipants)
    || (u.entryFee.Some? && u.entryFee.value != t.entryFee)
    || (u.prizeStructure.Some? && u.prizeStructure.value != t.prizeStructure)
  }

  /** The update with the restricted-field rule compared by value and without the truthiness test. */
  function UpdateTournamentStrict(s: Store, id: Id, u: TournamentUpdate): (r: Reply<Tournament>)
    ensures r.result.Err? ==> r.store == s
    ensures id !in s.tournaments ==> r.result == Err(Fail(404, TournamentNotFound))
    ensures r.result.Ok? ==>
              id in s.tournaments
              && r.result.value == Assign(s.tournaments[id], u)
              && r.store == s.(tournaments := s.tournaments[id := r.result.value])
    ensures id in s.tournaments && Locked(s.tournaments[id].status) && r.result.Ok? ==>
              var before := s.tournaments[id];
              var after := r.result.value;
              && after.game == before.game && after.structure == before.structure
              && after.teamSize == before.teamSize && after.maxParticipants == before.maxParticipants
              && after.entryFee == before.entryFee && after.prizeStructure == before.prizeStructure
  {
    if id !in s.tournaments then Reply(s, Err(Fail(404, TournamentNotFound)))
    else
      var t := s.tournaments[id];
      if Locked(t.status) && Changes(t, u) then Reply(s, Err(Fail(400, RestrictedField("restricted"))))
      else
        var next := Assign(t, u);
        if !SchemaValid(next) then Reply(s, Err(Crash(SaveRejected)))
        else Reply(s.(tournaments := s.tournaments[id := next]), Ok(next))
  }

  /** Both versions agree on every body that leaves the restricted fields alone or changes them to non-zero values. */
  lemma StrictAgreesOffTheLoophole(s: Store, id: Id, u: TournamentUpdate)
    requires u.game.None? && u.prizeStructure.None?
    requires u.teamSize != Some(0) && u.maxParticipants != Some(0) && u.entryFee != Some(0)
    ensures UpdateTournamentStrict(s, id, u).store == UpdateTournament(s, id, u).store
    ensures UpdateTournamentStrict(s, id, u).result.Ok? <==> UpdateTournament(s, id, u).result.Ok?
  {
  }

  // ---------------------------------------------------------------------
  // deleteTournamentById
  // ---------------------------------------------------------------------

  /**
   * Delete a tournament with its registrations, matches, brackets and
   * disputes in one transaction. `storageFault` stands for any failure inside
   * the transaction, which aborts it and is answered with 500.
   */
  function DeleteTournament(s: Store, id: Id, storageFault: bool): (r: Reply<()>)
    ensures r.result.Err? ==> r.store == s
    ensures id !in s.tournaments ==> r.result == Err(Fail(404, TournamentNotFound))
    ensures id in s.tournaments && s.tournaments[id].status.Active? ==>
              r.result == Err(Fail(400, TournamentIsActive))
    ensures id in s.tournaments && !s.tournaments[id].status.Active? && storageFault ==>
              r.result == Err(Fail(500, StorageFailure))
    ensures r.result.Ok? <==> id in s.tournaments && !s.tournaments[id].status.Active? && !storageFault
    ensures r.result.Ok? ==>
              && r.store.tournaments == s.tournaments - {id}
              && r.store.users == s.users && r.store.teams == s.teams
              && r.store.games == s.games && r.store.transactions == s.transactions
              && (forall k :: 0 <= k < |r.store.registrations| ==> r.store.registrations[k].tournament != id)
              && (forall m :: m in r.store.matches ==> r.store.matches[m].tournament != id)
              && (forall b :: b in r.store.brackets ==> r.store.brackets[b].tournament != id)
              && (forall d :: d in r.store.disputes ==> r.store.disputes[d].tournament != id)
  {
    if id !in s.tournaments then Reply(s, Err(Fail(404, TournamentNotFound)))
    else if s.tournaments[id].status.Active? then Reply(s, Err(Fail(400, TournamentIsActive)))
    else if storageFault then Reply(s, Err(Fail(500, StorageFailure)))
    else
      Reply(s.(
        registrations := Filter(s.registrations, (g: Registration) => g.tournament != id),
        matches := map m | m in s.matches && s.matches[m].tournament != id :: s.matches[m],
        brackets := map b | b in s.brackets && s.brackets[b].tournament != id :: s.brackets[b],
        disputes := map d | d in s.disputes && s.disputes[d].tournament != id :: s.disputes[d],
        tournaments := s.tournaments - {id}), Ok(()))
  }

  /** The cascade removes only what belongs to the deleted tournament. */
  lemma DeleteKeepsOtherTournaments(s: Store, id: Id, other: Id)
    requires DeleteTournament(s, id, false).result.Ok?
    requires other != id
    ensures var t := DeleteTournament(s, id, false).store;
            && (other in s.tournaments ==> other in t.tournaments && t.tournaments[other] == s.tournaments[other])
            && (forall m :: m in s.matches && s.matches[m].tournament == other ==> m in t.matches && t.matches[m] == s.matches[m])
            && (forall d :: d in s.disputes && s.disputes[d].tournament == other ==> d in t.disputes && t.disputes[d] == s.disputes[d])
            && (forall b :: b in s.brackets && s.brackets[b].tournament == other ==> b in t.brackets && t.brackets[b] == s.brackets[b])
            && (forall k :: 0 <= k < |s.registrations| && s.registrations[k].tournament == other ==> s.registrations[k] in t.registrations)
  {
    var keep := (g: Registration) => g.tournament != id;
    forall k | 0 <= k < |s.registrations| && s.registrations[k].tournament == other
      ensures s.registrations[k] in DeleteTournament(s, id, false).store.registrations
    {
      FilterKeeps(s.registrations, keep, k);
    }
  }
}

=== FILE: tournament_validator.dfy ===
/**
 * src/validators/tournament.validator.js: the request rules for listing and
 * creating tournaments. A failed rule answers 400 before the service runs.
 * Fields that arrive in the wrong shape (a non-integer number, a date that is
 * not ISO 8601) are `None`; a body the rules admit can be turned into a
 * tournament document. The exception is `prizeStructure`: there `None` means
 * absent only, which `.optional()` admits; a `null` or non-array value, which
 * `.isArray()` refuses with 400, is not modelled.
 */
module TournamentValidator {
  import opened Wrappers
  import opened Ids
  import opened Errors
  import opened TournamentModel
  import opened Pagination
  import opened Storage
  import opened Text
  import TournamentService

  // ---------------------------------------------------------------------
  // getAll
  // ---------------------------------------------------------------------

  /** `page` optional and at least 1; `limit` optional and between 1 and 100. */
  predicate ListQueryAdmitted(page: Option<int>, limit: Option<int>) {
    && (page.Some? ==> page.value >= 1)
    && (limit.Some? ==> 1 <= limit.value <= 100)
  }

  /** An admitted query yields valid page options once the service's defaults are applied. */
  lemma ListQueryGivesValidOptions(page: Option<int>, limit: Option<int>)
    requires ListQueryAdmitted(page, limit)
    ensures Valid(WithDefaults(page, limit)) && WithDefaults(page, limit).limit <= 100
  {
  }

  // ---------------------------------------------------------------------
  // createTournament
  // ---------------------------------------------------------------------

  datatype PrizeBody = PrizeBody(kind: PrizeType, description: string, amount: Option<int>, itemName: Option<string>)

  /** A prize tier; `prizes` is `None` when it is missing or not an array. */
  datatype TierBody = TierBody(rank: Option<int>, prizes: Option<seq<PrizeBody>>)

  datatype CreateBody = CreateBody(
    name: string,
    game: Option<Id>,
    structure: Option<Structure>,
    teamSize: Option<int>,
    maxParticipants: Option<int>,
    rules: string,
    registrationStart: Option<Time>,
    registrationEnd: Option<Time>,
    checkInStart: Option<Time>,
    tournamentStart: Option<Time>,
    prizeStructure: Option<seq<TierBody>>)

  /** Every prize of every tier that has a prize array, as `prizeStructure.*.prizes.*` selects them. */
  predicate EveryPrize(tiers: seq<TierBody>, p: PrizeBody -> bool) {
    forall i, j :: 0 <= i < |tiers| && tiers[i].prizes.Some? && 0 <= j < |tiers[i].prizes.value| ==>
      p(tiers[i].prizes.value[j])
  }

  function IsWalletCredit(p: PrizeBody): bool {
    p.kind == WalletCredit
  }

  function IsItem(p: PrizeBody): bool {
    p.kind == VirtualItem || p.kind == PhysicalItem
  }

  function AmountOk(p: PrizeBody): bool {
    p.amount.Some? && p.amount.value >= 0
  }

  function ItemNameOk(p: PrizeBody): bool {
    p.itemName.Some? && !Blank(p.itemName.value)
  }

  function DescriptionOk(p: PrizeBody): bool {
    !Blank(p.description)
  }

  /** Rank, prize array and description rules, which hold per tier and per prize. */
  predicate TiersShaped(tiers: seq<TierBody>) {
    && (forall i :: 0 <= i < |tiers| ==> tiers[i].rank.Some? && tiers[i].rank.value >= 1)
    && (forall i :: 0 <= i < |tiers| ==> tiers[i].prizes.Some? && |tiers[i].prizes.value| >= 1)
    && EveryPrize(tiers, DescriptionOk)
  }

  /**
   * The prize rules as written. The `amount` and `itemName` rules sit behind
   * `.if(body('prizeStructure.*.prizes.*.type')...)`, a condition evaluated over
   * every selected prize at once: the amount rule runs only when every prize is
   * a wallet credit, the item-name rule only when every prize is an item.
   */
  predicate PrizesAdmitted(tiers: seq<TierBody>) {
    && TiersShaped(tiers)
    && (EveryPrize(tiers, IsWalletCredit) ==> EveryPrize(tiers, AmountOk))
    && (EveryPrize(tiers, IsItem) ==> EveryPrize(tiers, ItemNameOk))
  }

  /** The prize rules as meant: each prize is checked according to its own type. */
  predicate PrizesAdmittedPerPrize(tiers: seq<TierBody>) {
    && TiersShaped(tiers)
    && EveryPrize(tiers, (p: PrizeBody) => IsWalletCredit(p) ==> AmountOk(p))
    && EveryPrize(tiers, (p: PrizeBody) => IsItem(p) ==> ItemNameOk(p))
  }

  /** The date rules: the four dates are present and each custom check passes. */
  predicate DatesAdmitted(b: CreateBody) {
    && b.registrationStart.Some? && b.registrationEnd.Some? && b.checkInStart.Some? && b.tournamentStart.Some?
    && b.registrationEnd.value > b.registrationStart.value
    && b.checkInStart.value > b.registrationEnd.value
    && b.tournamentStart.value > b.checkInStart.value
  }

  predicate CreateAdmitted(b: CreateBody) {
    && !Blank(b.name) && IsLengthCount(Trim(b.name)) <= 100
    && b.game.Some?
    && b.structure.Some?
    && b.teamSize.Some? && b.teamSize.value >= 1
    && b.maxParticipants.Some? && b.maxParticipants.value >= 2
    && !Blank(b.rules)
    && DatesAdmitted(b)
    && (b.prizeStructure.Some? ==> PrizesAdmitted(b.prizeStructure.value))
  }

  /** `validate(tournamentValidators.createTournament)`: 400 when any rule fails. */
  function ValidateCreate(b: CreateBody): (r: Result<(), ApiError>)
    ensures r.Err? ==> r.error == Fail(400, InvalidInput)
    ensures r.Ok? ==>
              && DatesAdmitted(b) && b.teamSize.Some? && b.maxParticipants.Some?
              && b.registrationStart.value < b.registrationEnd.value < b.checkInStart.value < b.tournamentStart.value
              && b.teamSize.value >= 1 && b.maxParticipants.value >= 2
              && Trim(b.name) != "" && Trim(b.rules) != ""
    ensures b.registrationStart.Some? && b.registrationEnd.Some? && b.registrationEnd.value <= b.registrationStart.value ==> r.Err?
    ensures b.registrationEnd.Some? && b.checkInStart.Some? && b.checkInStart.value <= b.registrationEnd.value ==> r.Err?
    ensures b.checkInStart.Some? && b.tournamentStart.Some? && b.tournamentStart.value <= b.checkInStart.value ==> r.Err?
  {
    if CreateAdmitted(b) then Ok(()) else Err(Fail(400, InvalidInput))
  }

  /** The strictly increasing chain: registration start is before the tournament start, and so on. */
  lemma AdmittedDatesIncrease(b: CreateBody)
    requires ValidateCreate(b).Ok?
    ensures b.registrationStart.value < b.checkInStart.value
    ensures b.registrationStart.value < b.tournamentStart.value
    ensures b.registrationEnd.value < b.tournamentStart.value
  {
  }

  /**
   * The stored prize. The description is always trimmed; the item name is
   * trimmed only when the item-name chain ran, that is when every prize of the
   * body is an item (`trimItems`), since its `.trim()` sits behind the same
   * `.if(...)` as the rule.
   */
  function ToPrize(p: PrizeBody, trimItems: bool): (r: Prize)
    ensures r.kind == p.kind && r.amount == p.amount && r.description == Trim(p.description)
    ensures trimItems && p.itemName.Some? ==> r.itemName == Some(Trim(p.itemName.value))
    ensures !trimItems ==> r.itemName == p.itemName
  {
    Prize(p.kind, p.amount, if trimItems && p.itemName.Some? then Some(Trim(p.itemName.value)) else p.itemName,
          Trim(p.description))
  }

  function ToTier(t: TierBody, trimItems: bool): PrizeTier
    requires t.rank.Some? && t.prizes.Some?
  {
    PrizeTier(t.rank.value, seq(|t.prizes.value|, j requires 0 <= j < |t.prizes.value| => ToPrize(t.prizes.value[j], trimItems)))
  }

  /**
   * The document the controller builds from an admitted body: name, rules and
   * prize descriptions trimmed by the sanitizers, and the item names trimmed
   * exactly when every prize is an item.
   */
  function ToTournament(b: CreateBody, entryFee: int, organizer: Id): (t: Tournament)
    requires CreateAdmitted(b)
    ensures t.registrationStart < t.registrationEnd < t.tournamentStart
    ensures t.name == Trim(b.name) && t.rules == Trim(b.rules)
    ensures |t.prizeStructure| == |b.prizeStructure.GetOr([])|
    ensures forall i :: 0 <= i < |t.prizeStructure| ==>
              b.prizeStructure.value[i].prizes.Some? && |t.prizeStructure[i].prizes| == |b.prizeStructure.value[i].prizes.value|
    ensures forall i, j :: 0 <= i < |t.prizeStructure| && 0 <= j < |t.prizeStructure[i].prizes| ==>
              var p := b.prizeStructure.value[i].prizes.value[j];
              if EveryPrize(b.prizeStructure.value, IsItem) then t.prizeStructure[i].prizes[j].itemName == Some(Trim(p.itemName.value))
              else t.prizeStructure[i].prizes[j].itemName == p.itemName
  {
    var tiers := b.prizeStructure.GetOr([]);
    var trimItems := EveryPrize(tiers, IsItem);
    var t := Tournament(Trim(b.name), b.game.value, Draft, b.structure.value, b.teamSize.value, b.maxParticipants.value,
                        Trim(b.rules), b.registrationStart.value, b.registrationEnd.value, b.checkInStart.value,
                        b.tournamentStart.value, entryFee,
                        seq(|tiers|, i requires 0 <= i < |tiers| => ToTier(tiers[i], trimItems)), organizer);
    ItemNamesStored(b, tiers, trimItems, t);
    t
  }

  /** Each stored prize is its body's prize after `ToPrize`; item names are present when they are trimmed. */
  lemma ItemNamesStored(b: CreateBody, tiers: seq<TierBody>, trimItems: bool, t: Tournament)
    requires CreateAdmitted(b) && tiers == b.prizeStructure.GetOr([]) && trimItems == EveryPrize(tiers, IsItem)
    requires TiersShaped(tiers)
    requires t.prizeStructure == seq(|tiers|, i requires 0 <= i < |tiers| => ToTier(tiers[i], trimItems))
    ensures forall i :: 0 <= i < |t.prizeStructure| ==>
              b.prizeStructure.value[i].prizes.Some? && |t.prizeStructure[i].prizes| == |b.prizeStructure.value[i].prizes.value|
    ensures forall i, j :: 0 <= i < |t.prizeStructure| && 0 <= j < |t.prizeStructure[i].prizes| ==>
              var p := b.prizeStructure.value[i].prizes.value[j];
              if EveryPrize(b.prizeStructure.value, IsItem) then t.prizeStructure[i].prizes[j].itemName == Some(Trim(p.itemName.value))
              else t.prizeStructure[i].prizes[j].itemName == p.itemName
  {
    forall i | 0 <= i < |t.prizeStructure|
      ensures b.prizeStructure.value[i].prizes.Some? && |t.prizeStructure[i].prizes| == |b.prizeStructure.value[i].prizes.value|
    {
      assert t.prizeStructure[i] == ToTier(tiers[i], trimItems);
    }
    forall i, j | 0 <= i < |t.prizeStructure| && 0 <= j < |t.prizeStructure[i].prizes|
      ensures var p := b.prizeStructure.value[i].prizes.value[j];
              if EveryPrize(b.prizeStructure.value, IsItem) then t.prizeStructure[i].prizes[j].itemName == Some(Trim(p.itemName.value))
              else t.prizeStructure[i].prizes[j].itemName == p.itemName
    {
      var p := tiers[i].prizes.value[j];
      assert t.prizeStructure[i] == ToTier(tiers[i], trimItems);
      assert t.prizeStructure[i].prizes[j] == ToPrize(p, trimItems);
      if trimItems {
        assert ItemNameOk(p);
      }
    }
  }

  /**
   * An admitted body never meets the service's own date checks. It is stored
   * unless its structure is `battle_royale`, which the schema refuses, or its
   * trimmed name is over 100 UTF-16 code units: the validator counts
   * characters, the schema's `maxlength` counts code units, and a failed save
   * answers 500.
   */
  lemma AdmittedBodyStored(s: Store, b: CreateBody, entryFee: int, organizer: Id, newId: Id)
    requires newId !in s.tournaments
    requires ValidateCreate(b).Ok?
    ensures var r := TournamentService.CreateTournament(s, ToTournament(b, entryFee, organizer), newId);
            && (b.structure.value != BattleRoyale && Utf16Length(Trim(b.name)) <= 100 ==> r.result == Ok(newId))
            && (b.structure.value == BattleRoyale || Utf16Length(Trim(b.name)) > 100 ==> r.result == Err(Crash(SaveRejected)))
  {
    var t := ToTournament(b, entryFee, organizer);
    PrizeDescriptionsStored(b, entryFee, organizer);
    assert Trim(t.name) == t.name by {
      assert t.name == Trim(b.name);
      TrimIdempotent(b.name);
    }
    if b.structure.value != BattleRoyale && Utf16Length(Trim(b.name)) <= 100 {
      assert SchemaValid(t);
    } else if b.structure.value == BattleRoyale {
      TournamentService.BattleRoyaleNeverStored(s, t, newId);
    } else {
      assert !SchemaValid(t.(name := Trim(t.name)));
    }
  }

  /** Every prize of the built document keeps a non-empty description. */
  lemma PrizeDescriptionsStored(b: CreateBody, entryFee: int, organizer: Id)
    requires CreateAdmitted(b)
    ensures var t := ToTournament(b, entryFee, organizer);
            forall i, j :: 0 <= i < |t.prizeStructure| && 0 <= j < |t.prizeStructure[i].prizes| ==>
              t.prizeStructure[i].prizes[j].description != ""
  {
    var t := ToTournament(b, entryFee, organizer);
    var tiers := b.prizeStructure.GetOr([]);
    forall i, j | 0 <= i < |t.prizeStructure| && 0 <= j < |t.prizeStructure[i].prizes|
      ensures t.prizeStructure[i].prizes[j].description != ""
    {
      assert t.prizeStructure[i] == ToTier(tiers[i], EveryPrize(tiers, IsItem));
      assert DescriptionOk(tiers[i].prizes.value[j]);
    }
  }

  /**
   * Sixty emoji pass the name rule, which counts 60 characters, but are 120
   * code units to the schema: the admitted body is refused with 500.
   */
  lemma EmojiNameAdmittedThenRefused(s: Store, b: CreateBody, entryFee: int, organizer: Id, newId: Id)
    requires newId !in s.tournaments
    requires b.name == seq(60, _ => '\U{1F600}')
    requires CreateAdmitted(b.(name := "x"))
    ensures ValidateCreate(b).Ok?
    ensures TournamentService.CreateTournament(s, ToTournament(b, entryFee, organizer), newId).result == Err(Crash(SaveRejected))
  {
    EmojiUnits(60);
    assert !IsSpace(b.name[0]) && !IsSpace(b.name[59]);
    TrimOfTrimmed(b.name);
    assert !Blank(b.name);
    assert CreateAdmitted(b);
    AdmittedBodyStored(s, b, entryFee, organizer, newId);
  }

  /** The name rule as meant: the trimmed name fits the schema's 100 code units. */
  predicate CreateAdmittedUnits(b: CreateBody) {
    CreateAdmitted(b) && Utf16Length(Trim(b.name)) <= 100
  }

  /** With the name counted as the schema counts it, every admitted body but a `battle_royale` one is stored. */
  lemma AdmittedBodyStoredUnits(s: Store, b: CreateBody, entryFee: int, organizer: Id, newId: Id)
    requires newId !in s.tournaments
    requires CreateAdmittedUnits(b)
    ensures var r := TournamentService.CreateTournament(s, ToTournament(b, entryFee, organizer), newId);
            r.result.Ok? <==> b.structure.value != BattleRoyale
  {
    AdmittedBodyStored(s, b, entryFee, organizer, newId);
  }

  /**
   * A wallet-credit prize with a negative amount passes when it sits next to
   * an item prize, because the amount rule is then skipped for every prize.
   */
  lemma MixedPrizesSkipAmountRule()
    ensures var tiers := [TierBody(Some(1), Some([PrizeBody(WalletCredit, "cash", Some(-500), None),
                                                   PrizeBody(VirtualItem, "skin", None, Some("skin"))]))];
            PrizesAdmitted(tiers) && !PrizesAdmittedPerPrize(tiers)
  {
    var ps := [PrizeBody(WalletCredit, "cash", Some(-500), None), PrizeBody(VirtualItem, "skin", None, Some("skin"))];
    var tiers := [TierBody(Some(1), Some(ps))];
    assert !IsWalletCredit(tiers[0].prizes.value[1]);
    assert !IsItem(tiers[0].prizes.value[0]);
    assert !Blank(ps[0].description) by { assert !IsSpace(ps[0].description[0]); }
    assert !Blank(ps[1].description) by { assert !IsSpace(ps[1].description[0]); }
    assert EveryPrize(tiers, DescriptionOk);
    assert !AmountOk(tiers[0].prizes.value[0]);
  }

  /** Checked per prize, every wallet credit has a non-negative amount and every item a name. */
  lemma PerPrizeRulesHold(tiers: seq<TierBody>, i: int, j: int)
    requires PrizesAdmittedPerPrize(tiers)
    requires 0 <= i < |tiers| && tiers[i].prizes.Some? && 0 <= j < |tiers[i].prizes.value|
    ensures tiers[i].prizes.value[j].kind == WalletCredit ==>
              tiers[i].prizes.value[j].amount.Some? && tiers[i].prizes.value[j].amount.value >= 0
    ensures tiers[i].prizes.value[j].kind in {VirtualItem, PhysicalItem} ==>
              tiers[i].prizes.value[j].itemName.Some? && !Blank(tiers[i].prizes.value[j].itemName.value)
  {
    var p := tiers[i].prizes.value[j];
    assert (IsWalletCredit(p) ==> AmountOk(p)) && (IsItem(p) ==> ItemNameOk(p));
  }

  /** The per-prize rules are stricter than the rules as written, and agree when all prizes share a type. */
  lemma PerPrizeRefinesAsWritten(tiers: seq<TierBody>)
    ensures PrizesAdmittedPerPrize(tiers) ==> PrizesAdmitted(tiers)
    ensures EveryPrize(tiers, IsWalletCredit) ==> (PrizesAdmitted(tiers) <==> PrizesAdmittedPerPrize(tiers))
  {
    if PrizesAdmittedPerPrize(tiers) {
      if EveryPrize(tiers, IsWalletCredit) {
        forall i, j | 0 <= i < |tiers| && tiers[i].prizes.Some? && 0 <= j < |tiers[i].prizes.value|
          ensures AmountOk(tiers[i].prizes.value[j])
        {
          assert IsWalletCredit(tiers[i].prizes.value[j]);
        }
      }
      if EveryPrize(tiers, IsItem) {
        forall i, j | 0 <= i < |tiers| && tiers[i].prizes.Some? && 0 <= j < |tiers[i].prizes.value|
          ensures ItemNameOk(tiers[i].prizes.value[j])
        {
          assert IsItem(tiers[i].prizes.value[j]);
        }
      }
    }
    if EveryPrize(tiers, IsWalletCredit) && PrizesAdmitted(tiers) {
      forall i, j | 0 <= i < |tiers| && tiers[i].prizes.Some? && 0 <= j < |tiers[i].prizes.value|
        ensures IsItem(tiers[i].prizes.value[j]) ==> ItemNameOk(tiers[i].prizes.value[j])
      {
        assert IsWalletCredit(tiers[i].prizes.value[j]);
      }
    }
  }
}

=== FILE: transaction_model.dfy ===
/** Wallet ledger entries (src/models/shared/Transaction.model.js). Amounts are integers in Rials. */
module TransactionModel {
  import opened Wrappers
  import opened Ids

  datatype TransactionType = WalletCharge | TournamentFee | Payout | Refund

  datatype TransactionStatus = Pending | Completed | Failed | Canceled

  datatype Transaction = Transaction(
    user: Id,
    amount: int,
    kind: TransactionType,
    status: TransactionStatus,
    authority: Option<string>,
    refId: Option<string>)
}

=== FILE: user_model.dfy ===
/**
 * User documents (src/models/user/User.model.js): the phone-number pattern,
 * defaults, the per-game Elo list and the uniqueness statics.
 */
module UserModel {
  import opened Wrappers
  import opened Ids
  import opened Text

  datatype Role = PlainUser | TournamentManager | Support | Admin

  datatype UserStatus = Active | Banned | PendingVerification

  /** One entry of `eloRating`. */
  datatype EloEntry = EloEntry(game: Id, rating: int)

  datatype User = User(
    username: string,
    phoneNumber: string,
    email: Option<string>,
    role: Role,
    status: UserStatus,
    eloRating: seq<EloEntry>,
    walletBalance: int,
    teams: seq<Id>,
    refreshTokens: seq<string>,
    verificationCode: Option<string>,
    verificationCodeExpires: Option<Time>,
    createdAt: Time)

  const DefaultRating: int := 1000

  predicate IsDigit(c: char) {
    '0' <= c <= '9'
  }

  /** `^\+98\d{10}$`: the prefix "+98" followed by exactly ten decimal digits. */
  predicate PhoneValid(s: string) {
    |s| == 13 && s[0] == '+' && s[1] == '9' && s[2] == '8'
    && forall i :: 3 <= i < 13 ==> IsDigit(s[i])
  }

  /** Scans a candidate phone number left to right, as the regular expression does. */
  method MatchPhone(s: string) returns (ok: bool)
    ensures ok <==> PhoneValid(s)
  {
    if |s| != 13 || s[0] != '+' || s[1] != '9' || s[2] != '8' {
      return false;
    }
    var i := 3;
    while i < 13
      invariant 3 <= i <= 13
      invariant forall j :: 3 <= j < i ==> IsDigit(s[j])
    {
      if !IsDigit(s[i]) {
        return false;
      }
      i := i + 1;
    }
    return true;
  }

  /** The phone pattern is "+98" followed by a ten-digit string. */
  lemma PhoneValidSplits(s: string)
    ensures PhoneValid(s) <==>
      (|s| == 13 && s[..3] == "+98" && forall i :: 0 <= i < |s[3..]| ==> IsDigit(s[3..][i]))
  {
    if |s| == 13 && s[..3] == "+98" {
      assert s[0] == s[..3][0] && s[1] == s[..3][1] && s[2] == s[..3][2];
      assert forall i :: 3 <= i < 13 ==> s[i] == s[3..][i - 3];
    }
    if PhoneValid(s) {
      assert s[..3] == "+98";
    }
  }

  /** Schema validation of the fields the core writes. */
  predicate SchemaValid(u: User) {
    3 <= Utf16Length(u.username) <= 20
    && PhoneValid(u.phoneNumber)
    && (u.email.Some? ==> Utf16Length(u.email.value) <= 100)
  }

  /**
   * The setters Mongoose applies to a value assigned to these paths, and to
   * the same paths in a query filter: `username` and `phoneNumber` are
   * trimmed, `email` is trimmed and lower-cased.
   */
  function CastUsername(v: string): string {
    Trim(v)
  }

  function CastPhone(v: string): string {
    Trim(v)
  }

  function CastEmail(v: string): string {
    TrimLower(v)
  }

  /** A new user document: the given fields pass through their setters, every other field takes its default. */
  function NewUser(username: string, phoneNumber: string, now: Time): (u: User)
    ensures u.username == CastUsername(username) && u.phoneNumber == CastPhone(phoneNumber)
    ensures u.createdAt == now
  {
    User(CastUsername(username), CastPhone(phoneNumber), None, PlainUser, PendingVerification, [], 0, [], [], None, None, now)
  }

  /**
   * A fresh account is unverified, unprivileged, unrated and has an empty
   * wallet; it validates exactly when the trimmed username (counted in UTF-16
   * code units) and phone number meet the schema, so padding neither helps
   * nor hurts.
   */
  lemma NewUserDefaults(username: string, phoneNumber: string, now: Time)
    ensures NewUser(username, phoneNumber, now).status == PendingVerification
    ensures NewUser(username, phoneNumber, now).role == PlainUser
    ensures NewUser(username, phoneNumber, now).walletBalance == 0
    ensures NewUser(username, phoneNumber, now).refreshTokens == []
    ensures NewUser(username, phoneNumber, now).eloRating == [] && NewUser(username, phoneNumber, now).teams == []
    ensures SchemaValid(NewUser(username, phoneNumber, now)) <==>
      (3 <= Utf16Length(Trim(username)) <= 20 && PhoneValid(Trim(phoneNumber)))
    ensures NewUser(Trim(username), Trim(phoneNumber), now) == NewUser(username, phoneNumber, now)
  {
    TrimIdempotent(username);
    TrimIdempotent(phoneNumber);
  }

  /** `isEmailTaken(email, excludeUserId)`: the filter's email is cast, so case and padding do not matter. */
  predicate IsEmailTaken(users: map<Id, User>, email: string, exclude: Option<Id>) {
    exists id :: id in users && users[id].email == Some(CastEmail(email)) && exclude != Some(id)
  }

  /** `isUsernameTaken(username, excludeUserId)`: the filter's username is trimmed. */
  predicate IsUsernameTaken(users: map<Id, User>, username: string, exclude: Option<Id>) {
    exists id :: id in users && users[id].username == CastUsername(username) && exclude != Some(id)
  }

  /**
   * A user's own email never counts as taken when that user is excluded, and
   * is taken otherwise, whatever case or padding it is written in.
   */
  lemma OwnEmailNotTaken(users: map<Id, User>, id: Id, email: string)
    requires id in users && users[id].email == Some(CastEmail(email))
    requires forall other :: other in users && other != id ==> users[other].email != Some(CastEmail(email))
    ensures !IsEmailTaken(users, email, Some(id))
    ensures IsEmailTaken(users, email, None)
  {
  }

  /** Another user's address is taken in any spelling that casts to it. */
  lemma EmailTakenAnySpelling(users: map<Id, User>, id: Id, other: Id, email: string)
    requires other in users && other != id && users[other].email == Some(CastEmail(email))
    ensures IsEmailTaken(users, email, Some(id))
    ensures IsEmailTaken(users, " " + email, Some(id))
  {
    assert CastEmail(" " + email) == CastEmail(email) by {
      assert IsSpace(' ');
      assert (" " + email)[1..] == email;
      assert TrimStart(" " + email) == TrimStart(email);
    }
  }

  /** The email setter maps "A@B.com" to "a@b.com". */
  lemma MixedCaseEmailCast()
    ensures CastEmail("A@B.com") == "a@b.com"
  {
    var e := "A@B.com";
    assert e[0] == 'A' && e[6] == 'm';
    assert !IsSpace('A') && !IsSpace('m');
    TrimOfTrimmed(e);
    var l := Lower(e);
    assert l[0] == 'a' && l[1] == '@' && l[2] == 'b' && l[3] == '.' && l[4] == 'c' && l[5] == 'o' && l[6] == 'm';
    assert l == "a@b.com";
  }

  /** `eloRating.findIndex(r => r.game == game)`: the first entry for `game`, or -1. */
  function FindRating(list: seq<EloEntry>, game: Id): (i: int)
    ensures -1 <= i < |list|
    ensures i >= 0 ==> list[i].game == game && forall j :: 0 <= j < i ==> list[j].game != game
    ensures i == -1 ==> forall j :: 0 <= j < |list| ==> list[j].game != game
  {
    if |list| == 0 then -1
    else if list[0].game == game then 0
    else
      var k := FindRating(list[1..], game);
      if k == -1 then -1 else k + 1
  }

  /** `eloRating.find(...)?.rating || 1000`: an absent entry and a zero rating both read as 1000. */
  function CurrentRating(list: seq<EloEntry>, game: Id): int {
    var i := FindRating(list, game);
    if i < 0 || list[i].rating == 0 then DefaultRating else list[i].rating
  }

  /** Write a rating: overwrite the first entry for `game`, or append a new one. */
  function SetRating(list: seq<EloEntry>, game: Id, rating: int): seq<EloEntry> {
    var i := FindRating(list, game);
    if i >= 0 then list[i := EloEntry(game, rating)] else list + [EloEntry(game, rating)]
  }

  /** Reading back a non-zero rating just written gives that rating. */
  lemma SetRatingRead(list: seq<EloEntry>, game: Id, rating: int)
    requires rating != 0
    ensures CurrentRating(SetRating(list, game, rating), game) == rating
  {
    var i := FindRating(list, game);
    var r := SetRating(list, game, rating);
    if i >= 0 {
      assert r[i].game == game;
      assert forall j :: 0 <= j < i ==> r[j] == list[j];
      assert FindRating(r, game) == i;
    } else {
      assert r[|list|].game == game;
      assert FindRating(r, game) == |list|;
    }
  }

  /** Writing one game's rating leaves every other game's rating as it was. */
  lemma SetRatingOther(list: seq<EloEntry>, game: Id, other: Id, rating: int)
    requires other != game
    ensures CurrentRating(SetRating(list, game, rating), other) == CurrentRating(list, other)
  {
    var i := FindRating(list, game);
    var r := SetRating(list, game, rating);
    var k := FindRating(list, other);
    if k >= 0 {
      assert r[k] == list[k];
      assert forall j :: 0 <= j < k ==> r[j].game != other;
      assert FindRating(r, other) == k;
    } else {
      assert forall j :: 0 <= j < |r| ==> r[j].game != other;
    }
  }

  /** The list only grows when the game had no entry, and then by one. */
  lemma SetRatingLength(list: seq<EloEntry>, game: Id, rating: int)
    ensures |SetRating(list, game, rating)| ==
      if FindRating(list, game) >= 0 then |list| else |list| + 1
  {
  }
}

=== FILE: user_service.dfy ===
/**
 * src/services/user.service.js: the user listing, profile updates with their
 * immutability and uniqueness rules, and account deletion with its captaincy
 * guard and cascade.
 */
module UserService {
  import opened Wrappers
  import opened Ids
  import opened Errors
  import opened UserModel
  import TeamModel
  import opened RegistrationModel
  import DisputeModel
  import opened Ordering
  import opened Pagination
  import opened Storage
  import opened Text

  // ---------------------------------------------------------------------
  // queryUsers
  // ---------------------------------------------------------------------

  /** `$project: { username, email, role, status, createdAt }`. */
  datatype UserSummary = UserSummary(username: string, email: Option<string>, role: Role, status: UserStatus, createdAt: Time)

  function Summary(u: User): UserSummary {
    UserSummary(u.username, u.email, u.role, u.status, u.createdAt)
  }

  function NewestFirst(u: User): int {
    -u.createdAt
  }

  /**
   * The listing with numeric page options: the user filter, newest first,
   * one window of summaries and the totals.
   */
  function ListUsers(docs: seq<User>, filter: User -> bool, o: PageOptions): (p: Page<UserSummary>)
    requires Valid(o)
    ensures p.page == o.page && p.limit == o.limit
    ensures |p.results| <= o.limit
    ensures forall i, j :: 0 <= i < j < |p.results| ==> p.results[i].createdAt >= p.results[j].createdAt
    ensures p.totalResults == |Filter(docs, filter)| <= |docs|
    ensures p.totalPages * o.limit >= p.totalResults && p.totalPages * o.limit < p.totalResults + o.limit
    ensures |p.results| == if Skip(o) >= p.totalResults then 0
                           else if Skip(o) + o.limit <= p.totalResults then o.limit
                           else p.totalResults - Skip(o)
  {
    var ordered := SortBy(Filter(docs, filter), NewestFirst);
    var w := Window(ordered, o);
    var rows := seq(|w|, i requires 0 <= i < |w| => Summary(w[i]));
    WindowKeepsOrder(ordered, NewestFirst, o);
    Page(rows, o.page, o.limit, CeilDiv(|ordered|, o.limit), |ordered|)
  }

  /**
   * `queryUsers` as the admin listing calls it. The controller passes the
   * query's `page` and `limit` on as strings (the route rules check them but
   * do not convert them). `skip` is computed with `-` and `*`, which convert,
   * but a supplied `limit` reaches the aggregation's `$limit` stage as a
   * string, which the database refuses; that error is not an ApiError and
   * answers 500. `page` and `limit` here are the integers those strings spell.
   */
  function QueryUsers(docs: seq<User>, filter: User -> bool, page: Option<int>, limit: Option<int>): (r: Result<Page<UserSummary>, ApiError>)
    requires page.Some? ==> page.value >= 1
    requires limit.Some? ==> 1 <= limit.value <= 100
    ensures r.Err? <==> limit.Some?
    ensures r.Err? ==> r.error == Crash(Internal)
    ensures r.Ok? ==> r.value.limit == 10 && r.value.page == page.GetOr(1)
    ensures r.Ok? ==> r.value == ListUsers(docs, filter, WithDefaults(page, None))
  {
    if limit.Some? then Err(Crash(Internal))
    else Ok(ListUsers(docs, filter, WithDefaults(page, None)))
  }

  /** Any client-supplied `limit`, even the default value 10, makes the listing fail. */
  lemma SuppliedLimitFails(docs: seq<User>, filter: User -> bool)
    ensures QueryUsers(docs, filter, None, Some(10)).Err?
    ensures QueryUsers(docs, filter, None, None).Ok?
    ensures QueryUsers(docs, filter, None, None).value.totalResults == |Filter(docs, filter)|
  {
  }

  // ---------------------------------------------------------------------
  // updateUserById
  // ---------------------------------------------------------------------

  /**
   * The fields the controllers let through to an update: `updateMe` picks
   * username and email, the admin's `updateUser` also role, status and
   * walletBalance. `phoneNumber` is never picked but the service checks it.
   */
  datatype UserUpdate = UserUpdate(
    username: Option<string>,
    email: Option<string>,
    phoneNumber: Option<string>,
    role: Option<Role>,
    status: Option<UserStatus>,
    walletBalance: Option<int>)

  /** A supplied, non-empty string: what `if (updateBody.x)` lets through. */
  predicate Truthy(v: Option<string>) {
    v.Some? && v.value != ""
  }

  /** `Object.assign(user, updateBody)`: each supplied field is assigned through its setter. */
  function Assign(u: User, b: UserUpdate): (r: User)
    ensures r.teams == u.teams && r.eloRating == u.eloRating && r.refreshTokens == u.refreshTokens
    ensures r.createdAt == u.createdAt
    ensures b.username.Some? ==> r.username == Trim(b.username.value)
    ensures b.email.Some? ==> r.email == Some(Lower(Trim(b.email.value)))
    ensures b.walletBalance.Some? ==> r.walletBalance == b.walletBalance.value
    ensures b == UserUpdate(None, None, None, None, None, None) ==> r == u
  {
    u.(username := if b.username.Some? then CastUsername(b.username.value) else u.username,
       email := if b.email.Some? then Some(CastEmail(b.email.value)) else u.email,
       phoneNumber := if b.phoneNumber.Some? then CastPhone(b.phoneNumber.value) else u.phoneNumber,
       role := b.role.GetOr(u.role),
       status := b.status.GetOr(u.status),
       walletBalance := b.walletBalance.GetOr(u.walletBalance))
  }

  /** The unique indexes on username, phone number and (sparse) email. */
  predicate UserIndexesHold(users: map<Id, User>) {
    forall a, b :: a in users && b in users && a != b ==>
      && users[a].username != users[b].username
      && users[a].phoneNumber != users[b].phoneNumber
      && (users[a].email.Some? && users[b].email.Some? ==> users[a].email != users[b].email)
  }

  /** A stored user's cast fields are already in their setters' form. */
  predicate Normalised(u: User) {
    && CastUsername(u.username) == u.username
    && CastPhone(u.phoneNumber) == u.phoneNumber
    && (u.email.Some? ==> CastEmail(u.email.value) == u.email.value)
  }

  function UpdateUser(s: Store, id: Id, b: UserUpdate): (r: Reply<User>)
    ensures r.result.Err? ==> r.store == s
    ensures id !in s.users ==> r.result == Err(Fail(404, UserNotFound))
    ensures id in s.users && Truthy(b.phoneNumber) ==> r.result == Err(Fail(400, PhoneImmutable))
    ensures id in s.users && !Truthy(b.phoneNumber) && Truthy(b.email) && IsEmailTaken(s.users, b.email.value, Some(id)) ==>
              r.result == Err(Fail(400, EmailTaken))
    ensures r.result.Ok? ==>
              && id in s.users
              && !Truthy(b.phoneNumber)
              && (Truthy(b.email) ==> !IsEmailTaken(s.users, b.email.value, Some(id)))
              && (Truthy(b.username) ==> !IsUsernameTaken(s.users, b.username.value, Some(id)))
              && r.result.value == Assign(s.users[id], b)
              && SchemaValid(r.result.value)
              && UserIndexesHold(r.store.users)
              && r.store == s.(users := s.users[id := r.result.value])
  {
    if id !in s.users then Reply(s, Err(Fail(404, UserNotFound)))
    else if Truthy(b.phoneNumber) then Reply(s, Err(Fail(400, PhoneImmutable)))
    else if Truthy(b.email) && IsEmailTaken(s.users, b.email.value, Some(id)) then Reply(s, Err(Fail(400, EmailTaken)))
    else if Truthy(b.username) && IsUsernameTaken(s.users, b.username.value, Some(id)) then Reply(s, Err(Fail(400, UsernameTaken)))
    else
      var next := Assign(s.users[id], b);
      var users := s.users[id := next];
      if !SchemaValid(next) || !UserIndexesHold(users) then Reply(s, Err(Crash(SaveRejected)))
      else Reply(s.(users := users), Ok(next))
  }

  /** Assigning through the setters keeps a normalised user normalised. */
  lemma AssignKeepsNormalised(u: User, b: UserUpdate)
    requires Normalised(u)
    ensures Normalised(Assign(u, b))
  {
    if b.username.Some? { TrimIdempotent(b.username.value); }
    if b.phoneNumber.Some? { TrimIdempotent(b.phoneNumber.value); }
    if b.email.Some? { TrimLowerStable(b.email.value); }
  }

  /** An update stores its fields in their setters' form, so stored users stay normalised. */
  lemma UpdateKeepsNormalised(s: Store, id: Id, b: UserUpdate)
    requires forall k :: k in s.users ==> Normalised(s.users[k])
    ensures var r := UpdateUser(s, id, b);
            forall k :: k in r.store.users ==> Normalised(r.store.users[k])
  {
    var r := UpdateUser(s, id, b);
    if r.result.Ok? {
      AssignKeepsNormalised(s.users[id], b);
      var users := s.users[id := Assign(s.users[id], b)];
      assert r.store.users == users;
      forall k | k in users ensures Normalised(users[k]) {
        if k != id {
          assert users[k] == s.users[k];
        }
      }
    }
  }

  /** Re-submitting one's own email and username is not a conflict. */
  lemma OwnValuesAccepted(s: Store, id: Id, b: UserUpdate)
    requires id in s.users && UserIndexesHold(s.users) && SchemaValid(s.users[id]) && Normalised(s.users[id])
    requires b.phoneNumber.None? && b.role.None? && b.status.None? && b.walletBalance.None?
    requires b.username == Some(s.users[id].username) && b.email == s.users[id].email
    ensures UpdateUser(s, id, b).result == Ok(s.users[id])
  {
    var u := s.users[id];
    if Truthy(b.email) {
      OwnEmailFree(s.users, id);
    }
    OwnUsernameFree(s.users, id);
    AssignOwnValues(u, b);
    assert s.users[id := u] == s.users;
  }

  lemma AssignOwnValues(u: User, b: UserUpdate)
    requires Normalised(u)
    requires b.phoneNumber.None? && b.role.None? && b.status.None? && b.walletBalance.None?
    requires b.username == Some(u.username) && b.email == u.email
    ensures Assign(u, b) == u
  {
  }

  lemma OwnEmailFree(users: map<Id, User>, id: Id)
    requires id in users && UserIndexesHold(users) && users[id].email.Some?
    requires CastEmail(users[id].email.value) == users[id].email.value
    ensures !IsEmailTaken(users, users[id].email.value, Some(id))
  {
  }

  lemma OwnUsernameFree(users: map<Id, User>, id: Id)
    requires id in users && UserIndexesHold(users)
    requires CastUsername(users[id].username) == users[id].username
    ensures !IsUsernameTaken(users, users[id].username, Some(id))
  {
  }

  /**
   * An email held by another user is refused in any spelling that casts to
   * it, whatever else the body carries.
   */
  lemma ForeignEmailRefused(s: Store, id: Id, other: Id, b: UserUpdate)
    requires id in s.users && other in s.users && other != id
    requires b.phoneNumber.None? && b.email.Some? && b.email.value != ""
    requires s.users[other].email == Some(CastEmail(b.email.value))
    ensures UpdateUser(s, id, b).result == Err(Fail(400, EmailTaken))
    ensures UpdateUser(s, id, b).store == s
  {
    assert IsEmailTaken(s.users, b.email.value, Some(id));
  }

  /** "A@B.com" is refused while another account holds "a@b.com". */
  lemma MixedCaseEmailRefused(s: Store, id: Id, other: Id)
    requires id in s.users && other in s.users && other != id
    requires s.users[other].email == Some("a@b.com")
    ensures UpdateUser(s, id, UserUpdate(None, Some("A@B.com"), None, None, None, None)).result == Err(Fail(400, EmailTaken))
  {
    MixedCaseEmailCast();
    ForeignEmailRefused(s, id, other, UserUpdate(None, Some("A@B.com"), None, None, None, None));
  }

  /**
   * The service writes any integer into the wallet, negative amounts
   * included: the schema only demands an integer. The bound is the admin
   * route's alone (`AdminWalletAdmitted`).
   */
  lemma AdminSetsAnyWallet(s: Store, id: Id, amount: int)
    requires id in s.users && SchemaValid(s.users[id]) && UserIndexesHold(s.users)
    ensures var r := UpdateUser(s, id, UserUpdate(None, None, None, None, None, Some(amount)));
            && r.result.Ok?
            && r.store.users[id].walletBalance == amount
            && r.store.users[id] == s.users[id].(walletBalance := amount)
  {
    var u := s.users[id];
    var next := u.(walletBalance := amount);
    assert Assign(u, UserUpdate(None, None, None, None, None, Some(amount))) == next;
    assert UserIndexesHold(s.users[id := next]);
  }

  /** The admin route's validator: a supplied `walletBalance` is a non-negative integer. */
  predicate AdminWalletAdmitted(b: UserUpdate) {
    b.walletBalance.Some? ==> b.walletBalance.value >= 0
  }

  /**
   * Through the admin route a wallet never turns negative: an admitted body
   * either leaves the balance alone or writes a non-negative one, and a
   * negative amount is refused before the service is reached.
   */
  lemma AdminRouteKeepsWalletNonNegative(s: Store, id: Id, b: UserUpdate)
    requires id in s.users && s.users[id].walletBalance >= 0
    requires UpdateUser(s, id, b).result.Ok?
    ensures AdminWalletAdmitted(b) ==> UpdateUser(s, id, b).store.users[id].walletBalance >= 0
    ensures b.walletBalance.Some? && b.walletBalance.value < 0 ==> !AdminWalletAdmitted(b)
  {
  }

  // ---------------------------------------------------------------------
  // deleteUserById
  // ---------------------------------------------------------------------

  /** Some team this user captains still has other members. */
  predicate CaptainOfCrowdedTeam(teams: map<Id, TeamModel.Team>, id: Id) {
    exists t :: t in teams && teams[t].captain == id && |teams[t].members| > 1
  }

  /** `captainedTeams.filter(t => t.members.length === 1)`. */
  predicate SoleCaptain(t: TeamModel.Team, id: Id) {
    t.captain == id && |t.members| == 1
  }

  /** The teams that survive a deletion, with the user pulled from their members. */
  function RemainingTeams(teams: map<Id, TeamModel.Team>, id: Id): (r: map<Id, TeamModel.Team>)
    ensures forall t :: t in r <==> t in teams && !SoleCaptain(teams[t], id)
    ensures forall t :: t in r ==> r[t] == teams[t].(members := Without(teams[t].members, id))
  {
    map t | t in teams && !SoleCaptain(teams[t], id) :: teams[t].(members := Without(teams[t].members, id))
  }

  function DeleteUser(s: Store, id: Id, storageFault: bool): (r: Reply<()>)
    ensures r.result.Err? ==> r.store == s
    ensures id !in s.users ==> r.result == Err(Fail(404, UserNotFound))
    ensures id in s.users && CaptainOfCrowdedTeam(s.teams, id) ==> r.result == Err(Fail(400, CaptainOfTeam))
    ensures id in s.users && !CaptainOfCrowdedTeam(s.teams, id) && storageFault ==>
              r.result == Err(Fail(500, StorageFailure))
    ensures r.result.Ok? <==> id in s.users && !CaptainOfCrowdedTeam(s.teams, id) && !storageFault
    ensures r.result.Ok? ==>
              && r.store.users == s.users - {id}
              && r.store.teams == RemainingTeams(s.teams, id)
              && (forall k :: 0 <= k < |r.store.registrations| ==> r.store.registrations[k].user != id)
              && r.store.registrations == Filter(s.registrations, (g: Registration) => g.user != id)
              && (forall d :: d in r.store.disputes ==> r.store.disputes[d].reporter != id)
              && (forall d :: d in s.disputes && s.disputes[d].reporter != id ==>
                    d in r.store.disputes && r.store.disputes[d] == s.disputes[d])
              && r.store.(users := s.users, teams := s.teams, registrations := s.registrations,
                          disputes := s.disputes) == s
  {
    if id !in s.users then Reply(s, Err(Fail(404, UserNotFound)))
    else if CaptainOfCrowdedTeam(s.teams, id) then Reply(s, Err(Fail(400, CaptainOfTeam)))
    else if storageFault then Reply(s, Err(Fail(500, StorageFailure)))
    else
      Reply(s.(
        registrations := Filter(s.registrations, (g: Registration) => g.user != id),
        disputes := map d | d in s.disputes && s.disputes[d].reporter != id :: s.disputes[d],
        teams := RemainingTeams(s.teams, id),
        users := s.users - {id}), Ok(()))
  }

  /**
   * The cascade takes only what is the user's: every registration of another
   * user survives, and the registrations keep their order and multiplicity.
   */
  lemma DeleteUserKeepsOthersRegistrations(s: Store, id: Id, storageFault: bool)
    requires DeleteUser(s, id, storageFault).result.Ok?
    ensures var r := DeleteUser(s, id, storageFault).store;
            && (forall k :: 0 <= k < |s.registrations| && s.registrations[k].user != id ==>
                  s.registrations[k] in r.registrations)
            && multiset(r.registrations) <= multiset(s.registrations)
  {
    var keep := (g: Registration) => g.user != id;
    forall k | 0 <= k < |s.registrations| && s.registrations[k].user != id
      ensures s.registrations[k] in Filter(s.registrations, keep)
    {
      FilterKeeps(s.registrations, keep, k);
    }
  }

  /** After a deletion the user is in no team, and only the teams they captained alone are gone. */
  lemma DeleteUserLeavesNoMembership(s: Store, id: Id)
    requires DeleteUser(s, id, false).result.Ok?
    ensures var t := DeleteUser(s, id, false).store.teams;
            && (forall k :: k in t ==> id !in t[k].members)
            && (forall k :: k in s.teams && s.teams[k].captain != id ==> k in t)
            && (forall k :: k in s.teams && SoleCaptain(s.teams[k], id) ==> k !in t)
  {
  }

  /** The captain-in-members rule holds for every team after a deletion if it held before. */
  lemma DeleteUserKeepsCaptains(s: Store, id: Id)
    requires DeleteUser(s, id, false).result.Ok?
    requires forall k :: k in s.teams ==> TeamModel.CaptainIsMember(s.teams[k])
    ensures var t := DeleteUser(s, id, false).store.teams;
            forall k :: k in t ==> TeamModel.CaptainIsMember(t[k])
  {
    var t := DeleteUser(s, id, false).store.teams;
    forall k | k in t ensures TeamModel.CaptainIsMember(t[k]) {
      var old_ := s.teams[k];
      if old_.captain == id {
        assert false;
      }
      var i :| 0 <= i < |old_.members| && old_.members[i] == old_.captain;
      assert old_.members[i] != id;
    }
  }
}

=== FILE: wrappers.dfy ===
/** Failure-compatible result types shared by every module of the model. */
module Wrappers {

  /** An optional value: a document that may be absent, a field that may be unset. */
  datatype Option<+T> = None | Some(value: T) {

    /** Returns the value, or `default` when there is none. */
    function GetOr(default: T): T {
      match this
      case Some(v) => v
      case None => default
    }
  }

  /** The outcome of an operation: a value, or the error the source throws. */
  datatype Result<+T, +E> = Ok(value: T) | Err(error: E) {

    predicate IsFailure() {
      Err?
    }

    function PropagateFailure<U>(): Result<U, E>
      requires Err?
    {
      Err(error)
    }

    function Extract(): T
      requires Ok?
    {
      value
    }
  }
}
